=== FILE: README.md ===
# LINE face-naming bot: the conversation state machine in Dafny

This project models a LINE chat bot that learns the faces of the people in a
chat. Every sender (a user, group or room) is always at one node of a small
dialogue graph. The node is stored as one `Conversation` row per sender: a
route key such as `/image/whoare/select` plus a JSON document of step data.

Each incoming webhook event is routed to the Reply handler of the sender's
current node. A handler either stays put, moves the sender to another node
(a Start transition, which runs that node's Start handler straight away), or
throws. The router turns a throw into a reset to `("/", {})`.

The model covers:

- **The router** (`ConversationRouteService`). It builds the Start and Reply
  tables and the single global slot from declared classes and attributes
  (`registry.dfy`, `attributes.dfy`). The store is a map from sender to
  `(path, data)` (`store.dfy`). `RouteStart` and `RouteReply`, with recovery,
  are in `router.dfy`, and `StartConversation` is the base class's forwarder.
  The router is generic over the handler identifiers and the handlers' side
  state. Nested starts are bounded by a fuel argument, and `App.AppRouteCompletes`
  proves the bot's own graph never runs out of it.
- **The handlers**, as pure decision functions from (event, step data, side
  state) to a `Step` (new side state plus outcome):
  - Root and remember (`root_conversation.dfy`);
  - face detection, the selection carousel and the naming loop
    (`image_conversation.dfy`);
  - the forget-everything confirmation (`reset_conversation.dfy`);
  - the lifecycle handler (`global_conversation.dfy`).

  Their shared pieces are in `dialogue.dfy`.
- **The person service** (`persons.dfy`). The database is a pair of lists.
  The Face API is an oracle record of functions, and every remote call is
  recorded in order. The row constraints of `Conversation`
  (`conversation_record.dfy`) and `Person` are also here.
- **The application** (`app.dfy`). It gives the bot's four conversation
  classes as declarations and proves that registration builds exactly the
  expected tables. It dispatches handler ids to the handler functions and
  proves the whole-graph properties: termination, and departures ending at `/`.
- **The webhook entry point** (`request_handler.dfy`). It drops the
  verification sender, routes every other event once, and swallows failures.

Helper modules:

- `text.dfy`: string operations with the .NET behaviours the handlers rely on.
- `sequences.dfy`: the LINQ operations used.
- `json.dfy`: JSON documents, with an absent document meaning `{}`.
- `events.dfy`: the LINE event shapes.

Some choices in the model:

- **The reply lookup sees the global handler's reset.** The store in the world
  passed on after the global phase is the one the reply phase reads. This
  matches the source: the upsert mutates the tracked entity that the reply
  lookup reads.
- **Which failures the router catches.**
  - A handler's exception is a `Throw` outcome, and the router recovers from
    it. This includes an invocation whose arguments do not fit the method
    (`SignatureMismatch`).
  - The failures the source leaves outside its try blocks cannot arise in the
    model:
    - the store is a total map;
    - the stored data is already parsed;
    - handler resolution is a table lookup.
  - Nested starts deeper than the fuel end in `DepthExceeded`.
    `App.AppRouteCompletes` proves this never happens for the bot.
- **Messaging as an oracle.** Sending a message is an oracle (`Env.delivered`).
  A refused message is an exception in the handler, as in the source.

## Model

| member | source | states |
|---|---|---|
| ConversationStore.Find | src/App/Linebot/Conversations/Core/ConversationRouteService.cs:118-121 | finds a sender's record exactly when the sender has one, and returns the stored record |
| ConversationStore.Upsert | src/App/Linebot/Conversations/Core/ConversationRouteService.cs:126-149 | afterwards the sender has exactly the given path and data (null stored as `{}`), the key set gains only the sender, and every other sender's record is untouched |
| ConversationStore.UpsertLastWriteWins | src/App/Linebot/Conversations/Core/ConversationRouteService.cs:141-146 | a second upsert overwrites path and data entirely, with no merge |
| ConversationStore.UpsertNullIsEmpty | src/App/Linebot/Conversations/Core/ConversationRouteService.cs:135-144 | writing null data is the same as writing `{}` |
| ConversationStore.UpsertStoredIsIdentity | src/App/Linebot/Conversations/Core/ConversationRouteService.cs:126-149 | writing back what is stored leaves the store unchanged |
| Json.Normalize | src/App/Linebot/Conversations/Core/ConversationRouteService.cs:135-144 | a present document is kept, and an absent one becomes the empty object |
| Json.StringArray | src/App/Linebot/Conversations/ImageConversation.cs:191-197 | a string list becomes a JSON array whose items render back to the strings, position by position |
| Json.StringsOf | src/App/Linebot/Conversations/ImageConversation.cs:213-219 | reading an array's item texts gives one text per item, in order |
| Json.StringArrayRoundTrip | src/App/Linebot/Conversations/ImageConversation.cs:191-219 | reading back a written string array gives the original list |
| ConversationRecord.ResetRow | src/App/Linebot/Conversations/Core/Conversation.cs:12-25 | the reset row `("/", "{}")` meets the sender-id, path and data length constraints for any 33-character sender |
| Attributes.DefaultPathAttribute | src/App/Linebot/Conversations/Core/ConversationPathAttribute.cs:8-25 | the parameterless attribute has no path and the Start action, the enum's first member |
| Attributes.NewPathAttribute | src/App/Linebot/Conversations/Core/ConversationPathAttribute.cs:10-14 | construction succeeds iff the path is non-null, keeping path and action, and a null path is `ArgumentNullException` |
| Attributes.DefaultRouteAttribute | src/App/Linebot/Conversations/Core/ConversationRouteAttribute.cs:8 | the parameterless group attribute has no path |
| Attributes.NewRouteAttribute | src/App/Linebot/Conversations/Core/ConversationRouteAttribute.cs:10-13 | construction succeeds iff the path is non-null, and keeps the path |
| Attributes.SubPath | src/App/Linebot/Conversations/Core/ConversationRouteService.cs:91 | a missing sub-path counts as the empty string |
| Text.TrimEnd | src/App/Linebot/Conversations/Core/ConversationRouteService.cs:63 | the result is a prefix of the input that does not end in the character, and only that character was removed |
| Text.ContainsIffOccurs | src/App/Linebot/Conversations/RootConversation.cs:113 | `Contains` holds exactly when the word occurs at some position |
| Text.Trim | src/App/Linebot/Conversations/ImageConversation.cs:231-234 | the result is the input with only skippable characters removed before and after it, and it neither starts nor ends with one; an input that does not start or end with one is unchanged |
| Text.PaddedUnique | src/App/Linebot/Conversations/ImageConversation.cs:231-234 | a string has only one infix with white surroundings that does not start or end with white space, so trimming is determined |
| Text.TrimPadded | src/App/Linebot/Conversations/ImageConversation.cs:231-234 | trimming white space around a text that does not start or end with it gives that text back |
| Text.Split | src/App/Linebot/Conversations/ImageConversation.cs:228-229 | splitting gives at least one piece and no piece contains the separator |
| Text.SplitPrefix | src/App/Linebot/Conversations/ImageConversation.cs:228-229 | a separator-free prefix joins the first piece of the rest |
| Text.SplitJoin | src/App/Linebot/Conversations/ImageConversation.cs:228-229 | splitting a join of separator-free pieces gives the pieces back |
| Text.NatToString | src/App/Linebot/Conversations/ImageConversation.cs:249 | the decimal text of a natural number is non-empty and all digits |
| Text.IntToString | src/App/Linebot/Conversations/ImageConversation.cs:249 | the decimal text of an integer is non-empty and has no comma |
| Text.DigitsValueOfNatToString | src/App/Linebot/Conversations/ImageConversation.cs:249 | the digits written for a number read back as that number |
| Text.ParseInt32 | src/App/Linebot/Conversations/ImageConversation.cs:231-234 | a text parses iff, with white space trimmed, it is an optional sign and ASCII digits whose value fits in 32 bits, and then to that value |
| Text.ParseInt32OfParts | src/App/Linebot/Conversations/ImageConversation.cs:231-234 | white space, a sign of "", "+" or "-", digits and white space parse to the signed value when it fits in 32 bits, and fail otherwise |
| Text.IntToStringRoundTrip | src/App/Linebot/Conversations/ImageConversation.cs:228-235 | `int.Parse(i.ToString())` is `i` for every 32-bit integer |
| Text.LowerAscii | src/App/Linebot/Persons/PersonService.cs:35-38 | lowering keeps the length and lowers each character independently |
| Text.LowerAsciiIdempotent | src/App/Linebot/Persons/PersonService.cs:35-38 | lowering twice is lowering once |
| Text.ParseBool | src/App/Linebot/Conversations/RootConversation.cs:57 | a text parses iff, with white space and NUL trimmed and ASCII letters lowered, it is `true` or `false`, and then to that value |
| Text.ParseBoolOfParts | src/App/Linebot/Conversations/RootConversation.cs:57 | the words `true` and `false` in any letter case, with white space or NUL around them, parse to their value |
| Text.ParseBoolWideSpace | src/App/Linebot/Conversations/RootConversation.cs:57 | trailing non-ASCII white space such as U+3000 is trimmed: `"TRUE\u3000"` parses as true |
| Text.BoolRoundTrip | src/App/Linebot/Conversations/RootConversation.cs:57 | a written flag reads back as itself |
| Sequences.Take | src/App/Linebot/Conversations/ImageConversation.cs:220 | `Take(n)` keeps the first `min(len, n)` elements unchanged |
| Sequences.Zip | src/App/Linebot/Conversations/ImageConversation.cs:158-164 | `Zip` pairs positions up to the shorter length |
| Sequences.RemoveAt | src/App/Linebot/Conversations/ImageConversation.cs:422-424 | removing index `i` shortens by one, keeps the elements before `i` and shifts those after it |
| Sequences.RemoveAtMultiset | src/App/Linebot/Conversations/ImageConversation.cs:422-424 | exactly the chosen element leaves the multiset |
| Sequences.Present | src/App/Linebot/Conversations/ImageConversation.cs:160 | every value kept comes from a filled slot, and every filled slot's value is kept |
| Sequences.Absent | src/App/Linebot/Conversations/ImageConversation.cs:161-164 | every element kept has an empty aligned slot |
| Sequences.PresentAppend | src/App/Linebot/Conversations/ImageConversation.cs:160 | the filter distributes over concatenation: the values of a joined list are those of each part, in order |
| Sequences.PresentSnoc | src/App/Linebot/Conversations/ImageConversation.cs:160 | appending a filled slot appends its value and appending an empty slot appends nothing; with the empty case this fixes the result as the order-preserving filter |
| Sequences.AbsentAppend | src/App/Linebot/Conversations/ImageConversation.cs:161-164 | the null-slot filter distributes over concatenation of aligned lists |
| Sequences.AbsentSnoc | src/App/Linebot/Conversations/ImageConversation.cs:161-164 | appending an element with an empty slot appends it, and one with a filled slot appends nothing; so no element is repeated, dropped or reordered |
| Sequences.AbsentComplete | src/App/Linebot/Conversations/ImageConversation.cs:161-164 | every element whose aligned slot is empty is kept |
| Sequences.AbsentNonEmptyIff | src/App/Linebot/Conversations/ImageConversation.cs:161-164 | some element is kept iff some slot is empty |
| Sequences.PresentAbsentPartition | src/App/Linebot/Conversations/ImageConversation.cs:157-164 | known people and unknown faces together account for every face |
| Sequences.AllAbsent | src/App/Linebot/Conversations/ImageConversation.cs:157-164 | with every slot null, all faces are unknown and nobody is known |
| Sequences.SelectIndexed | src/App/Linebot/Conversations/ImageConversation.cs:218-222 | an indexed selection that succeeds has one value per element |
| Sequences.SelectIndexedSpec | src/App/Linebot/Conversations/ImageConversation.cs:218-222 | the selection succeeds iff every element succeeds, and then value `i` is element `i`'s value at index `start + i` |
| Sequences.SelectIndexedOfEach | src/App/Linebot/Conversations/ImageConversation.cs:218-222 | when element `i` selects value `i` for every `i`, the selection is exactly those values |
| Registry.ComposeKeyParts | src/App/Linebot/Conversations/Core/ConversationRouteService.cs:63-92 | a key is the group path without trailing slashes, one slash, then the sub-path |
| Registry.ComposeKeyInjective | src/App/Linebot/Conversations/Core/ConversationRouteService.cs:91-92 | within one group, different sub-paths give different keys |
| Registry.ComposeKeyExamples | src/App/Linebot/Conversations/Core/ConversationRouteService.cs:91-92 | `("/","")` gives `/`, `("/image","detect")` gives `/image/detect`, and `("/image","")` gives `/image/`, which differs from `/image` |
| Registry.Discover | src/App/Linebot/Conversations/Core/ConversationRouteService.cs:43-50 | exactly the classes marked `[Conversation]`, other than the base class, are registered |
| Registry.DiscoverKeepsMarked | src/App/Linebot/Conversations/Core/ConversationRouteService.cs:43-50 | a list of marked non-base classes is scanned unchanged and in order |
| Registry.AddRoute | src/App/Linebot/Conversations/Core/ConversationRouteService.cs:94-111 | a registration writes only its own action's table, overwriting the key, and leaves the other table and the global slot alone |
| Registry.RegisterEntriesAppend | src/App/Linebot/Conversations/Core/ConversationRouteService.cs:55-65 | registering two lists in turn is registering their concatenation |
| Registry.LastWins | src/App/Linebot/Conversations/Core/ConversationRouteService.cs:94-111 | each table maps a key to its last registration and keeps keys that were never registered |
| Registry.LastWinsGlobal | src/App/Linebot/Conversations/Core/ConversationRouteService.cs:88-113 | path registrations never touch the global slot |
| Registry.RegisterEntriesTablesOnly | src/App/Linebot/Conversations/Core/ConversationRouteService.cs:88-113 | the tables after registration depend only on the tables before |
| Registry.RegisterGlobals | src/App/Linebot/Conversations/Core/ConversationRouteService.cs:67-82 | globals register iff at most one slot is used in total; a second one is `ArgumentException` |
| Registry.RegisterTypesSpec | src/App/Linebot/Conversations/Core/ConversationRouteService.cs:43-83 | registration fails iff some class has path methods without a group path or two globals appear; otherwise the tables are the flattened registrations and the slot holds the single global |
| Registry.BuildFailsIff | src/App/Linebot/Conversations/Core/ConversationRouteService.cs:43-83 | building fails iff a scanned class is misdeclared or there are two globals anywhere |
| Registry.BuildTables | src/App/Linebot/Conversations/Core/ConversationRouteService.cs:43-113 | a built table holds a key iff some scanned method registers it for that action, and maps it to the last such method; the slot is filled iff there is one global |
| Registry.MissingGroupPathFails | src/App/Linebot/Conversations/Core/ConversationRouteService.cs:57-63 | a class with path methods and no group path fails registration: there is no default `/` |
| Registry.GlobalOnlyTypeRegisters | src/App/Linebot/Conversations/Core/ConversationRouteService.cs:58-82 | a class with only a global method registers without any group path |
| Registry.PathEntriesEmpty | src/App/Linebot/Conversations/Core/ConversationRouteService.cs:57-65 | a class without path methods contributes no entries |
| Router.Recover | src/App/Linebot/Conversations/Core/ConversationRouteService.cs:180-185 | recovery stores `("/", {})` for the sender, dispatches nothing and touches no one else |
| Router.RouteStart | src/App/Linebot/Conversations/Core/ConversationRouteService.cs:154-187 | a start changes only the sender's record and dispatches only start handlers |
| Router.StartConversation | src/App/Linebot/Conversations/Core/ConversationBase.cs:19-22 | the base class forwards sender, path and data unchanged to the router's start |
| Router.Settle | src/App/Linebot/Conversations/Core/ConversationRouteService.cs:243-262 | a handler outcome is applied to the sender alone, and a throw is exactly recovery |
| Router.GlobalPhase | src/App/Linebot/Conversations/Core/ConversationRouteService.cs:201-234 | the global phase changes only the sender, and it is a no-op for message and postback events or when no global is registered |
| Router.ReplyPhase | src/App/Linebot/Conversations/Core/ConversationRouteService.cs:236-263 | the reply phase changes only the sender and never calls the global handler |
| Router.RouteReply | src/App/Linebot/Conversations/Core/ConversationRouteService.cs:192-264 | routing a reply changes only the sender, and the sender always has a record afterwards |
| Router.StartWithoutRouteOnlyPersists | src/App/Linebot/Conversations/Core/ConversationRouteService.cs:156-160 | a start to a path with no start route only writes the record |
| Router.StartDispatchesStoredData | src/App/Linebot/Conversations/Core/ConversationRouteService.cs:156-178 | the start handler receives the stored (re-read) data, after the record was written |
| Router.StartFailureResets | src/App/Linebot/Conversations/Core/ConversationRouteService.cs:180-185 | a throwing start handler leaves the sender at `("/", {})` |
| Router.StartNullDataIsEmpty | src/App/Linebot/Conversations/Core/ConversationBase.cs:19 | starting without data is starting with `{}` |
| Router.FirstContactStartsAtRoot | src/App/Linebot/Conversations/Core/ConversationRouteService.cs:194-199 | a new sender is created at `("/", {})` before the reply handler of `/` sees the event |
| Router.GlobalOnlyForLifecycle | src/App/Linebot/Conversations/Core/ConversationRouteService.cs:201-207 | the global handler is called only for events other than message and postback |
| Router.ReplyAfterGlobal | src/App/Linebot/Conversations/Core/ConversationRouteService.cs:236-240 | the reply lookup reads the record as the global phase left it |
| Router.ReplyFailureResets | src/App/Linebot/Conversations/Core/ConversationRouteService.cs:255-262 | a throwing reply handler leaves the sender at `("/", {})` |
| Router.ReplyWithoutRouteIsNoOp | src/App/Linebot/Conversations/Core/ConversationRouteService.cs:236 | with no reply route for the stored path nothing changes |
| Router.RankedStartCompletes | src/App/Linebot/Conversations/Core/ConversationRouteService.cs:154-187 | if every start handler only starts lower-ranked paths, a start with fuel at least its path's rank never runs out |
| Router.RankedReplyCompletes | src/App/Linebot/Conversations/Core/ConversationRouteService.cs:192-264 | with ranked starts and reply and global handlers targeting paths within the fuel, a reply never runs out |
| Router.RankedGlobalCompletes | src/App/Linebot/Conversations/Core/ConversationRouteService.cs:201-234 | the global phase never runs out of fuel when the global handler's targets have rank within it |
| Router.RankedReplyPhaseCompletes | src/App/Linebot/Conversations/Core/ConversationRouteService.cs:236-263 | the reply phase never runs out of fuel when every reply handler's targets have rank within it |
| Router.StartAgrees | src/App/Linebot/Conversations/Core/ConversationRouteService.cs:154-187 | two dispatchers that agree on every start handler route every start identically |
| Router.GlobalAgrees | src/App/Linebot/Conversations/Core/ConversationRouteService.cs:201-234 | dispatchers that agree on the start and global handlers give the same global phase |
| Router.ReplyPhaseAgrees | src/App/Linebot/Conversations/Core/ConversationRouteService.cs:236-263 | reply handlers that differ only by throwing where the other goes to `/` give the same reply phase |
| Router.ReplyAgrees | src/App/Linebot/Conversations/Core/ConversationRouteService.cs:192-264 | the same holds for the whole reply routing |
| Router.GlobalResetEndsAtRoot | src/App/Linebot/Conversations/Core/ConversationRouteService.cs:201-263 | a lifecycle event whose global handler goes to `/` or throws, with `/` ignoring it, leaves the sender at `("/", {})` |
| Router.UpsertKeepsPaths | src/App/Linebot/Conversations/Core/ConversationRouteService.cs:126-149 | writing a path of a set keeps every stored path in the set |
| Router.StartKeepsPaths | src/App/Linebot/Conversations/Core/ConversationRouteService.cs:154-187 | when every handler target and `/` lie in a set, a start at a path of the set leaves only paths of the set in the store |
| Router.SettleKeepsPaths | src/App/Linebot/Conversations/Core/ConversationRouteService.cs:243-262 | applying a handler outcome, recovery included, keeps the stored paths in such a set |
| Router.ReplyKeepsPaths | src/App/Linebot/Conversations/Core/ConversationRouteService.cs:192-264 | routing any event keeps the stored paths in such a set |
| Router.GlobalKeepsPaths | src/App/Linebot/Conversations/Core/ConversationRouteService.cs:201-234 | the global dispatch, including its recovery, keeps the stored paths in such a set |
| Router.ReplyPhaseKeepsPaths | src/App/Linebot/Conversations/Core/ConversationRouteService.cs:236-263 | the path dispatch, including its recovery, keeps the stored paths in such a set |
| Dialogue.Say | src/App/Linebot/Conversations/RootConversation.cs:137-144 | a delivered message is appended to the sent list and the intended outcome follows; a refused one is an exception with nothing sent |
| Dialogue.Served | src/App/Linebot/Persons/PersonService.cs:44-258 | a person-service step replaces the tables and appends its remote calls |
| Dialogue.FieldText | src/App/Linebot/Conversations/RootConversation.cs:72 | reading a missing key is a null dereference, and a string field reads as its text |
| Dialogue.FieldItems | src/App/Linebot/Conversations/ImageConversation.cs:213-219 | a missing array is a null source, and an array reads as its items |
| Dialogue.ItemText | src/App/Linebot/Conversations/ImageConversation.cs:226-228 | an item reads iff it renders, and reads as its rendering |
| Dialogue.TokenDoc | src/App/Linebot/Conversations/RootConversation.cs:116-120 | the `{ReplyToken}` document reads back the token |
| RootConversation.Explained | src/App/Linebot/Conversations/RootConversation.cs:57 | a missing flag is false, a boolean flag is its value, and a null, array or object flag is an exception |
| RootConversation.ParseResult | src/App/Linebot/Conversations/RootConversation.cs:57 | `bool.Parse` succeeds exactly on the flag texts, and the empty text fails |
| RootConversation.HandleText | src/App/Linebot/Conversations/RootConversation.cs:109-147 | text handling changes no person data, sends at most one message and moves only to named nodes |
| RootConversation.Root | src/App/Linebot/Conversations/RootConversation.cs:41-64 | non-message events and messages that are neither text nor image do nothing; an image starts `/image/detect` with the token, message id and remember mode off |
| RootConversation.RememberStart | src/App/Linebot/Conversations/RootConversation.cs:69-74 | the prompt is sent iff a token is present and deliverable; there is never a transition |
| RootConversation.RememberReply | src/App/Linebot/Conversations/RootConversation.cs:79-104 | non-message events do nothing, an image starts detection in remember mode, and any other message goes back to `/` exactly when the refusal text is delivered (otherwise it throws) |
| RootConversation.RememberWordFirst | src/App/Linebot/Conversations/RootConversation.cs:113-121 | text containing "覚えて" starts `/remember` with the token, whatever else it says |
| RootConversation.ResetWordsExact | src/App/Linebot/Conversations/RootConversation.cs:122-130 | text starts `/reset/confirm` iff it is exactly "リセット" or "忘れて" |
| RootConversation.ExplainOnce | src/App/Linebot/Conversations/RootConversation.cs:133-146 | the first unrecognised text is answered and marks `Explained`; the second one, read from the stored data, is silent with no transition |
| RootConversation.NullExplainedThrows | src/App/Linebot/Conversations/RootConversation.cs:57 | a null `Explained` flag makes any text throw |
| ImageConversation.PieceValue | src/App/Linebot/Conversations/ImageConversation.cs:228-235 | a missing piece is an index error, and a read piece is its 32-bit value |
| ImageConversation.ParseRect | src/App/Linebot/Conversations/ImageConversation.cs:228-235 | text with fewer than four comma-separated pieces does not parse |
| ImageConversation.RectRoundTrip | src/App/Linebot/Conversations/ImageConversation.cs:196-235 | a rectangle of 32-bit values written as `L,T,W,H` parses back to itself |
| ImageConversation.FaceIdTexts | src/App/Linebot/Conversations/ImageConversation.cs:194 | one GUID text per face, aligned |
| ImageConversation.RectTexts | src/App/Linebot/Conversations/ImageConversation.cs:195-196 | one rectangle text per face, aligned |
| ImageConversation.SelectDocParallel | src/App/Linebot/Conversations/ImageConversation.cs:191-197 | the selection data holds equal-length id and rectangle arrays that read back as the faces' ids and rectangles |
| ImageConversation.Names | src/App/Linebot/Conversations/ImageConversation.cs:170 | one name per known person, in order |
| ImageConversation.AskAbout | src/App/Linebot/Conversations/ImageConversation.cs:188-204 | the dialogue goes to selection iff some face is unknown, and otherwise back to `/` |
| ImageConversation.SingleFace | src/App/Linebot/Conversations/ImageConversation.cs:101-132 | a single face leads only to selection or to `/` |
| ImageConversation.SingleFaceAsksUnlessKnown | src/App/Linebot/Conversations/ImageConversation.cs:107-131 | in remember mode, or when nobody is found, the one face is asked about; a known face goes to `/` exactly when "この人は {name} だね！" is delivered, and that is the one message sent |
| ImageConversation.Sorted | src/App/Linebot/Conversations/ImageConversation.cs:157-164 | known people and unknown faces together number the faces, every found person is known, every face with no person is unknown, and some face is unknown iff some slot is empty |
| ImageConversation.MultipleFaces | src/App/Linebot/Conversations/ImageConversation.cs:137-205 | several faces lead only to selection or to `/` |
| ImageConversation.MultipleFacesAsksUnknowns | src/App/Linebot/Conversations/ImageConversation.cs:152-204 | outside remember mode a failed lookup throws; after a successful lookup there is a transition iff the group reply is delivered, and it asks about exactly the faces with no person found, in order, going to selection iff some face is unknown |
| ImageConversation.ReadDetectArgs | src/App/Linebot/Conversations/ImageConversation.cs:52-54 | missing token, message id or mode is an error |
| ImageConversation.DetectArgsRoundTrip | src/App/Linebot/Conversations/RootConversation.cs:155-160 | the detection data the root node writes is read back as written |
| ImageConversation.DetectStart | src/App/Linebot/Conversations/ImageConversation.cs:49-87 | detection leads only to selection or to `/` |
| ImageConversation.DetectBranchesOnCount | src/App/Linebot/Conversations/ImageConversation.cs:70-85 | no face is answered and ends the dialogue, one face goes to single handling, and two or more to multiple handling |
| ImageConversation.DetectReply | src/App/Linebot/Conversations/ImageConversation.cs:92-96 | any event at detection ends the dialogue with nothing else changed |
| ImageConversation.ColumnOf | src/App/Linebot/Conversations/ImageConversation.cs:222-258 | a column's choose data is the decimal of its index, and a readable pair always gives a column |
| ImageConversation.Columns | src/App/Linebot/Conversations/ImageConversation.cs:222-258 | one column per pair |
| ImageConversation.ColumnsSpec | src/App/Linebot/Conversations/ImageConversation.cs:222-258 | the columns build iff every pair builds, and column `i` is the column of pair `i` choosing `start + i` |
| ImageConversation.SelectCarousel | src/App/Linebot/Conversations/ImageConversation.cs:218-265 | the carousel has at most five columns |
| ImageConversation.SelectCarouselOfColumns | src/App/Linebot/Conversations/ImageConversation.cs:213-269 | with the file name and both arrays readable, the carousel is the columns of the first five pairs, with the singular alt text iff there is one face id |
| ImageConversation.ColumnOfFace | src/App/Linebot/Conversations/ImageConversation.cs:226-257 | the column for a face's written id and rectangle shows that face, and its choice reads back as its index |
| ImageConversation.FaceColumns | src/App/Linebot/Conversations/ImageConversation.cs:218-258 | the columns for written faces show the first five faces in order, column `i` choosing `i` |
| ImageConversation.FaceColumnEach | src/App/Linebot/Conversations/ImageConversation.cs:218-258 | each of the first five written pairs builds the column of its face, choosing its index |
| ImageConversation.WhoareSelectStart | src/App/Linebot/Conversations/ImageConversation.cs:210-270 | the start pushes the carousel to the sender, at most once, and never transitions; it stays exactly when the carousel builds and its push is delivered |
| ImageConversation.SelectCarouselOfDetected | src/App/Linebot/Conversations/ImageConversation.cs:218-265 | for detected faces the carousel shows the first `min(5, n)` faces in order, column `i` choosing `i`, and the alt text is singular iff there is exactly one face |
| ImageConversation.WhoareSelectReply | src/App/Linebot/Conversations/ImageConversation.cs:307-360 | lifecycle events, messages and "Cancel" go to `/`, each message or cancel exactly when its quitting reply is delivered; non-numeric postbacks do nothing |
| ImageConversation.ChoiceCarriesIndex | src/App/Linebot/Conversations/ImageConversation.cs:351-359 | choosing column `i` starts `/image/whoare/answer` with `FaceIndex = i` and the new token added to the data |
| ImageConversation.WhoareAnswerStart | src/App/Linebot/Conversations/ImageConversation.cs:365-370 | the start asks for the name and never transitions: it stays exactly when the token is present and the question is delivered, which is then the one message sent; a missing token throws |
| ImageConversation.RememberFace | src/App/Linebot/Conversations/ImageConversation.cs:431-443 | an existing person is reused with no change to the tables, and a missing one is created by the first call; after success the name is found and the face is added to that person's GUID |
| ImageConversation.ReadAnswerArgs | src/App/Linebot/Conversations/ImageConversation.cs:378-389 | a missing index is a null dereference; the index read is the parsed `FaceIndex`; a negative index is decided before the id array is read; otherwise the ids are the written array, and a face is chosen iff the index is within it |
| ImageConversation.WithoutFace | src/App/Linebot/Conversations/ImageConversation.cs:422-424 | the next data removes exactly the chosen index from both arrays and keeps every other field |
| ImageConversation.WhoareAnswerReply | src/App/Linebot/Conversations/ImageConversation.cs:375-426 | the answer leads only to selection or to `/`, and an event other than a message goes to `/` or throws with nothing changed |
| ImageConversation.NameFace | src/App/Linebot/Conversations/ImageConversation.cs:409-425 | naming a chosen face leads only to selection or to `/` |
| ImageConversation.AnswerOutOfRangeEnds | src/App/Linebot/Conversations/ImageConversation.cs:381-386 | an index outside the list, or negative with no id array at all, goes to `/` whatever the event |
| ImageConversation.NegativeIndexEnds | src/App/Linebot/Conversations/ImageConversation.cs:381-386 | a negative `FaceIndex` goes to `/` with nothing changed, whether or not the id array is present |
| ImageConversation.AnswerArgsOfChoice | src/App/Linebot/Conversations/ImageConversation.cs:379-381 | the chosen index and the face ids written by selection are read back |
| ImageConversation.WithoutChosenFace | src/App/Linebot/Conversations/ImageConversation.cs:422-424 | removing the chosen face from selection data leaves selection data for the other faces |
| ImageConversation.AnswerTextGoesRound | src/App/Linebot/Conversations/ImageConversation.cs:409-425 | with at least two faces, the answer moves on iff remembering succeeds, the reply is delivered and the face can be removed; it then starts a new selection round without the chosen face, with the name known |
| ImageConversation.AnswerRemovesChosenFace | src/App/Linebot/Conversations/ImageConversation.cs:409-425 | naming face `i` of `n >= 2` restarts selection over exactly the other `n - 1` faces, in order, iff remembering succeeds and the reply is delivered; otherwise it throws |
| ImageConversation.AnswerLastFaceEnds | src/App/Linebot/Conversations/ImageConversation.cs:414-418 | naming the last face ends at `/` with the name known iff remembering succeeds and the reply is delivered; it never restarts selection |
| ImageConversation.RememberModeAsksAll | src/App/Linebot/Conversations/ImageConversation.cs:145-150 | in remember mode, a transition asks about every detected face; it happens iff the person group is ensured and the reply is delivered |
| ImageConversation.LookupSplitsFaces | src/App/Linebot/Conversations/ImageConversation.cs:154-164 | the known and unknown lists of an empty lookup are empty, and each further face appends its person to the known list when one was found and itself to the unknown list otherwise |
| ImageConversation.LookupErrorAsksAll | src/App/Linebot/Persons/PersonService.cs:129-145 | the all-empty lookup leaves every face unknown, and a face-service error during lookup gives it unless it is "not trained" and the training fails |
| ImageConversation.CountShownOnlyUpToTen | src/App/Linebot/Conversations/ImageConversation.cs:167-186 | more than ten faces suppresses the count of unknown ones, and ten or fewer shows it |
| ResetConversation.ConfirmStart | src/App/Linebot/Conversations/ResetConversation.cs:44-72 | the confirmation with the two buttons is sent iff the token is present and deliverable; there is never a transition |
| ResetConversation.Forget | src/App/Linebot/Conversations/ResetConversation.cs:92-98 | forgetting changes the tables exactly as `ForgetAllAsync` does, then announces it and goes to `/` |
| ResetConversation.Answer | src/App/Linebot/Conversations/ResetConversation.cs:92-103 | text starting with "忘れて" forgets, and any other text goes to `/` with nothing changed |
| ResetConversation.ConfirmReplyAsWritten | src/App/Linebot/Conversations/ResetConversation.cs:80-90 | with the guard as written, every event but a text message throws a null dereference |
| ResetConversation.ConfirmReply | src/App/Linebot/Conversations/ResetConversation.cs:77-104 | with the guard corrected, the confirmation never stays, only goes to `/`, and non-text events go to `/` with nothing changed |
| ResetConversation.GuardAsWrittenThrows | src/App/Linebot/Conversations/ResetConversation.cs:82-89 | both versions agree on text messages, and differ on every other event |
| ResetConversation.KeepUnlessAsked | src/App/Linebot/Conversations/ResetConversation.cs:99-103 | unless the text starts with "忘れて", nothing is forgotten and the sender goes to `/` |
| ResetConversation.ButtonsDecide | src/App/Linebot/Conversations/ResetConversation.cs:55-67 | the "忘れて！" button forgets, and "やめて！" keeps everything |
| ResetConversation.ConfirmForgetsSender | src/App/Linebot/Conversations/ResetConversation.cs:92-98 | after a successful forget no name of the sender's is found, and other groups' people remain |
| GlobalConversation.Global | src/App/Linebot/Conversations/GlobalConversation.cs:40-53 | only Leave and Unfollow act: they forget the sender and go to `/`, send nothing, and every other event does nothing |
| GlobalConversation.DepartureForgetsSender | src/App/Linebot/Conversations/GlobalConversation.cs:46-50 | after a departure that goes to `/`, the sender's people are gone |
| GlobalConversation.ArrivalsChangeNothing | src/App/Linebot/Conversations/GlobalConversation.cs:44-52 | follow, join and beacon events have no effect |
| Persons.GuidText | src/App/Linebot/Persons/PersonService.cs:206 | a GUID is written as 36 characters with hyphens at 8, 13, 18 and 23 |
| Persons.ParseGuid | src/App/Linebot/Persons/PersonService.cs:224 | exactly the 36-character hyphenated hex texts parse |
| Persons.GuidRoundTrip | src/App/Linebot/Persons/PersonService.cs:206-224 | a GUID written as text parses back to itself |
| Persons.PersonGroupId | src/App/Linebot/Persons/PersonService.cs:35-38 | the group id has the sender id's length and is already lower case |
| Persons.FindGroup | src/App/Linebot/Persons/PersonService.cs:170-174 | finds the first row with the group id, and none iff there is none |
| Persons.FindPerson | src/App/Linebot/Persons/PersonService.cs:182-186 | finds a matching row, and none iff no row matches |
| Persons.FindPersonGroupBySender | src/App/Linebot/Persons/PersonService.cs:170-174 | finds the sender's group row, and none iff there is none |
| Persons.FindPersonByName | src/App/Linebot/Persons/PersonService.cs:182-186 | finds a person of the sender's group with the name, and none iff there is none |
| Persons.FindPersonById | src/App/Linebot/Persons/PersonService.cs:154-156 | finds a person of the group with the id, and none iff there is none |
| Persons.EnsurePersonGroup | src/App/Linebot/Persons/PersonService.cs:44-80 | an existing group is returned with no remote call; otherwise exactly one create call and one new row, with "already exists" swallowed |
| Persons.EnsuredGroupIsFound | src/App/Linebot/Persons/PersonService.cs:44-80 | after a successful ensure the sender's group is found |
| Persons.DetectFace | src/App/Linebot/Persons/PersonService.cs:87-91 | detection is one recorded call whose answer is the face service's |
| Persons.IdentifyIds | src/App/Linebot/Persons/PersonService.cs:126 | only the first ten face ids are sent to identify |
| Persons.NoneFound | src/App/Linebot/Persons/PersonService.cs:138-144 | the "nobody found" result has one empty slot per face |
| Persons.AlignPersons | src/App/Linebot/Persons/PersonService.cs:149-158 | the loop fills exactly slot `i` from result `i`, for every face |
| Persons.Aligned | src/App/Linebot/Persons/PersonService.cs:149-158 | slot `i` is set only from a first candidate of result `i` found in the database |
| Persons.FindPersonByFaces | src/App/Linebot/Persons/PersonService.cs:118-163 | the result is aligned with the faces; the first call identifies the first ten; training follows iff the error was "not trained"; a face-service error gives an all-empty result unless the training it triggers fails, which is raised; any other error propagates; a successful identify gives the aligned lookup of its candidates |
| Persons.FindPersonByFacesLoop | src/App/Linebot/Persons/PersonService.cs:118-163 | the identify, train and result-filling loops of the source compute the functional definition |
| Persons.FindPersonByFace | src/App/Linebot/Persons/PersonService.cs:99-110 | the one-face lookup is element 0 of the many-face lookup |
| Persons.CreatePerson | src/App/Linebot/Persons/PersonService.cs:195-214 | one create call; on success exactly one row is added, with the group id, the GUID text and the name |
| Persons.CreatedPersonValidIffName | src/App/Linebot/Persons/Person.cs:18-25 | the created row meets the column constraints iff the name is 1..128 characters, which is not checked before creation |
| Persons.RememberPersonFace | src/App/Linebot/Persons/PersonService.cs:221-234 | a person id that is not a GUID fails before any call; otherwise an add call, then a train call whose failure is ignored |
| Persons.CreatedPersonFaceCanBeAdded | src/App/Linebot/Persons/PersonService.cs:206-224 | the id written at creation always parses when the face is added |
| Persons.WithoutGroup | src/App/Linebot/Persons/PersonService.cs:255 | exactly the people of other groups remain |
| Persons.ForgetAll | src/App/Linebot/Persons/PersonService.cs:240-258 | with no group nothing happens; otherwise one delete call, then exactly the group's people and its row are removed |
| Persons.ForgetAllForgetsOnlyTheSender | src/App/Linebot/Persons/PersonService.cs:255-256 | afterwards no name of the sender is found |
| Persons.ForgetAllKeepsOthers | src/App/Linebot/Persons/PersonService.cs:255-256 | people of other groups are still found |
| App.AppKeys | src/App/Linebot/Conversations/Core/ConversationRouteService.cs:91-92 | the bot's declared group and sub-paths compose to the six route keys the handlers name |
| App.RootEntries | src/App/Linebot/Conversations/RootConversation.cs:41-79 | the root class registers `/` reply, `/remember` start and `/remember` reply |
| App.ImageEntries | src/App/Linebot/Conversations/ImageConversation.cs:49-375 | the image class registers the start and reply of detect, select and answer |
| App.ResetEntries | src/App/Linebot/Conversations/ResetConversation.cs:44-77 | the reset class registers the start and reply of `/reset/confirm` |
| App.RegisterRoot | src/App/Linebot/Conversations/Core/ConversationRouteService.cs:55-83 | the root class registers without error |
| App.RegisterImage | src/App/Linebot/Conversations/Core/ConversationRouteService.cs:55-83 | the image class registers without error |
| App.RegisterReset | src/App/Linebot/Conversations/Core/ConversationRouteService.cs:55-83 | the reset class registers without error |
| App.RegisterGlobal | src/App/Linebot/Conversations/GlobalConversation.cs:39-40 | the global class fills the empty global slot |
| App.DiscoverApp | src/App/Linebot/Conversations/Core/ConversationRouteService.cs:43-50 | the scan keeps the four conversation classes and drops the base class |
| App.BuildsAppRoutes | src/App/Linebot/Conversations/Core/ConversationRouteService.cs:43-113 | construction succeeds and yields exactly the bot's tables and global |
| App.Invoke | src/App/Linebot/Conversations/Core/ConversationRouteService.cs:168-178 | every handler moves only to one of the six named paths; global calls go to the lifecycle handler and the reset reply to the corrected confirmation |
| App.InvokeAsWritten | src/App/Linebot/Conversations/ResetConversation.cs:82 | the as-written dispatcher differs only at the reset reply |
| App.StartTargets | src/App/Linebot/Conversations/ImageConversation.cs:49-87 | every start handler stays, throws or moves to `/` or selection |
| App.AppRanked | src/App/Linebot/Conversations/Core/ConversationRouteService.cs:154-187 | every start handler only starts paths of lower rank, so nested starts are bounded |
| App.AppRouteCompletes | src/App/Linebot/Conversations/Core/ConversationRouteService.cs:192-264 | every event is fully routed within the bot's fuel of two nested starts |
| App.AppPathsFitColumn | src/App/Linebot/Conversations/Core/Conversation.cs:17-20 | every route key of the bot is one of the six named paths, and each fits the 1..100 path column |
| App.AppStoresKnownPaths | src/App/Linebot/Conversations/Core/ConversationRouteService.cs:192-264 | if every stored path is a named one, after routing any event every stored path is still a named one that fits the path column |
| App.LifecycleRepliesEndAtRoot | src/App/Linebot/Conversations/ImageConversation.cs:332-337 | every reply handler answers a lifecycle event by staying, going to `/` or throwing |
| App.DepartureGoesHome | src/App/Linebot/Conversations/GlobalConversation.cs:46-50 | the global handler sends a departing sender to `/` or throws |
| App.DepartureEndsAtRoot | src/App/Linebot/Conversations/GlobalConversation.cs:46-50 | after a Leave or Unfollow is routed, the sender is at `("/", {})` whatever node they were at |
| App.HandlersResetEquivalent | src/App/Linebot/Conversations/ResetConversation.cs:82-89 | each as-written handler equals the corrected one or throws where it goes to `/` |
| App.ResetGuardInvisible | src/App/Linebot/Conversations/Core/ConversationRouteService.cs:255-262 | routing with the as-written reset guard gives the same world as with the corrected one |
| RequestHandler.HandleEvent | src/App/Linebot/LineMessagingRequestHandler.cs:39-59 | the verification sender is dropped with nothing changed; any other event is routed, changes only its sender and leaves them with a record, failures swallowed |
| RequestHandler.Senders | src/App/Linebot/LineMessagingRequestHandler.cs:42-45 | the routed senders are every event's sender except the verification sender |
| RequestHandler.EventTouchesOnlySender | src/App/Linebot/LineMessagingRequestHandler.cs:39-59 | one event changes only its sender's record, or nothing for the verification sender, and only extends the trace |
| RequestHandler.EventIsRouted | src/App/Linebot/LineMessagingRequestHandler.cs:47-53 | an ordinary event is routed exactly once, and that routing completes |
| RequestHandler.RequestTouchesOnlySenders | src/App/Linebot/LineMessagingRequestHandler.cs:30-33 | a request adds records only for its senders, leaves everyone else unchanged, and only extends the dispatch trace |
| RequestHandler.VerificationIsIgnored | src/App/Linebot/LineMessagingRequestHandler.cs:42-45 | a request holding only verification events changes nothing |

## Left out

- Reflection and `MethodInfo.Invoke`. Classes and methods are declared as
  data (`Registry.TypeDecl`). A handler is an id that `App.Invoke` dispatches.
  The sync and async call shapes become one `Step` result. The scan order of
  classes matters only through "last registration wins", which
  `Registry.LastWins` states for any order.
- Dependency injection, configuration, the EF context, the `Startup` wiring
  and logging. They have no behaviour to state.
- Task scheduling. `HandleRequestAsync` runs the events concurrently, and
  nothing serialises two events of one sender. The model handles a request's
  events one after another, in order, so the race in the source comment is
  not modelled.
- The database and the Face API are pure oracles; their exceptions appear
  as `Failure` values.
  - The identify confidence threshold (0.6) belongs to the oracle.
  - Database-computed timestamps are not modelled.
  - Database exceptions other than those of the Face API are not modelled.
- The LINE messaging client. A reply or push is recorded in `Side.sent` when
  the oracle `Env.delivered` accepts it, and otherwise it is an exception.
  Carousel thumbnail URLs, column titles and labels are not modelled. Only a
  column's face, rectangle and postback data are kept.
- Image download, cropping and the working files in `DetectStart` and
  `WhoareSelectStart`: file I/O and floating-point image arithmetic. A photo
  is named by its message id, and the stream passed to the Face API by the
  file name.
- JSON text.
  - Step data is a JSON datatype.
  - `JToken.ToString()` of an array or object is not modelled: reading one
    where a token, id, number or file name is expected is a `FormatError`.
  - `JObject.Parse` of the stored text is the identity on the stored document.
- Dialogue.FieldText: does not model the text of an array or object
  field, because no handler reads a usable value from one (see above).
- Dialogue.FieldItems: an object under `UnknownFaceIds` or
  `UnknownFaceRectangles` is an `InvalidCast`, whereas .NET would enumerate
  its properties. The bot only ever writes arrays there, so no run of the
  model reaches this case from data the bot wrote.
- Text.ParseInt32: accepts optional white space (tab to carriage return and
  space), an optional sign and ASCII digits within the 32-bit range.
  Culture-specific number formats and non-ASCII digits are not modelled, nor
  are the trailing NUL characters .NET's number parser also skips.
- Text.ParseBool: trims what `char.IsWhiteSpace` calls white space and NUL,
  then compares with `true` and `false` ignoring the case of ASCII letters
  only. Non-ASCII characters that .NET's ordinal case-insensitive comparison
  may equate with a letter of these words are not accepted.
- Text.LowerAscii: lowers ASCII letters only, because sender ids are ASCII
  (`ToLowerInvariant` on other characters is not modelled).
- Persons.ParseGuid: accepts only the hyphenated 36-character form that
  `Guid.ToString()` writes. The other formats `Guid.Parse` accepts are not
  modelled.
- Text.StartsWith: ordinal prefix test. The culture-sensitive comparison of
  `string.StartsWith(string)` is not modelled.
- Router.RouteStart: store failures, `JObject.Parse` failures and failures to
  resolve a handler are not modelled. They are the exceptions the source lets
  propagate out of the router, and the request handler then swallows them.
  Running out of fuel is `DepthExceeded`, which has no .NET counterpart short
  of a stack overflow.

## Findings

| source | as written | input that shows it | evidently intended | confidence | as-written member | corrected member |
|---|---|---|---|---|---|---|
| src/App/Linebot/Conversations/ResetConversation.cs:82 | the guard joins "not a message" and "not a text message" with `&&`. For a non-message event the second test reads the message of a null `MessageEvent`. A non-text message passes the guard, and at line 89 its text is read through a null `TextMessage`. Both throw a null dereference | a postback, follow or leave event, or an image message, while the sender is at `/reset/confirm` | `\|\|`: every event other than a text message goes back to `/` | high; not executed | ResetConversation.ConfirmReplyAsWritten, ResetConversation.GuardAsWrittenThrows | ResetConversation.ConfirmReply, App.ResetGuardInvisible |

The router's recovery hides the bug: a throw resets the sender to `("/", {})`,
which is where the corrected guard sends them. `App.ResetGuardInvisible`
proves the two versions route every event to the same world.

=== FILE: app.dfy ===
/** The bot as deployed: its handler classes as the registry sees them, the
    tables construction yields, and each handler bound to its dialogue
    function. */
module App {
  import opened Wrappers
  import opened Json
  import opened Events
  import opened ConversationStore
  import opened Attributes
  import opened Registry
  import opened Router
  import opened Dialogue
  import RootConversation
  import ImageConversation
  import ResetConversation
  import GlobalConversation
  import Text
  import ConversationRecord

  /** The handler methods of the application's classes. */
  datatype HandlerId =
    | RootH | RememberStartH | RememberReplyH
    | DetectStartH | DetectReplyH | SelectStartH | SelectReplyH | AnswerStartH | AnswerReplyH
    | ConfirmStartH | ConfirmReplyH
    | GlobalH

  // ---------------------------------------------------------------------------
  // Declarations
  // ---------------------------------------------------------------------------

  function PathMethod(h: HandlerId, sub: string, a: Action): MethodDecl<HandlerId> {
    MethodDecl(h, Some(PathAttribute(Some(sub), a)), false)
  }

  /** `ConversationBase`: marked, and skipped by the scan. */
  const BaseDecl: TypeDecl<HandlerId> := TypeDecl(true, true, None, [])

  /** `RootConversation`, route "/"; `Root` uses the parameterless path
      attribute with `Action = Reply`, so its path is null. */
  const RootDecl: TypeDecl<HandlerId> :=
    TypeDecl(true, false, Some(RouteAttribute(Some("/"))), [
      MethodDecl(RootH, Some(PathAttribute(None, Action.Reply)), false),
      PathMethod(RememberStartH, "remember", Action.Start),
      PathMethod(RememberReplyH, "remember", Action.Reply)])

  /** `ImageConversation`, route "/image". */
  const ImageDecl: TypeDecl<HandlerId> :=
    TypeDecl(true, false, Some(RouteAttribute(Some("/image"))), [
      PathMethod(DetectStartH, "detect", Action.Start),
      PathMethod(DetectReplyH, "detect", Action.Reply),
      PathMethod(SelectStartH, "whoare/select", Action.Start),
      PathMethod(SelectReplyH, "whoare/select", Action.Reply),
      PathMethod(AnswerStartH, "whoare/answer", Action.Start),
      PathMethod(AnswerReplyH, "whoare/answer", Action.Reply)])

  /** `ResetConversation`, route "/reset". */
  const ResetDecl: TypeDecl<HandlerId> :=
    TypeDecl(true, false, Some(RouteAttribute(Some("/reset"))), [
      PathMethod(ConfirmStartH, "confirm", Action.Start),
      PathMethod(ConfirmReplyH, "confirm", Action.Reply)])

  /** `GlobalConversation`: no route, one global method. */
  const GlobalDecl: TypeDecl<HandlerId> := TypeDecl(true, false, None, [MethodDecl(GlobalH, None, true)])

  /** The marked classes of the assembly, in one scan order; the tables this
      order builds are `AppRoutes` (`BuildsAppRoutes`). */
  function AppTypes(): seq<TypeDecl<HandlerId>> {
    [BaseDecl, RootDecl, ImageDecl, ResetDecl, GlobalDecl]
  }

  /** The tables the application runs with. */
  function AppRoutes(): Routes<HandlerId> {
    Routes(
      map[RememberPath := RememberStartH, DetectPath := DetectStartH, SelectPath := SelectStartH,
          AnswerPath := AnswerStartH, ResetConfirmPath := ConfirmStartH],
      map[RootPath := RootH, RememberPath := RememberReplyH, DetectPath := DetectReplyH,
          SelectPath := SelectReplyH, AnswerPath := AnswerReplyH, ResetConfirmPath := ConfirmReplyH],
      Some(GlobalH))
  }

  /** The keys the declarations compose to. */
  lemma AppKeys()
    ensures ComposeKey("/", "") == RootPath && ComposeKey("/", "remember") == RememberPath
    ensures ComposeKey("/image", "detect") == DetectPath
    ensures ComposeKey("/image", "whoare/select") == SelectPath
    ensures ComposeKey("/image", "whoare/answer") == AnswerPath
    ensures ComposeKey("/reset", "confirm") == ResetConfirmPath
  {
    ComposeKeyExamples();
    assert Text.TrimEnd("/reset", '/') == "/reset";
  }

  /** Every route key of the bot is a path the handlers name, and every such
      path fits the 1..100 character path column of the conversation row. */
  lemma AppPathsFitColumn()
    ensures forall p :: p in AppRoutes().start || p in AppRoutes().reply ==> KnownPath(p)
    ensures forall p :: KnownPath(p) ==> 1 <= |p| <= ConversationRecord.PathMaxLength
  {
  }

  lemma RootEntries()
    ensures TypeEntries(RootDecl) == [Entry(RootPath, Action.Reply, RootH), Entry(RememberPath, Action.Start, RememberStartH),
                                      Entry(RememberPath, Action.Reply, RememberReplyH)]
  {
    AppKeys();
  }

  lemma ImageEntries()
    ensures TypeEntries(ImageDecl) == [
      Entry(DetectPath, Action.Start, DetectStartH), Entry(DetectPath, Action.Reply, DetectReplyH),
      Entry(SelectPath, Action.Start, SelectStartH), Entry(SelectPath, Action.Reply, SelectReplyH),
      Entry(AnswerPath, Action.Start, AnswerStartH), Entry(AnswerPath, Action.Reply, AnswerReplyH)]
  {
    AppKeys();
  }

  lemma ResetEntries()
    ensures TypeEntries(ResetDecl) == [Entry(ResetConfirmPath, Action.Start, ConfirmStartH), Entry(ResetConfirmPath, Action.Reply, ConfirmReplyH)]
  {
    AppKeys();
  }

  /** The tables after the root class. */
  function AfterRoot(): Routes<HandlerId> {
    Routes(map[RememberPath := RememberStartH], map[RootPath := RootH, RememberPath := RememberReplyH], None)
  }

  /** The tables after the image class. */
  function AfterImage(): Routes<HandlerId> {
    Routes(map[RememberPath := RememberStartH, DetectPath := DetectStartH, SelectPath := SelectStartH, AnswerPath := AnswerStartH],
           map[RootPath := RootH, RememberPath := RememberReplyH, DetectPath := DetectReplyH,
               SelectPath := SelectReplyH, AnswerPath := AnswerReplyH],
           None)
  }

  function AfterReset(): Routes<HandlerId> {
    AppRoutes().(global := None)
  }

  lemma RegisterRoot()
    ensures RegisterType(Empty(), RootDecl) == Ok(AfterRoot())
  {
    RootEntries();
    assert !Misdeclared(RootDecl);
    assert GlobalHandlers(RootDecl.methods) == [];
  }

  lemma RegisterImage()
    ensures RegisterType(AfterRoot(), ImageDecl) == Ok(AfterImage())
  {
    ImageEntries();
    assert !Misdeclared(ImageDecl);
    assert GlobalHandlers(ImageDecl.methods) == [];
  }

  lemma RegisterReset()
    ensures RegisterType(AfterImage(), ResetDecl) == Ok(AfterReset())
  {
    ResetEntries();
    assert !Misdeclared(ResetDecl);
    assert GlobalHandlers(ResetDecl.methods) == [];
  }

  lemma RegisterGlobal()
    ensures RegisterType(AfterReset(), GlobalDecl) == Ok(AppRoutes())
  {
    assert !HasPathMethod(GlobalDecl.methods);
    assert TypeEntries(GlobalDecl) == [];
    assert GlobalHandlers(GlobalDecl.methods) == [GlobalH];
  }

  /** The scan skips the base class and keeps the others in order. */
  lemma DiscoverApp()
    ensures Discover(AppTypes()) == [RootDecl, ImageDecl, ResetDecl, GlobalDecl]
  {
    var ts := AppTypes();
    assert ts[1..] == [RootDecl, ImageDecl, ResetDecl, GlobalDecl];
    DiscoverKeepsMarked(ts[1..]);
  }

  /** Construction succeeds on the application's classes and yields exactly
      these tables: every start and reply route at the path its handler
      names, and the one global handler. */
  lemma BuildsAppRoutes()
    ensures Build(AppTypes()) == Ok(AppRoutes())
  {
    DiscoverApp();
    RegisterRoot();
    RegisterImage();
    RegisterReset();
    RegisterGlobal();
    var ts := [RootDecl, ImageDecl, ResetDecl, GlobalDecl];
    assert RegisterTypes(AfterReset(), ts[3..]) == Ok(AppRoutes());
    assert RegisterTypes(AfterImage(), ts[2..]) == Ok(AppRoutes());
    assert RegisterTypes(AfterRoot(), ts[1..]) == Ok(AppRoutes());
  }

  // ---------------------------------------------------------------------------
  // Dispatch
  // ---------------------------------------------------------------------------

  /** The reflective invocation: each handler with its arguments; a call of
      the wrong shape cannot bind its parameters. */
  function Invoke(env: Env, h: HandlerId, c: Call, side: Side): (r: Step<Side>)
    ensures KnownTarget(r.outcome)
    ensures h == GlobalH && c.GlobalCall? ==> r == GlobalConversation.Global(env, c.event, side)
    ensures h == ConfirmReplyH && c.ReplyCall? ==> r == ResetConversation.ConfirmReply(env, c.event, c.data, side)
  {
    match (h, c)
    case (RootH, ReplyCall(e, d)) => RootConversation.Root(env, e, d, side)
    case (RememberStartH, StartCall(s, d)) => RootConversation.RememberStart(env, s, d, side)
    case (RememberReplyH, ReplyCall(e, d)) => RootConversation.RememberReply(env, e, d, side)
    case (DetectStartH, StartCall(s, d)) => ImageConversation.DetectStart(env, s, d, side)
    case (DetectReplyH, ReplyCall(e, d)) => ImageConversation.DetectReply(env, e, d, side)
    case (SelectStartH, StartCall(s, d)) => ImageConversation.WhoareSelectStart(env, s, d, side)
    case (SelectReplyH, ReplyCall(e, d)) => ImageConversation.WhoareSelectReply(env, e, d, side)
    case (AnswerStartH, StartCall(s, d)) => ImageConversation.WhoareAnswerStart(env, s, d, side)
    case (AnswerReplyH, ReplyCall(e, d)) => ImageConversation.WhoareAnswerReply(env, e, d, side)
    case (ConfirmStartH, StartCall(s, d)) => ResetConversation.ConfirmStart(env, s, d, side)
    case (ConfirmReplyH, ReplyCall(e, d)) => ResetConversation.ConfirmReply(env, e, d, side)
    case (GlobalH, GlobalCall(e)) => GlobalConversation.Global(env, e, side)
    case _ => Step(side, Throw(SignatureMismatch))
  }

  /** The same, with `ConfirmReply` as written. */
  function InvokeAsWritten(env: Env, h: HandlerId, c: Call, side: Side): (r: Step<Side>)
    ensures h != ConfirmReplyH ==> r == Invoke(env, h, c, side)
  {
    match (h, c)
    case (ConfirmReplyH, ReplyCall(e, d)) => ResetConversation.ConfirmReplyAsWritten(env, e, d, side)
    case _ => Invoke(env, h, c, side)
  }

  function Handlers(env: Env): (HandlerId, Call, Side) -> Step<Side> {
    (h: HandlerId, c: Call, s: Side) => Invoke(env, h, c, s)
  }

  function HandlersAsWritten(env: Env): (HandlerId, Call, Side) -> Step<Side> {
    (h: HandlerId, c: Call, s: Side) => InvokeAsWritten(env, h, c, s)
  }

  /** Enough nesting for the deepest chain of starts: detection, then the
      selection node. */
  const AppFuel: nat := 2

  function AppRoute(env: Env, w: World<HandlerId, Side>, e: Event): Routed<HandlerId, Side> {
    RouteReply(AppRoutes(), Handlers(env), w, e, AppFuel)
  }

  // ---------------------------------------------------------------------------
  // Stored paths
  // ---------------------------------------------------------------------------

  /** Starting from a store of named paths, routing any event leaves only
      paths the handlers name, each fitting the path column. */
  lemma AppStoresKnownPaths(env: Env, w: World<HandlerId, Side>, e: Event)
    requires forall o :: o in w.store ==> KnownPath(w.store[o].path)
    ensures var r := AppRoute(env, w, e);
            forall o :: o in r.world.store ==>
              KnownPath(r.world.store[o].path) && 1 <= |r.world.store[o].path| <= ConversationRecord.PathMaxLength
  {
    var paths := {RootPath, RememberPath, ResetConfirmPath, DetectPath, SelectPath, AnswerPath};
    assert TargetsIn(Handlers(env), paths) by {
      forall h, c, s | Handlers(env)(h, c, s).outcome.Go? ensures Handlers(env)(h, c, s).outcome.path in paths {
        assert KnownTarget(Invoke(env, h, c, s).outcome);
      }
    }
    ReplyKeepsPaths(AppRoutes(), Handlers(env), paths, w, e, AppFuel);
    AppPathsFitColumn();
  }

  // ---------------------------------------------------------------------------
  // Depth
  // ---------------------------------------------------------------------------

  /** How many nested starts a start at `p` can still cause, plus one. */
  function AppRank(p: string): nat {
    if p == DetectPath then 2
    else if p in {RememberPath, ResetConfirmPath, SelectPath, AnswerPath} then 1
    else 0
  }

  /** Only the detection node's start moves on, and only to the root or the
      selection node. */
  lemma StartTargets(env: Env, h: HandlerId, c: Call, s: Side)
    requires h in AppRoutes().start.Values
    ensures var o := Invoke(env, h, c, s).outcome;
            o.Go? ==> h == DetectStartH && AppRank(o.path) < 2
  {
    assert h in {RememberStartH, DetectStartH, SelectStartH, AnswerStartH, ConfirmStartH};
    var o := Invoke(env, h, c, s).outcome;
    if h == DetectStartH && c.StartCall? {
      assert o == ImageConversation.DetectStart(env, c.sender, c.data, s).outcome;
    }
  }

  /** The start handlers' transitions descend in rank. */
  lemma AppRanked(env: Env)
    ensures Ranked(AppRoutes(), Handlers(env), AppRank)
  {
    var reg := AppRoutes();
    forall p, c, s | p in reg.start && Handlers(env)(reg.start[p], c, s).outcome.Go?
      ensures AppRank(Handlers(env)(reg.start[p], c, s).outcome.path) < AppRank(p)
    {
      assert reg.start[p] in reg.start.Values;
      StartTargets(env, reg.start[p], c, s);
    }
  }

  /** The application never nests starts beyond its fuel: every event is
      routed to completion. */
  lemma AppRouteCompletes(env: Env, w: World<HandlerId, Side>, e: Event)
    ensures AppRoute(env, w, e).Done?
  {
    AppRanked(env);
    var reg := AppRoutes();
    forall p | p in reg.reply ensures TargetsBelow(Handlers(env), reg.reply[p], AppRank, AppFuel) {
    }
    RankedReplyCompletes(reg, Handlers(env), AppRank, w, e, AppFuel);
  }

  // ---------------------------------------------------------------------------
  // Lifecycle events
  // ---------------------------------------------------------------------------

  /** On a lifecycle event every reply handler stays, goes back to the root,
      or throws; so whichever record the path dispatch reads after the global
      dispatch, the sender ends at the root or where the global one left it. */
  lemma LifecycleRepliesEndAtRoot(env: Env, e: Event, d: Doc, s: Side)
    requires e.IsLifecycle()
    ensures forall p :: p in AppRoutes().reply ==>
              var o := Invoke(env, AppRoutes().reply[p], ReplyCall(e, d), s).outcome;
              o == Stay || o == Go(RootPath, None) || o.Throw?
  {
  }

  /** On a departure the global handler goes home or throws. */
  lemma DepartureGoesHome(env: Env, e: Event, s: Side)
    requires e.Kind() == Leave || e.Kind() == Unfollow
    ensures var o := Invoke(env, GlobalH, GlobalCall(e), s).outcome; o == Go(RootPath, None) || o.Throw?
  {
  }

  /** Leaving or unfollowing always leaves the sender at `("/", {})`: the
      global handler forgets and goes home (or throws and is reset), and the
      root's reply handler ignores the event. */
  lemma DepartureEndsAtRoot(env: Env, w: World<HandlerId, Side>, sender: string, l: Lifecycle)
    requires l == LeaveEvent || l == UnfollowEvent
    ensures var r := AppRoute(env, w, LifecycleEvent(sender, l));
            r.Done? && r.world.store[sender] == Conversation(RootPath, EmptyDoc)
  {
    var e := LifecycleEvent(sender, l);
    forall s ensures var o := Handlers(env)(GlobalH, GlobalCall(e), s).outcome; o == Go(RootPath, None) || o.Throw? {
      DepartureGoesHome(env, e, s);
    }
    assert RootPath !in AppRoutes().start;
    GlobalResetEndsAtRoot(AppRoutes(), Handlers(env), w, e, AppFuel);
  }

  // ---------------------------------------------------------------------------
  // The reset guard
  // ---------------------------------------------------------------------------

  /** The two handler sets differ only in the reply handler of
      "/reset/confirm", and there only by throwing where the other goes to
      "/". */
  lemma HandlersResetEquivalent(env: Env, h: HandlerId, c: Call, s: Side)
    ensures ResetEquivalent(Invoke(env, h, c, s), InvokeAsWritten(env, h, c, s))
    ensures h != ConfirmReplyH ==> Invoke(env, h, c, s) == InvokeAsWritten(env, h, c, s)
  {
    if h == ConfirmReplyH && c.ReplyCall? {
      ResetConversation.GuardAsWrittenThrows(env, c.event, c.data, s);
    }
  }

  /** The written guard is invisible from outside: the null dereference it
      raises for non-text events is caught and resets the sender to
      `("/", {})`, which is exactly where the intended transition to "/"
      leads, since "/" has no start handler. Routing agrees on every world and
      event. */
  lemma ResetGuardInvisible(env: Env, w: World<HandlerId, Side>, e: Event)
    ensures RouteReply(AppRoutes(), HandlersAsWritten(env), w, e, AppFuel) == AppRoute(env, w, e)
  {
    var reg := AppRoutes();
    forall h, c, s ensures ResetEquivalent(Handlers(env)(h, c, s), HandlersAsWritten(env)(h, c, s))
      && (h != ConfirmReplyH ==> Handlers(env)(h, c, s) == HandlersAsWritten(env)(h, c, s))
    {
      HandlersResetEquivalent(env, h, c, s);
    }
    assert ConfirmReplyH !in reg.start.Values;
    assert RootPath !in reg.start;
    ReplyAgrees(reg, Handlers(env), HandlersAsWritten(env), w, e, AppFuel);
  }
}

=== FILE: attributes.dfy ===
/** The declarations a handler class carries: its group path
    (`ConversationRoute`) and, per method, a sub-path and an action
    (`ConversationPath`). */
module Attributes {
  import opened Wrappers

  /** `ConversationAction`. `Start` is the first member, so it is the value of
      an action that was never set. */
  datatype Action = Start | Reply

  const DefaultAction: Action := Start

  /** A method-level declaration; `path == None` is a null `Path`. */
  datatype PathAttribute = PathAttribute(path: Option<string>, action: Action)

  /** A class-level declaration; `path == None` is a null `Path`. */
  datatype RouteAttribute = RouteAttribute(path: Option<string>)

  /** The exception the path-taking constructors throw for a null path. */
  datatype AttributeError = ArgumentNull

  /** `new ConversationPathAttribute()`: no path, default action. Named
      arguments such as `Action = Reply` are record updates of this value. */
  function DefaultPathAttribute(): (a: PathAttribute)
    ensures a.path.None? && a.action == Start
  {
    PathAttribute(None, DefaultAction)
  }

  /** `new ConversationPathAttribute(path, action)`. */
  function NewPathAttribute(path: Option<string>, action: Action): (r: Result<PathAttribute, AttributeError>)
    ensures r.Ok? <==> path.Some?
    ensures r.Ok? ==> r.value.path == path && r.value.action == action
    ensures r.Err? ==> r.error == ArgumentNull
  {
    match path
    case None => Err(ArgumentNull)
    case Some(p) => Ok(PathAttribute(Some(p), action))
  }

  /** `new ConversationRouteAttribute()`: no group path. */
  function DefaultRouteAttribute(): (a: RouteAttribute)
    ensures a.path.None?
  {
    RouteAttribute(None)
  }

  /** `new ConversationRouteAttribute(path)`. */
  function NewRouteAttribute(path: Option<string>): (r: Result<RouteAttribute, AttributeError>)
    ensures r.Ok? <==> path.Some?
    ensures r.Ok? ==> r.value.path == path
  {
    match path
    case None => Err(ArgumentNull)
    case Some(p) => Ok(RouteAttribute(Some(p)))
  }

  /** The sub-path the registry composes with: a null path reads as "". */
  function SubPath(a: PathAttribute): (s: string)
    ensures a.path.Some? ==> s == a.path.value
    ensures a.path.None? ==> s == ""
  {
    a.path.GetOr("")
  }
}

=== FILE: conversation_record.dfy ===
/** The persisted `Conversation` row and its column constraints. */
module ConversationRecord {

  const SenderIdLength: nat := 33
  const PathMaxLength: nat := 100
  const DataMaxLength: nat := 10000

  /** The path every sender starts at and is reset to. */
  const RootPath: string := "/"

  /** The stored text of an absent (null) document. */
  const EmptyDataText: string := "{}"

  /** A row: sender, current dialogue path, and the data as JSON text. The
      timestamps are computed by the database and are not part of the model. */
  datatype Row = Row(senderId: string, path: string, data: string)

  /** The data-annotation constraints on the row's columns. */
  predicate Valid(r: Row) {
    && |r.senderId| == SenderIdLength
    && 1 <= |r.path| <= PathMaxLength
    && 1 <= |r.data| <= DataMaxLength
  }

  /** The row the router writes on first contact and on recovery. */
  function ResetRow(senderId: string): (r: Row)
    requires |senderId| == SenderIdLength
    ensures Valid(r)
    ensures r.senderId == senderId
  {
    Row(senderId, RootPath, EmptyDataText)
  }
}

=== FILE: dialogue.dfy ===
/** What the dialogue handlers share: the state they change besides the
    conversation store, the messages they send, how they read their step
    data, and the route keys and texts they use. */
module Dialogue {
  import opened Wrappers
  import opened Json
  import opened Persons
  import opened Router
  import Text

  // ---------------------------------------------------------------------------
  // Outbound messages
  // ---------------------------------------------------------------------------

  /** One carousel column: the face it shows and its two postback actions. */
  datatype Column = Column(faceId: string, rect: Rect, choose: string, cancel: string)

  datatype Content =
    | TextContent(text: string)
    | ConfirmContent(text: string, yes: string, no: string)
    | CarouselContent(altText: string, columns: seq<Column>)

  /** A reply to an event's reply token, or a push to a sender. */
  datatype Outbound = Reply(token: string, content: Content) | Push(to: string, content: Content)

  /** The handlers' side state: the person tables, the face-service calls
      made and the messages delivered, oldest first. */
  datatype Side = Side(db: PersonDb, calls: seq<FaceCall>, sent: seq<Outbound>)

  /** The outside world: the face service, and whether the messaging service
      accepts a message (a refused one is an exception in the handler). */
  datatype Env = Env(face: FaceService, delivered: Outbound -> bool)

  /** Sends `out`, then ends with `next`; a refused message throws instead. */
  function Say(env: Env, side: Side, out: Outbound, next: Outcome): (r: Step<Side>)
    ensures r.side.db == side.db && r.side.calls == side.calls
    ensures env.delivered(out) ==> r.side.sent == side.sent + [out] && r.outcome == next
    ensures !env.delivered(out) ==> r.side == side && r.outcome == Throw(ServiceFailure)
  {
    if env.delivered(out) then Step(side.(sent := side.sent + [out]), next)
    else Step(side, Throw(ServiceFailure))
  }

  /** The side state after a person-service operation. */
  function Served<T>(side: Side, e: Effect<T>): (r: Side)
    ensures r.db == e.db && r.calls == side.calls + e.calls && r.sent == side.sent
  {
    side.(db := e.db, calls := side.calls + e.calls)
  }

  /** The exception a person-service failure surfaces as. */
  function Raised(f: Failure): Exception {
    if f.GuidFormat? then FormatError else ServiceFailure
  }

  // ---------------------------------------------------------------------------
  // Reading step data
  // ---------------------------------------------------------------------------

  /** `data[key].ToString()`: a missing key is a null dereference. The text
      of an array or object is never a usable token, id, number or file name
      for these handlers, so reading one is modelled as a failure. */
  function FieldText(d: Doc, key: string): (r: Result<string, Exception>)
    ensures key !in d ==> r == Err(NullReference)
    ensures key in d && d[key].JString? ==> r == Ok(d[key].s)
    ensures r.Ok? ==> key in d && Render(d[key]) == Some(r.value)
  {
    if key !in d then Err(NullReference)
    else match Render(d[key])
      case None => Err(FormatError)
      case Some(t) => Ok(t)
  }

  /** The children of `data[key]` as LINQ enumerates them: a missing key is
      a null source. */
  function FieldItems(d: Doc, key: string): (r: Result<seq<Json>, Exception>)
    ensures key !in d ==> r == Err(ArgumentNull)
    ensures key in d && d[key].JArray? ==> r == Ok(d[key].items)
  {
    if key !in d then Err(ArgumentNull)
    else match Items(d[key])
      case None => Err(InvalidCast)
      case Some(xs) => Ok(xs)
  }

  /** `JToken.ToString()` of one item. */
  function ItemText(j: Json): (r: Result<string, Exception>)
    ensures r.Ok? <==> Render(j).Some?
    ensures r.Ok? ==> r.value == Render(j).value
  {
    match Render(j)
    case None => Err(FormatError)
    case Some(t) => Ok(t)
  }

  /** The step after a failed read: nothing changed, and an exception. */
  function Failed(side: Side, e: Exception): Step<Side> {
    Step(side, Throw(e))
  }

  /** A step that left the person tables and the face service alone and
      delivered at most `n` more messages. */
  predicate Talks(side: Side, r: Step<Side>, n: nat) {
    && r.side.db == side.db
    && r.side.calls == side.calls
    && side.sent <= r.side.sent
    && |r.side.sent| <= |side.sent| + n
  }

  // ---------------------------------------------------------------------------
  // Route keys
  // ---------------------------------------------------------------------------

  const RememberPath: string := "/remember"
  const ResetConfirmPath: string := "/reset/confirm"
  const DetectPath: string := "/image/detect"
  const SelectPath: string := "/image/whoare/select"
  const AnswerPath: string := "/image/whoare/answer"

  /** Every route key the handlers name. */
  predicate KnownPath(p: string) {
    p in {RootPath, RememberPath, ResetConfirmPath, DetectPath, SelectPath, AnswerPath}
  }

  /** A transition, if any, goes to a route key the handlers name. */
  predicate KnownTarget(o: Outcome) {
    o.Go? ==> KnownPath(o.path)
  }

  // ---------------------------------------------------------------------------
  // Step data keys
  // ---------------------------------------------------------------------------

  const ReplyTokenKey: string := "ReplyToken"
  const MessageIdKey: string := "MessageId"
  const RememberModeKey: string := "RememberMode"
  const ExplainedKey: string := "Explained"
  const FilenameKey: string := "Filename"
  const FaceIdsKey: string := "UnknownFaceIds"
  const FaceRectsKey: string := "UnknownFaceRectangles"
  const FaceIndexKey: string := "FaceIndex"

  /** `{ ReplyToken = token }`. */
  function TokenDoc(token: string): (d: Doc)
    ensures FieldText(d, ReplyTokenKey) == Ok(token)
  {
    map[ReplyTokenKey := JString(token)]
  }

  // ---------------------------------------------------------------------------
  // Words the handlers look for, and what they say
  // ---------------------------------------------------------------------------

  const RememberWord: string := "覚えて"
  const ResetWord: string := "リセット"
  const ForgetWord: string := "忘れて"
  const QuitWord: string := "やめる"
  const CancelData: string := "Cancel"

  const UsageText: string := "みんなの顔を覚えたいから顔が写った画像を送って！ もし間違ってたら「覚えて」って言ってね！ 最初からやり直したかったら「忘れて」って言ってね！"
  const RememberPrompt: string := "顔を覚えるから顔が写った画像を送って！"
  const RememberRefusal: string := "何？ よくわからないから覚えないよ。"

  const ConfirmText: string := "せっかく覚えたけど全部忘れるよ？"
  const ForgetButton: string := "忘れて！"
  const KeepButton: string := "やめて！"
  const ForgotText: string := "全部忘れた！"

  const NoFaceText: string := "顔が写ってないみたい..."
  const NobodyKnownText: string := "誰も知らないよ！ 誰なのか教えて！"
  const KnownSuffix: string := "が写ってるね！"
  const TooManySuffix: string := " 人数が多すぎてよく分からないよ！"
  const NameSeparator: string := "、"
  const AltOne: string := "この人は誰？"
  const AltMany: string := "この人たちは誰？"
  const QuittingText: string := "覚えるのやめるね。"
  const PuzzledQuittingText: string := "何？ 分からないから覚えるのやめるね。"
  const AskNameText: string := "その人は誰？ 名前を教えて！"

  function ThisIsText(name: string): string {
    "この人は " + name + " だね！"
  }

  function OthersSuffix(count: int): string {
    " でも他の" + Text.IntToString(count) + "人は知らないよ！ 誰なのか教えて！"
  }

  function RememberedText(name: string): string {
    "この人は " + name + " だね？ 覚えたよ！"
  }

  function RememberedMoreText(name: string): string {
    "この人は " + name + " だね？ 覚えたよ！ 他の人は？ もういいなら「やめる」って言ってね！"
  }
}

=== FILE: events.dfy ===
/** Inbound webhook events of the LINE Messaging API, reduced to what the
    dialogue handlers read: kind, sender, reply token and payload. */
module Events {

  /** The `EventType` of an event. */
  datatype EventKind = Message | Postback | Follow | Unfollow | Join | Leave | Beacon

  /** The platform lifecycle kinds: every event that is neither a message nor
      a postback. */
  datatype Lifecycle = FollowEvent | UnfollowEvent | JoinEvent | LeaveEvent | BeaconEvent

  /** The `MessageType` of a message. */
  datatype MessageKind = TextKind | ImageKind | VideoKind | AudioKind | LocationKind | StickerKind

  /** The content of a message event. */
  datatype Message =
    | Text(text: string)
    | Image(id: string)
    | Video(id: string)
    | Audio(id: string)
    | Location
    | Sticker
  {
    function Kind(): MessageKind {
      match this
      case Text(_) => TextKind
      case Image(_) => ImageKind
      case Video(_) => VideoKind
      case Audio(_) => AudioKind
      case Location => LocationKind
      case Sticker => StickerKind
    }
  }

  /** An inbound event. `sender` is `Source.SenderId` (user, group or room). */
  datatype Event =
    | MessageEvent(sender: string, replyToken: string, message: Message)
    | PostbackEvent(sender: string, replyToken: string, postbackData: string)
    | LifecycleEvent(sender: string, lifecycle: Lifecycle)
  {
    function Kind(): EventKind {
      match this
      case MessageEvent(_, _, _) => Message
      case PostbackEvent(_, _, _) => Postback
      case LifecycleEvent(_, l) =>
        match l
        case FollowEvent => Follow
        case UnfollowEvent => Unfollow
        case JoinEvent => Join
        case LeaveEvent => Leave
        case BeaconEvent => Beacon
    }

    /** Neither a user message nor a user postback. */
    predicate IsLifecycle() {
      Kind() != Message && Kind() != Postback
    }
  }
}

=== FILE: global_conversation.dfy ===
/** `GlobalConversation`: the handler for lifecycle events, whatever the
    sender's current path. */
module GlobalConversation {
  import opened Wrappers
  import opened Events
  import opened Persons
  import opened Router
  import opened Dialogue

  /** Leaving a group or room, or being unfollowed. */
  predicate Departure(e: Event) {
    e.Kind() == Leave || e.Kind() == Unfollow
  }

  /** `Global`: on a departure forget the sender's people and go back to the
      root; on any other event do nothing. */
  function Global(env: Env, e: Event, side: Side): (r: Step<Side>)
    ensures r.outcome in {Stay, Go(RootPath, None)} || r.outcome.Throw?
    ensures !Departure(e) ==> r == Step(side, Stay)
    ensures Departure(e) ==> r.outcome != Stay && r.side.sent == side.sent
    ensures Departure(e) ==> r.side.db == ForgetAll(env.face, side.db, e.sender).db
    ensures Departure(e) ==> (r.outcome.Go? <==> ForgetAll(env.face, side.db, e.sender).result.Ok?)
  {
    if !Departure(e) then Step(side, Stay)
    else
      var forgot := ForgetAll(env.face, side.db, e.sender);
      var side1 := Served(side, forgot);
      if forgot.result.Err? then Failed(side1, Raised(forgot.result.error))
      else Step(side1, Go(RootPath, None))
  }

  /** A departure forgets every person of the sender and no one else's, and
      says nothing (there is no one left to reply to). */
  lemma DepartureForgetsSender(env: Env, e: Event, side: Side)
    requires Departure(e)
    requires FindPersonGroupBySender(side.db, e.sender).Some?
    ensures var r := Global(env, e, side);
            r.outcome.Go? ==>
              && (forall name :: FindPersonByName(r.side.db, e.sender, name).None?)
              && (forall p :: p in r.side.db.persons <==> p in side.db.persons && p.personGroupId != PersonGroupId(e.sender))
              && r.side.calls == side.calls + [DeletePersonGroupCall(PersonGroupId(e.sender))]
  {
    var r := Global(env, e, side);
    if r.outcome.Go? {
      forall name ensures FindPersonByName(r.side.db, e.sender, name).None? {
        ForgetAllForgetsOnlyTheSender(env.face, side.db, e.sender, name);
      }
    }
  }

  /** Joining, following and beacons leave everything alone. */
  lemma ArrivalsChangeNothing(env: Env, sender: string, l: Lifecycle, side: Side)
    requires l in {FollowEvent, JoinEvent, BeaconEvent}
    ensures Global(env, LifecycleEvent(sender, l), side) == Step(side, Stay)
  {
  }
}

=== FILE: image_conversation.dfy ===
/** `ImageConversation`, group path "/image": detect the faces in a photo,
    name the known ones, and ask for the unknown ones one at a time through a
    carousel of at most five faces. The image download, the cropping and the
    working files are not part of this model; the photo is named by its
    message id throughout. */
module ImageConversation {
  import opened Wrappers
  import opened Json
  import opened Events
  import opened Router
  import opened Persons
  import opened Sequences
  import opened Dialogue
  import Text

  /** The carousel shows at most this many columns. */
  const CarouselLimit: nat := 5

  /** More faces than this and the count of unknown ones is not given. */
  const CountLimit: nat := 10

  // ---------------------------------------------------------------------------
  // Face rectangles as text
  // ---------------------------------------------------------------------------

  /** `$"{Left},{Top},{Width},{Height}"`. */
  function RectText(r: Rect): string {
    Text.Join([Text.IntToString(r.left), Text.IntToString(r.top), Text.IntToString(r.width), Text.IntToString(r.height)], ",")
  }

  /** `int.Parse(values[i])`, after indexing the split text. */
  function PieceValue(pieces: seq<string>, i: nat): (r: Result<int, Exception>)
    ensures i >= |pieces| ==> r == Err(IndexOutOfRange)
    ensures r.Ok? ==> i < |pieces| && Text.ParseInt32(pieces[i]) == Some(r.value)
  {
    if i >= |pieces| then Err(IndexOutOfRange)
    else match Text.ParseInt32(pieces[i])
      case None => Err(FormatError)
      case Some(v) => Ok(v)
  }

  /** The rectangle parse of the carousel builder: split on ',', then parse
      the first four pieces in order; further pieces are ignored. */
  function ParseRect(s: string): (r: Result<Rect, Exception>)
    ensures |Text.Split(s, ',')| < 4 ==> r.Err?
  {
    var pieces := Text.Split(s, ',');
    var left :- PieceValue(pieces, 0);
    var top :- PieceValue(pieces, 1);
    var width :- PieceValue(pieces, 2);
    var height :- PieceValue(pieces, 3);
    Ok(Rect(left, top, width, height))
  }

  predicate Int32Rect(r: Rect) {
    Text.InInt32(r.left) && Text.InInt32(r.top) && Text.InInt32(r.width) && Text.InInt32(r.height)
  }

  /** A rectangle written by the detection node is read back unchanged by
      the carousel builder. */
  lemma RectRoundTrip(r: Rect)
    requires Int32Rect(r)
    ensures ParseRect(RectText(r)) == Ok(r)
  {
    var xs := [Text.IntToString(r.left), Text.IntToString(r.top), Text.IntToString(r.width), Text.IntToString(r.height)];
    Text.SplitJoin(xs, ',');
    assert Text.Split(RectText(r), ',') == xs;
    Text.IntToStringRoundTrip(r.left);
    Text.IntToStringRoundTrip(r.top);
    Text.IntToStringRoundTrip(r.width);
    Text.IntToStringRoundTrip(r.height);
  }

  // ---------------------------------------------------------------------------
  // The data of the selection node
  // ---------------------------------------------------------------------------

  function FaceIdTexts(faces: seq<Face>): (r: seq<string>)
    ensures |r| == |faces| && forall k :: 0 <= k < |faces| ==> r[k] == GuidText(faces[k].faceId)
  {
    seq(|faces|, k requires 0 <= k < |faces| => GuidText(faces[k].faceId))
  }

  function RectTexts(faces: seq<Face>): (r: seq<string>)
    ensures |r| == |faces| && forall k :: 0 <= k < |faces| ==> r[k] == RectText(faces[k].rect)
  {
    seq(|faces|, k requires 0 <= k < |faces| => RectText(faces[k].rect))
  }

  /** `{ Filename, UnknownFaceIds, UnknownFaceRectangles }`: two parallel
      arrays, one entry per face still to be named. */
  function SelectDoc(filename: string, faces: seq<Face>): Doc {
    map[FilenameKey := JString(filename),
        FaceIdsKey := StringArray(FaceIdTexts(faces)),
        FaceRectsKey := StringArray(RectTexts(faces))]
  }

  /** The selection data holds the faces in order, in parallel arrays of
      equal length. */
  lemma SelectDocParallel(filename: string, faces: seq<Face>)
    ensures var d := SelectDoc(filename, faces);
            && FieldText(d, FilenameKey) == Ok(filename)
            && FieldItems(d, FaceIdsKey).Ok? && FieldItems(d, FaceRectsKey).Ok?
            && |FieldItems(d, FaceIdsKey).value| == |FieldItems(d, FaceRectsKey).value| == |faces|
            && (forall k :: 0 <= k < |faces| ==>
                  && ItemText(FieldItems(d, FaceIdsKey).value[k]) == Ok(GuidText(faces[k].faceId))
                  && ItemText(FieldItems(d, FaceRectsKey).value[k]) == Ok(RectText(faces[k].rect)))
  {
  }

  // ---------------------------------------------------------------------------
  // DetectStart, HandleSingleFaceAsync, HandleMultipleFacesAsync
  // ---------------------------------------------------------------------------

  /** The reply after several faces: the known names, then either a note
      that there are too many faces, or the number not known. */
  function GroupText(faceCount: nat, names: seq<string>, unknownCount: nat): string {
    if |names| > 0 then
      Text.Join(names, NameSeparator) + KnownSuffix
        + (if faceCount > CountLimit then TooManySuffix
           else if unknownCount > 0 then OthersSuffix(faceCount - |names|)
           else "")
    else NobodyKnownText
  }

  function Names(ps: seq<Person>): (r: seq<string>)
    ensures |r| == |ps| && forall k :: 0 <= k < |ps| ==> r[k] == ps[k].name
  {
    seq(|ps|, k requires 0 <= k < |ps| => ps[k].name)
  }

  /** The outcome after the faces to be named are known: ask about them, or
      go back to the root when there are none. */
  function AskAbout(filename: string, unknowns: seq<Face>): (o: Outcome)
    ensures o.Go? && (o.path == SelectPath <==> |unknowns| > 0)
  {
    if |unknowns| > 0 then Go(SelectPath, Some(SelectDoc(filename, unknowns))) else Go(RootPath, None)
  }

  /** `HandleSingleFaceAsync`. */
  function SingleFace(env: Env, sender: string, token: string, filename: string, f: Face, rememberMode: bool, side: Side): (r: Step<Side>)
    ensures r.outcome.Go? ==> r.outcome.path in {RootPath, SelectPath}
  {
    var ensured := EnsurePersonGroup(env.face, side.db, sender);
    var side1 := Served(side, ensured);
    if ensured.result.Err? then Failed(side1, Raised(ensured.result.error))
    else if rememberMode then Step(side1, AskAbout(filename, [f]))
    else
      var found := FindPersonByFace(env.face, side1.db, sender, f);
      var side2 := Served(side1, found);
      if found.result.Err? then Failed(side2, Raised(found.result.error))
      else match found.result.value
        case None => Step(side2, AskAbout(filename, [f]))
        case Some(p) => Say(env, side2, Reply(token, TextContent(ThisIsText(p.name))), Go(RootPath, None))
  }

  /** The known people and the faces still to be named after a lookup: every
      person found is among the first, every face with no person among the
      second, and together they account for every face. */
  function Sorted(faces: seq<Face>, persons: seq<Option<Person>>): (r: (seq<Person>, seq<Face>))
    requires |persons| == |faces|
    ensures |r.0| + |r.1| == |faces|
    ensures forall k :: 0 <= k < |faces| && persons[k].Some? ==> persons[k].value in r.0
    ensures forall k :: 0 <= k < |faces| && persons[k].None? ==> faces[k] in r.1
    ensures |r.1| > 0 <==> exists k :: 0 <= k < |faces| && persons[k].None?
  {
    PresentAbsentPartition(faces, persons);
    AbsentNonEmptyIff(faces, persons);
    assert forall k :: 0 <= k < |faces| && persons[k].None? ==> faces[k] in Absent(faces, persons) by {
      forall k | 0 <= k < |faces| && persons[k].None? ensures faces[k] in Absent(faces, persons) {
        AbsentComplete(faces, persons, k);
      }
    }
    (Present(persons), Absent(faces, persons))
  }

  /** `HandleMultipleFacesAsync`. */
  function MultipleFaces(env: Env, sender: string, token: string, filename: string, faces: seq<Face>, rememberMode: bool, side: Side): (r: Step<Side>)
    ensures r.outcome.Go? ==> r.outcome.path in {RootPath, SelectPath}
  {
    var ensured := EnsurePersonGroup(env.face, side.db, sender);
    var side1 := Served(side, ensured);
    if ensured.result.Err? then Failed(side1, Raised(ensured.result.error))
    else if rememberMode then
      Say(env, side1, Reply(token, TextContent(GroupText(|faces|, [], |faces|))), AskAbout(filename, faces))
    else
      var found := FindPersonByFaces(env.face, side1.db, sender, faces);
      var side2 := Served(side1, found);
      if found.result.Err? then Failed(side2, Raised(found.result.error))
      else
        var sorted := Sorted(faces, found.result.value);
        var text := GroupText(|faces|, Names(sorted.0), |sorted.1|);
        Say(env, side2, Reply(token, TextContent(text)), AskAbout(filename, sorted.1))
  }

  /** The start data the detection node reads. */
  datatype DetectArgs = DetectArgs(token: string, messageId: string, rememberMode: bool)

  function ReadDetectArgs(data: Doc): (r: Result<DetectArgs, Exception>)
    ensures ReplyTokenKey !in data || MessageIdKey !in data || RememberModeKey !in data ==> r.Err?
  {
    var token :- FieldText(data, ReplyTokenKey);
    var messageId :- FieldText(data, MessageIdKey);
    var modeText :- FieldText(data, RememberModeKey);
    match Text.ParseBool(modeText)
    case None => Err(FormatError)
    case Some(mode) => Ok(DetectArgs(token, messageId, mode))
  }

  /** The detection data written by the root node is read back as written. */
  lemma DetectArgsRoundTrip(token: string, messageId: string, rememberMode: bool)
    ensures ReadDetectArgs(map[ReplyTokenKey := JString(token), MessageIdKey := JString(messageId), RememberModeKey := JBool(rememberMode)])
         == Ok(DetectArgs(token, messageId, rememberMode))
  {
    Text.BoolRoundTrip(rememberMode);
  }

  /** `DetectStart`: branch on the number of faces detected. */
  function DetectStart(env: Env, sender: string, data: Doc, side: Side): (r: Step<Side>)
    ensures r.outcome.Go? ==> r.outcome.path in {RootPath, SelectPath}
  {
    match ReadDetectArgs(data)
    case Err(x) => Failed(side, x)
    case Ok(args) =>
      var detected := DetectFace(env.face, side.db, args.messageId);
      var side1 := Served(side, detected);
      if detected.result.Err? then Failed(side1, Raised(detected.result.error))
      else
        var faces := detected.result.value;
        if |faces| == 1 then SingleFace(env, sender, args.token, args.messageId, faces[0], args.rememberMode, side1)
        else if |faces| >= 2 then MultipleFaces(env, sender, args.token, args.messageId, faces, args.rememberMode, side1)
        else Say(env, side1, Reply(args.token, TextContent(NoFaceText)), Go(RootPath, None))
  }

  /** With the data and the photo read, the number of faces decides the
      branch: none is answered and ends the dialogue, one and several go to
      their own handling. */
  lemma DetectBranchesOnCount(env: Env, sender: string, data: Doc, side: Side)
    requires ReadDetectArgs(data).Ok?
    requires DetectFace(env.face, side.db, ReadDetectArgs(data).value.messageId).result.Ok?
    ensures var args := ReadDetectArgs(data).value;
            var detected := DetectFace(env.face, side.db, args.messageId);
            var faces := detected.result.value;
            var side1 := Served(side, detected);
            var r := DetectStart(env, sender, data, side);
            && (|faces| == 0 ==> r == Say(env, side1, Reply(args.token, TextContent(NoFaceText)), Go(RootPath, None)))
            && (|faces| == 1 ==> r == SingleFace(env, sender, args.token, args.messageId, faces[0], args.rememberMode, side1))
            && (|faces| >= 2 ==> r == MultipleFaces(env, sender, args.token, args.messageId, faces, args.rememberMode, side1))
  {
  }

  /** One face is asked about when in remember mode or when nobody is found
      for it; a known face is named and the dialogue ends. */
  lemma SingleFaceAsksUnlessKnown(env: Env, sender: string, token: string, filename: string, f: Face, rememberMode: bool, side: Side)
    requires EnsurePersonGroup(env.face, side.db, sender).result.Ok?
    ensures var side1 := Served(side, EnsurePersonGroup(env.face, side.db, sender));
            var found := FindPersonByFace(env.face, side1.db, sender, f);
            var r := SingleFace(env, sender, token, filename, f, rememberMode, side);
            && (rememberMode || found.result == Ok(None) ==> r.outcome == Go(SelectPath, Some(SelectDoc(filename, [f]))))
            && (!rememberMode && found.result.Ok? && found.result.value.Some? ==>
                  var said := Reply(token, TextContent(ThisIsText(found.result.value.value.name)));
                  && (r.outcome == Go(RootPath, None) || r.outcome == Throw(ServiceFailure))
                  && (r.outcome == Go(RootPath, None) <==> env.delivered(said))
                  && (r.outcome.Go? ==> r.side.sent == side.sent + [said]))
  {
  }

  /** `DetectReply`: any event ends the detection. */
  function DetectReply(env: Env, e: Event, data: Doc, side: Side): (r: Step<Side>)
    ensures r.side == side && r.outcome == Go(RootPath, None)
  {
    Step(side, Go(RootPath, None))
  }

  // ---------------------------------------------------------------------------
  // WhoareSelectStart
  // ---------------------------------------------------------------------------

  /** The column for one (id, rectangle) pair, choosing `index`. */
  function ColumnOf(pair: (Json, Json), index: nat): (r: Result<Column, Exception>)
    ensures r.Ok? ==> && r.value.choose == Text.IntToString(index)
                      && r.value.cancel == CancelData
                      && ItemText(pair.0) == Ok(r.value.faceId)
                      && ItemText(pair.1).Ok? && ParseRect(ItemText(pair.1).value) == Ok(r.value.rect)
    ensures ItemText(pair.0).Ok? && ItemText(pair.1).Ok? && ParseRect(ItemText(pair.1).value).Ok? ==> r.Ok?
  {
    var faceId :- ItemText(pair.0);
    var rectText :- ItemText(pair.1);
    var rect :- ParseRect(rectText);
    Ok(Column(faceId, rect, Text.IntToString(index), CancelData))
  }

  /** One column per pair, in order, column `i` choosing `start + i`; the
      first pair that cannot be read is an exception. */
  function Columns(pairs: seq<(Json, Json)>, start: nat): (r: Result<seq<Column>, Exception>)
    ensures r.Ok? ==> |r.value| == |pairs|
  {
    SelectIndexed(pairs, ColumnOf, start)
  }

  /** The columns are the pairs' columns, in order; they fail exactly when
      one of the pairs cannot be read. */
  lemma ColumnsSpec(pairs: seq<(Json, Json)>, start: nat)
    ensures var r := Columns(pairs, start);
            && (r.Ok? <==> forall i :: 0 <= i < |pairs| ==> ColumnOf(pairs[i], start + i).Ok?)
            && (r.Ok? ==> forall i :: 0 <= i < |pairs| ==> ColumnOf(pairs[i], start + i) == Ok(r.value[i]))
  {
    SelectIndexedSpec(pairs, ColumnOf, start);
  }

  /** The carousel of the selection node. */
  function SelectCarousel(data: Doc): (r: Result<Content, Exception>)
    ensures r.Ok? ==> r.value.CarouselContent? && |r.value.columns| <= CarouselLimit
  {
    var filename :- FieldText(data, FilenameKey);
    if FaceIdsKey !in data || FaceRectsKey !in data then Err(ArgumentNull)
    else
      var ids :- FieldItems(data, FaceIdsKey);
      var rects :- FieldItems(data, FaceRectsKey);
      var columns :- Columns(Take(Zip(ids, rects), CarouselLimit), 0);
      Ok(CarouselContent(if |ids| == 1 then AltOne else AltMany, columns))
  }

  /** `WhoareSelectStart`: push the carousel to the sender; no transition. */
  function WhoareSelectStart(env: Env, sender: string, data: Doc, side: Side): (r: Step<Side>)
    ensures Talks(side, r, 1) && !r.outcome.Go?
    ensures r.side.sent != side.sent ==> exists c :: r.side.sent == side.sent + [Push(sender, c)] && SelectCarousel(data) == Ok(c)
    ensures r.outcome == Stay <==> SelectCarousel(data).Ok? && env.delivered(Push(sender, SelectCarousel(data).value))
    ensures r.outcome == Stay ==> r.side.sent == side.sent + [Push(sender, SelectCarousel(data).value)]
  {
    match SelectCarousel(data)
    case Err(x) => Failed(side, x)
    case Ok(c) => Say(env, side, Push(sender, c), Stay)
  }

  /** The column for a detected face's written id and rectangle shows that
      face and chooses `i`. */
  lemma ColumnOfFace(idItem: Json, rectItem: Json, f: Face, i: nat)
    requires ItemText(idItem) == Ok(GuidText(f.faceId)) && ItemText(rectItem) == Ok(RectText(f.rect))
    requires Int32Rect(f.rect) && i <= Text.Int32Max
    ensures ColumnOf((idItem, rectItem), i) == Ok(Column(GuidText(f.faceId), f.rect, Text.IntToString(i), CancelData))
    ensures Text.ParseInt32(Text.IntToString(i)) == Some(i)
  {
    RectRoundTrip(f.rect);
    Text.IntToStringRoundTrip(i);
  }

  /** With the file name and both arrays readable, the carousel is the
      columns of the first five pairs, once they all build. */
  lemma SelectCarouselOfColumns(d: Doc)
    requires FieldText(d, FilenameKey).Ok? && FieldItems(d, FaceIdsKey).Ok? && FieldItems(d, FaceRectsKey).Ok?
    ensures var ids := FieldItems(d, FaceIdsKey).value;
            var cols := Columns(Take(Zip(ids, FieldItems(d, FaceRectsKey).value), CarouselLimit), 0);
            cols.Ok? ==> SelectCarousel(d) == Ok(CarouselContent(if |ids| == 1 then AltOne else AltMany, cols.value))
  {
  }

  /** The columns of the first `n` detected faces, column `i` choosing `i`. */
  function DetectedColumns(faces: seq<Face>, n: nat): (r: seq<Column>)
    requires n <= |faces|
    ensures |r| == n
  {
    seq(n, i requires 0 <= i < n => Column(GuidText(faces[i].faceId), faces[i].rect, Text.IntToString(i), CancelData))
  }

  /** The columns built from the written ids and rectangles of detected
      faces show the first five faces in order, column `i` choosing `i`. */
  lemma FaceColumns(ids: seq<Json>, rects: seq<Json>, faces: seq<Face>)
    requires |ids| == |faces| && |rects| == |faces|
    requires forall k :: 0 <= k < |faces| ==>
               && ItemText(ids[k]) == Ok(GuidText(faces[k].faceId))
               && ItemText(rects[k]) == Ok(RectText(faces[k].rect))
               && Int32Rect(faces[k].rect)
    ensures var cols := Columns(Take(Zip(ids, rects), CarouselLimit), 0);
            && cols.Ok? && |cols.value| == Min(|faces|, CarouselLimit)
            && forall i :: 0 <= i < |cols.value| ==>
                 cols.value[i] == Column(GuidText(faces[i].faceId), faces[i].rect, Text.IntToString(i), CancelData)
  {
    var pairs := Take(Zip(ids, rects), CarouselLimit);
    FaceColumnEach(ids, rects, faces);
    SelectIndexedOfEach(pairs, ColumnOf, 0, DetectedColumns(faces, |pairs|));
  }

  /** Each of the first five written pairs builds its face's column. */
  lemma FaceColumnEach(ids: seq<Json>, rects: seq<Json>, faces: seq<Face>)
    requires |ids| == |faces| && |rects| == |faces|
    requires forall k :: 0 <= k < |faces| ==>
               && ItemText(ids[k]) == Ok(GuidText(faces[k].faceId))
               && ItemText(rects[k]) == Ok(RectText(faces[k].rect))
               && Int32Rect(faces[k].rect)
    ensures var pairs := Take(Zip(ids, rects), CarouselLimit);
            && |pairs| == Min(|faces|, CarouselLimit)
            && forall i :: 0 <= i < |pairs| ==> ColumnOf(pairs[i], 0 + i) == Ok(DetectedColumns(faces, |pairs|)[i])
  {
    var pairs := Take(Zip(ids, rects), CarouselLimit);
    forall i | 0 <= i < |pairs|
      ensures ColumnOf(pairs[i], 0 + i) == Ok(DetectedColumns(faces, |pairs|)[i])
    {
      assert pairs[i] == (ids[i], rects[i]);
      ColumnOfFace(ids[i], rects[i], faces[i], i);
    }
  }

  /** For data written by the detection node, the carousel shows the first
      five faces in order with their rectangles, column `i` answering `i`,
      and a singular title exactly when there is one face. */
  lemma SelectCarouselOfDetected(filename: string, faces: seq<Face>)
    requires forall k :: 0 <= k < |faces| ==> Int32Rect(faces[k].rect)
    ensures var r := SelectCarousel(SelectDoc(filename, faces));
            && r.Ok?
            && |r.value.columns| == Min(|faces|, CarouselLimit)
            && (r.value.altText == AltOne <==> |faces| == 1)
            && forall i :: 0 <= i < |r.value.columns| ==>
                 && r.value.columns[i].faceId == GuidText(faces[i].faceId)
                 && r.value.columns[i].rect == faces[i].rect
                 && Text.ParseInt32(r.value.columns[i].choose) == Some(i)
  {
    var d := SelectDoc(filename, faces);
    SelectDocParallel(filename, faces);
    SelectCarouselOfColumns(d);
    FaceColumns(FieldItems(d, FaceIdsKey).value, FieldItems(d, FaceRectsKey).value, faces);
    forall i | 0 <= i < Min(|faces|, CarouselLimit) ensures Text.ParseInt32(Text.IntToString(i)) == Some(i) {
      Text.IntToStringRoundTrip(i);
    }
  }

  // ---------------------------------------------------------------------------
  // WhoareSelectReply
  // ---------------------------------------------------------------------------

  /** `WhoareSelectReply`: a face choice moves on to the answer node; a
      message, a cancel or any other event ends the dialogue. */
  function WhoareSelectReply(env: Env, e: Event, data: Doc, side: Side): (r: Step<Side>)
    ensures Talks(side, r, 1) && KnownTarget(r.outcome)
    ensures e.LifecycleEvent? ==> r == Step(side, Go(RootPath, None))
    ensures e.MessageEvent? || (e.PostbackEvent? && e.postbackData == CancelData) ==>
              r.outcome in {Go(RootPath, None), Throw(ServiceFailure)}
    ensures e.PostbackEvent? && e.postbackData != CancelData && Text.ParseInt32(e.postbackData).None? ==>
              r == Step(side, Stay)
    ensures e.MessageEvent? ==>
              var quit := e.message.Text? && Text.StartsWith(e.message.text, QuitWord);
              var said := Reply(e.replyToken, TextContent(if quit then QuittingText else PuzzledQuittingText));
              (r.outcome == Go(RootPath, None) <==> env.delivered(said))
    ensures e.PostbackEvent? && e.postbackData == CancelData ==>
              (r.outcome == Go(RootPath, None) <==> env.delivered(Reply(e.replyToken, TextContent(QuittingText))))
  {
    match e
    case MessageEvent(_, token, m) =>
      if m.Text? && Text.StartsWith(m.text, QuitWord) then
        Say(env, side, Reply(token, TextContent(QuittingText)), Go(RootPath, None))
      else Say(env, side, Reply(token, TextContent(PuzzledQuittingText)), Go(RootPath, None))
    case LifecycleEvent(_, _) => Step(side, Go(RootPath, None))
    case PostbackEvent(_, token, pd) =>
      if pd == CancelData then Say(env, side, Reply(token, TextContent(QuittingText)), Go(RootPath, None))
      else match Text.ParseInt32(pd)
        case None => Step(side, Stay)
        case Some(i) => Step(side, Go(AnswerPath, Some(data[ReplyTokenKey := JString(token)][FaceIndexKey := JInt(i)])))
  }

  /** Choosing column `i` of the carousel hands `FaceIndex = i` and the
      postback's reply token to the answer node, keeping the rest of the
      data. */
  lemma ChoiceCarriesIndex(env: Env, sender: string, token: string, data: Doc, side: Side, i: nat)
    requires i <= Text.Int32Max
    ensures var r := WhoareSelectReply(env, PostbackEvent(sender, token, Text.IntToString(i)), data, side);
            && r.side == side
            && r.outcome.Go? && r.outcome.path == AnswerPath && r.outcome.data.Some?
            && FieldText(r.outcome.data.value, ReplyTokenKey) == Ok(token)
            && r.outcome.data.value[FaceIndexKey] == JInt(i)
            && (forall k :: k in data && k != ReplyTokenKey && k != FaceIndexKey ==> r.outcome.data.value[k] == data[k])
  {
    var pd := Text.IntToString(i);
    Text.IntToStringRoundTrip(i);
    assert pd != CancelData by {
      assert Text.AllDigits(Text.NatToString(i));
      assert !Text.IsDigit(CancelData[0]);
    }
    ChoicePostback(env, sender, token, pd, i, data, side);
    var d := data[ReplyTokenKey := JString(token)][FaceIndexKey := JInt(i)];
    assert FieldText(d, ReplyTokenKey) == Ok(token);
  }

  /** A postback other than "Cancel" that parses as `v` moves on to the
      answer node with `FaceIndex = v` and the postback's token. */
  lemma ChoicePostback(env: Env, sender: string, token: string, pd: string, v: int, data: Doc, side: Side)
    requires pd != CancelData && Text.ParseInt32(pd) == Some(v)
    ensures WhoareSelectReply(env, PostbackEvent(sender, token, pd), data, side)
         == Step(side, Go(AnswerPath, Some(data[ReplyTokenKey := JString(token)][FaceIndexKey := JInt(v)])))
  {
  }

  // ---------------------------------------------------------------------------
  // WhoareAnswerStart, WhoareAnswerReply
  // ---------------------------------------------------------------------------

  /** `WhoareAnswerStart`: ask for the name; no transition. */
  function WhoareAnswerStart(env: Env, sender: string, data: Doc, side: Side): (r: Step<Side>)
    ensures Talks(side, r, 1) && !r.outcome.Go?
    ensures ReplyTokenKey !in data ==> r == Step(side, Throw(NullReference))
    ensures r.outcome == Stay <==>
              FieldText(data, ReplyTokenKey).Ok? && env.delivered(Reply(FieldText(data, ReplyTokenKey).value, TextContent(AskNameText)))
    ensures r.outcome == Stay ==> r.side.sent == side.sent + [Reply(FieldText(data, ReplyTokenKey).value, TextContent(AskNameText))]
  {
    match FieldText(data, ReplyTokenKey)
    case Err(x) => Failed(side, x)
    case Ok(token) => Say(env, side, Reply(token, TextContent(AskNameText)), Stay)
  }

  /** `RememberPersonFaceAsync` of the handler: find the person by name or
      create one, then add the face to that person. */
  function RememberFace(face: FaceService, db: PersonDb, sender: string, name: string, image: ImageRef): (r: Effect<()>)
    ensures r.result.Ok? ==> FindPersonByName(r.db, sender, name).Some?
    ensures r.result.Ok? ==>
              var p := FindPersonByName(r.db, sender, name).value;
              && ParseGuid(p.personId).Some?
              && AddPersonFaceCall(PersonGroupId(sender), ParseGuid(p.personId).value, image) in r.calls
    ensures FindPersonByName(db, sender, name).Some? ==> r.db == db
    ensures FindPersonByName(db, sender, name).None? ==>
              |r.calls| >= 1 && r.calls[0] == CreatePersonCall(PersonGroupId(sender), name)
  {
    var found := FindPersonByName(db, sender, name);
    if found.Some? then RememberPersonFace(face, db, found.value, image)
    else
      var created := CreatePerson(face, db, sender, name);
      if created.result.Err? then Effect(created.db, created.calls, Err(created.result.error))
      else
        var p := created.result.value;
        var added := RememberPersonFace(face, created.db, p, image);
        assert created.db.persons[|created.db.persons| - 1] == p;
        assert FindPersonByName(created.db, sender, name) == Some(p) by {
          assert forall k :: 0 <= k < |db.persons| ==> created.db.persons[k] == db.persons[k];
        }
        Effect(added.db, created.calls + added.calls, added.result)
  }

  /** What the answer node reads before it looks at the event. The face ids
      are read only for a non-negative index. */
  datatype AnswerArgs = AnswerArgs(index: int, ids: seq<Json>, image: Option<ImageRef>)

  /** `int.Parse(data["FaceIndex"])`, then, unless the index is negative, the
      face ids, and for an index in range the name of the face's image file.
      The range test short-circuits: a negative index never counts the ids. */
  function ReadAnswerArgs(data: Doc): (r: Result<AnswerArgs, Exception>)
    ensures FaceIndexKey !in data ==> r == Err(NullReference)
    ensures r.Ok? ==> FieldText(data, FaceIndexKey).Ok? && Text.ParseInt32(FieldText(data, FaceIndexKey).value) == Some(r.value.index)
    ensures r.Ok? ==> (r.value.image.Some? <==> 0 <= r.value.index < |r.value.ids|)
    ensures r.Ok? && r.value.index >= 0 ==> FieldItems(data, FaceIdsKey) == Ok(r.value.ids)
    ensures r.Ok? && r.value.index < 0 ==> r.value.image.None?
  {
    var indexText :- FieldText(data, FaceIndexKey);
    match Text.ParseInt32(indexText)
    case None => Err(FormatError)
    case Some(index) =>
      if index < 0 then Ok(AnswerArgs(index, [], None))
      else
        var ids :- FieldItems(data, FaceIdsKey);
        if index >= |ids| then Ok(AnswerArgs(index, ids, None))
        else
          var filename :- FieldText(data, FilenameKey);
          var faceId :- ItemText(ids[index]);
          Ok(AnswerArgs(index, ids, Some(filename + "-" + faceId + ".jpg")))
  }

  /** The data for the next round: face `index` removed from both arrays. */
  function WithoutFace(data: Doc, ids: seq<Json>, index: nat): (r: Result<Doc, Exception>)
    requires index < |ids|
    ensures r.Ok? ==> && FaceIdsKey in r.value && r.value[FaceIdsKey] == JArray(RemoveAt(ids, index))
                      && FaceRectsKey in data && Items(data[FaceRectsKey]).Some? && index < |Items(data[FaceRectsKey]).value|
                      && FaceRectsKey in r.value && r.value[FaceRectsKey] == JArray(RemoveAt(Items(data[FaceRectsKey]).value, index))
                      && forall k :: k in data && k != FaceIdsKey && k != FaceRectsKey ==> k in r.value && r.value[k] == data[k]
  {
    if FaceRectsKey !in data then Err(ArgumentNull)
    else match Items(data[FaceRectsKey])
      case None => Err(InvalidCast)
      case Some(rects) =>
        if index >= |rects| then Err(ArgumentOutOfRange)
        else Ok(data[FaceIdsKey := JArray(RemoveAt(ids, index))][FaceRectsKey := JArray(RemoveAt(rects, index))])
  }

  /** `WhoareAnswerReply`: a text names the chosen face; with faces left the
      dialogue goes round again without it. */
  function WhoareAnswerReply(env: Env, e: Event, data: Doc, side: Side): (r: Step<Side>)
    ensures KnownTarget(r.outcome)
    ensures r.outcome.Go? ==> r.outcome.path in {RootPath, SelectPath}
    ensures !(e.MessageEvent? && e.message.Text?) ==> Talks(side, r, 1)
    ensures !e.MessageEvent? ==> r.side == side && (r.outcome.Throw? || r.outcome == Go(RootPath, None))
  {
    match ReadAnswerArgs(data)
    case Err(x) => Failed(side, x)
    case Ok(args) =>
      if args.image.None? then Step(side, Go(RootPath, None))
      else if !e.MessageEvent? then Step(side, Go(RootPath, None))
      else if !e.message.Text? then
        Say(env, side, Reply(e.replyToken, TextContent(PuzzledQuittingText)), Go(RootPath, None))
      else NameFace(env, e.sender, e.replyToken, e.message.text, data, args, side)
  }

  /** The answer names the chosen face: remember it under the name, then end
      after the last face or go round again without this one. */
  function NameFace(env: Env, sender: string, token: string, name: string, data: Doc, args: AnswerArgs, side: Side): (r: Step<Side>)
    requires args.image.Some? && 0 <= args.index < |args.ids|
    ensures r.outcome.Go? ==> r.outcome.path in {RootPath, SelectPath}
  {
    var remembered := RememberFace(env.face, side.db, sender, name, args.image.value);
    var side1 := Served(side, remembered);
    if remembered.result.Err? then Failed(side1, Raised(remembered.result.error))
    else if |args.ids| == 1 then
      Say(env, side1, Reply(token, TextContent(RememberedText(name))), Go(RootPath, None))
    else
      var out := Reply(token, TextContent(RememberedMoreText(name)));
      if !env.delivered(out) then Failed(side1, ServiceFailure)
      else
        var side2 := side1.(sent := side1.sent + [out]);
        match WithoutFace(data, args.ids, args.index as nat)
        case Err(x) => Failed(side2, x)
        case Ok(next) => Step(side2, Go(SelectPath, Some(next)))
  }

  /** An index outside the face list ends the dialogue before anything else
      is looked at. */
  lemma AnswerOutOfRangeEnds(env: Env, e: Event, data: Doc, side: Side)
    requires ReadAnswerArgs(data).Ok?
    requires var a := ReadAnswerArgs(data).value; a.index < 0 || a.index >= |a.ids|
    ensures WhoareAnswerReply(env, e, data, side) == Step(side, Go(RootPath, None))
  {
  }

  /** A negative 32-bit index ends the dialogue whatever the rest of the data
      holds: the face ids may be missing or of any shape, since the range
      test never reaches them. */
  lemma NegativeIndexEnds(env: Env, e: Event, data: Doc, side: Side, index: int)
    requires FaceIndexKey in data && data[FaceIndexKey] == JInt(index)
    requires Text.Int32Min <= index < 0
    ensures WhoareAnswerReply(env, e, data, side) == Step(side, Go(RootPath, None))
  {
    Text.IntToStringRoundTrip(index);
    assert FieldText(data, FaceIndexKey) == Ok(Text.IntToString(index));
    assert ReadAnswerArgs(data) == Ok(AnswerArgs(index, [], None));
  }

  /** The answer node's data, as the selection and choice nodes leave it. */
  function AnswerDoc(filename: string, faces: seq<Face>, token: string, index: int): Doc {
    SelectDoc(filename, faces)[ReplyTokenKey := JString(token)][FaceIndexKey := JInt(index)]
  }

  /** The answer node reads back the chosen index and the face ids. */
  lemma AnswerArgsOfChoice(filename: string, faces: seq<Face>, token: string, index: nat)
    requires index < |faces| && index <= Text.Int32Max
    ensures var a := ReadAnswerArgs(AnswerDoc(filename, faces, token, index));
            && a.Ok? && a.value.index == index && a.value.ids == StringArray(FaceIdTexts(faces)).items
            && a.value.image == Some(filename + "-" + GuidText(faces[index].faceId) + ".jpg")
  {
    var data := AnswerDoc(filename, faces, token, index);
    Text.IntToStringRoundTrip(index);
    assert FieldText(data, FaceIndexKey) == Ok(Text.IntToString(index));
    var ids := StringArray(FaceIdTexts(faces)).items;
    assert FieldItems(data, FaceIdsKey) == Ok(ids);
    assert FieldText(data, FilenameKey) == Ok(filename);
    assert |ids| == |faces| && ItemText(ids[index]) == Ok(GuidText(faces[index].faceId));
    assert ReadAnswerArgs(data) == Ok(AnswerArgs(index, ids, Some(filename + "-" + GuidText(faces[index].faceId) + ".jpg")));
  }

  /** Removing the chosen face from the answer data gives the selection data
      of the remaining faces. */
  lemma WithoutChosenFace(filename: string, faces: seq<Face>, token: string, index: nat)
    requires index < |faces|
    ensures var data := AnswerDoc(filename, faces, token, index);
            WithoutFace(data, StringArray(FaceIdTexts(faces)).items, index)
              == Ok(AnswerDoc(filename, RemoveAt(faces, index), token, index))
  {
    var data := AnswerDoc(filename, faces, token, index);
    var ids := StringArray(FaceIdTexts(faces)).items;
    var rects := StringArray(RectTexts(faces)).items;
    var rest := RemoveAt(faces, index);
    assert RemoveAt(ids, index) == StringArray(FaceIdTexts(rest)).items;
    assert RemoveAt(rects, index) == StringArray(RectTexts(rest)).items;
    assert Items(data[FaceRectsKey]) == Some(rects);
    assert |rects| == |faces|;
    assert WithoutFace(data, ids, index) == Ok(data[FaceIdsKey := JArray(RemoveAt(ids, index))][FaceRectsKey := JArray(RemoveAt(rects, index))]);
    var lhs := WithoutFace(data, ids, index).value;
    var rhs := AnswerDoc(filename, rest, token, index);
    assert lhs.Keys == rhs.Keys;
    assert forall k | k in lhs :: lhs[k] == rhs[k];
    assert lhs == rhs;
  }

  /** A text answer about one of several faces, when everything succeeds,
      remembers the name and asks again without that face. */
  lemma AnswerTextGoesRound(env: Env, sender: string, token: string, name: string, data: Doc, side: Side)
    requires ReadAnswerArgs(data).Ok?
    requires var a := ReadAnswerArgs(data).value; a.image.Some? && |a.ids| >= 2
    ensures var a := ReadAnswerArgs(data).value;
            var r := WhoareAnswerReply(env, MessageEvent(sender, token, Text(name)), data, side);
            r.outcome.Go? ==>
              && WithoutFace(data, a.ids, a.index as nat).Ok?
              && r.outcome == Go(SelectPath, Some(WithoutFace(data, a.ids, a.index as nat).value))
              && FindPersonByName(r.side.db, sender, name).Some?
    ensures var a := ReadAnswerArgs(data).value;
            var r := WhoareAnswerReply(env, MessageEvent(sender, token, Text(name)), data, side);
            r.outcome.Go? <==>
              && RememberFace(env.face, side.db, sender, name, a.image.value).result.Ok?
              && env.delivered(Reply(token, TextContent(RememberedMoreText(name))))
              && WithoutFace(data, a.ids, a.index as nat).Ok?
  {
    var a := ReadAnswerArgs(data).value;
    var r := NameFace(env, sender, token, name, data, a, side);
    assert WhoareAnswerReply(env, MessageEvent(sender, token, Text(name)), data, side) == r;
    var remembered := RememberFace(env.face, side.db, sender, name, a.image.value);
    var out := Reply(token, TextContent(RememberedMoreText(name)));
    if remembered.result.Ok? && env.delivered(out) {
      var side2 := Served(side, remembered).(sent := Served(side, remembered).sent + [out]);
      assert r == match WithoutFace(data, a.ids, a.index as nat)
                  case Err(x) => Failed(side2, x)
                  case Ok(next) => Step(side2, Go(SelectPath, Some(next)));
      assert side2.db == remembered.db;
    }
  }

  /** Naming one of several faces remembers the name, removes exactly that
      face from both arrays and asks again; the rest of the data is kept. */
  lemma AnswerRemovesChosenFace(env: Env, sender: string, token: string, name: string,
                                filename: string, faces: seq<Face>, index: nat, side: Side)
    requires 2 <= |faces| && index < |faces|
    requires index <= Text.Int32Max
    ensures var r := WhoareAnswerReply(env, MessageEvent(sender, token, Text(name)), AnswerDoc(filename, faces, token, index), side);
            r.outcome.Go? ==>
              && r.outcome == Go(SelectPath, Some(AnswerDoc(filename, RemoveAt(faces, index), token, index)))
              && FindPersonByName(r.side.db, sender, name).Some?
    ensures var r := WhoareAnswerReply(env, MessageEvent(sender, token, Text(name)), AnswerDoc(filename, faces, token, index), side);
            r.outcome.Go? <==>
              && RememberFace(env.face, side.db, sender, name, filename + "-" + GuidText(faces[index].faceId) + ".jpg").result.Ok?
              && env.delivered(Reply(token, TextContent(RememberedMoreText(name))))
  {
    AnswerArgsOfChoice(filename, faces, token, index);
    WithoutChosenFace(filename, faces, token, index);
    AnswerTextGoesRound(env, sender, token, name, AnswerDoc(filename, faces, token, index), side);
  }

  /** Naming the last face ends the dialogue with the name remembered. */
  lemma AnswerLastFaceEnds(env: Env, sender: string, token: string, name: string,
                           filename: string, f: Face, side: Side)
    ensures var r := WhoareAnswerReply(env, MessageEvent(sender, token, Text(name)), AnswerDoc(filename, [f], token, 0), side);
            r.outcome.Go? ==> r.outcome == Go(RootPath, None) && FindPersonByName(r.side.db, sender, name).Some?
    ensures var r := WhoareAnswerReply(env, MessageEvent(sender, token, Text(name)), AnswerDoc(filename, [f], token, 0), side);
            r.outcome.Go? <==>
              && RememberFace(env.face, side.db, sender, name, filename + "-" + GuidText(f.faceId) + ".jpg").result.Ok?
              && env.delivered(Reply(token, TextContent(RememberedText(name))))
  {
    AnswerArgsOfChoice(filename, [f], token, 0);
  }

  // ---------------------------------------------------------------------------
  // Detection outcomes
  // ---------------------------------------------------------------------------

  /** In remember mode every detected face is asked about, known or not. */
  lemma RememberModeAsksAll(env: Env, sender: string, token: string, filename: string, faces: seq<Face>, side: Side)
    requires |faces| >= 2
    ensures var r := MultipleFaces(env, sender, token, filename, faces, true, side);
            r.outcome.Go? ==> r.outcome == Go(SelectPath, Some(SelectDoc(filename, faces)))
    ensures var r := MultipleFaces(env, sender, token, filename, faces, true, side);
            r.outcome.Go? <==>
              && EnsurePersonGroup(env.face, side.db, sender).result.Ok?
              && env.delivered(Reply(token, TextContent(GroupText(|faces|, [], |faces|))))
  {
  }

  /** Outside remember mode the lookup's split is the order-preserving filter
      of the aligned lists: it starts empty, and each further face either
      appends its person to the known people or, when nobody was found,
      itself to the faces asked about. */
  lemma LookupSplitsFaces(faces: seq<Face>, persons: seq<Option<Person>>, f: Face, p: Option<Person>)
    requires |persons| == |faces|
    ensures Sorted([], []) == ([], [])
    ensures var s := Sorted(faces, persons);
            Sorted(faces + [f], persons + [p])
              == (s.0 + (if p.Some? then [p.value] else []), s.1 + (if p.None? then [f] else []))
  {
    PresentSnoc(persons, p);
    AbsentSnoc(faces, persons, f, p);
  }

  /** Outside remember mode, once the lookup answers, the handler asks about
      exactly the faces nobody was found for, and moves to the selection iff
      there is one; a failed lookup throws. */
  lemma MultipleFacesAsksUnknowns(env: Env, sender: string, token: string, filename: string, faces: seq<Face>, side: Side)
    requires EnsurePersonGroup(env.face, side.db, sender).result.Ok?
    ensures var side1 := Served(side, EnsurePersonGroup(env.face, side.db, sender));
            var found := FindPersonByFaces(env.face, side1.db, sender, faces);
            var r := MultipleFaces(env, sender, token, filename, faces, false, side);
            && (found.result.Err? ==> r.outcome == Throw(Raised(found.result.error)))
            && (found.result.Ok? && r.outcome.Go? ==>
                  && r.outcome == AskAbout(filename, Absent(faces, found.result.value))
                  && (r.outcome.path == SelectPath <==> exists k :: 0 <= k < |faces| && found.result.value[k].None?))
            && (found.result.Ok? ==>
                  var text := GroupText(|faces|, Names(Present(found.result.value)), |Absent(faces, found.result.value)|);
                  (r.outcome.Go? <==> env.delivered(Reply(token, TextContent(text)))))
  {
    var side1 := Served(side, EnsurePersonGroup(env.face, side.db, sender));
    var found := FindPersonByFaces(env.face, side1.db, sender, faces);
    if found.result.Ok? {
      var sorted := Sorted(faces, found.result.value);
      assert sorted.1 == Absent(faces, found.result.value);
    }
  }

  /** A face-service error during lookup counts every face as unknown,
      unless it is "not trained" and the training it triggers fails. */
  lemma LookupErrorAsksAll(face: FaceService, db: PersonDb, sender: string, faces: seq<Face>)
    ensures Sorted(faces, NoneFound(|faces|)) == ([], faces)
    ensures var answer := face.identify(PersonGroupId(sender), IdentifyIds(faces));
            var found := FindPersonByFaces(face, db, sender, faces);
            answer.Err? && answer.error.FaceApiError? && !(answer.error.code == NotTrained && face.train(PersonGroupId(sender)).Some?) ==>
              found.result.Ok? && Sorted(faces, found.result.value) == ([], faces)
  {
    AllAbsent(faces, NoneFound(|faces|));
  }

  /** With more than ten faces the reply never gives the count of unknown
      ones; with ten or fewer it gives it whenever someone is both known and
      unknown. */
  lemma CountShownOnlyUpToTen(faceCount: nat, names: seq<string>, unknownCount: nat)
    requires |names| > 0
    ensures faceCount > CountLimit ==> GroupText(faceCount, names, unknownCount) == Text.Join(names, NameSeparator) + KnownSuffix + TooManySuffix
    ensures faceCount <= CountLimit && unknownCount > 0 ==>
              GroupText(faceCount, names, unknownCount) == Text.Join(names, NameSeparator) + KnownSuffix + OthersSuffix(faceCount - |names|)
  {
  }
}

=== FILE: json.dfy ===
/** The step data threaded between dialogue nodes: a JSON object, as held by
    a Newtonsoft `JObject`. Only the parsed form is modelled. */
module Json {
  import opened Wrappers
  import Text

  datatype Json =
    | JNull
    | JBool(b: bool)
    | JInt(i: int)
    | JString(s: string)
    | JArray(items: seq<Json>)
    | JObject(fields: map<string, Json>)

  /** A JSON object: the `data` of a conversation. */
  type Doc = map<string, Json>

  /** `{}`: what an absent (null) document is stored and read back as. */
  const EmptyDoc: Doc := map[]

  /** A possibly-null document made concrete: null becomes `{}`. */
  function Normalize(d: Option<Doc>): (r: Doc)
    ensures d.Some? ==> r == d.value
    ensures d.None? ==> |r| == 0
  {
    d.GetOr(EmptyDoc)
  }

  /** `data[key]`: the token under `key`, or `None` (a C# null) when absent. */
  function Field(d: Doc, key: string): Option<Json> {
    if key in d then Some(d[key]) else None
  }

  /** `JToken.ToString()` of a scalar token: a string as itself, a boolean as
      "True"/"False", an integer in decimal, null as the empty string. The
      indented JSON text of arrays and objects is not modelled (`None`). */
  function Render(j: Json): Option<string> {
    match j
    case JNull => Some("")
    case JBool(b) => Some(Text.BoolToString(b))
    case JInt(i) => Some(Text.IntToString(i))
    case JString(s) => Some(s)
    case JArray(_) => None
    case JObject(_) => None
  }

  /** The children a `JToken` enumerates: the items of an array, none for a
      scalar. The properties of an object are not modelled (`None`). */
  function Items(j: Json): Option<seq<Json>> {
    match j
    case JArray(xs) => Some(xs)
    case JObject(_) => None
    case _ => Some([])
  }

  /** `new JArray(strings)`. */
  function StringArray(xs: seq<string>): (r: Json)
    ensures r.JArray? && |r.items| == |xs|
    ensures forall k :: 0 <= k < |xs| ==> Render(r.items[k]) == Some(xs[k])
  {
    JArray(seq(|xs|, k requires 0 <= k < |xs| => JString(xs[k])))
  }

  /** The text of every item of an array of scalars; `None` when `j` is not
      an array or holds a compound item. */
  function StringsOf(j: Json): (r: Option<seq<string>>)
    ensures r.Some? ==> j.JArray? && |r.value| == |j.items|
    ensures r.Some? ==> forall k :: 0 <= k < |j.items| ==> Render(j.items[k]) == Some(r.value[k])
  {
    if !j.JArray? then None
    else if forall k :: 0 <= k < |j.items| ==> Render(j.items[k]).Some? then
      Some(seq(|j.items|, k requires 0 <= k < |j.items| => Render(j.items[k]).value))
    else None
  }

  /** Reading back an array built from strings gives the strings. */
  lemma StringArrayRoundTrip(xs: seq<string>)
    ensures StringsOf(StringArray(xs)) == Some(xs)
  {
    var j := StringArray(xs);
    assert forall k :: 0 <= k < |j.items| ==> Render(j.items[k]).Some?;
    var r := StringsOf(j);
    assert r.Some?;
    assert |r.value| == |xs|;
    assert forall k :: 0 <= k < |xs| ==> r.value[k] == xs[k];
    assert r.value == xs;
  }
}

=== FILE: persons.dfy ===
/** People and person groups, and `PersonService`: the database tables as
    sequences of rows, the face-recognition service as an oracle of pure
    functions, and every remote call recorded in order. */
module Persons {
  import opened Wrappers
  import opened Sequences
  import Text

  // ---------------------------------------------------------------------------
  // GUIDs
  // ---------------------------------------------------------------------------

  predicate IsLowerHex(ch: char) {
    ('0' <= ch <= '9') || ('a' <= ch <= 'f')
  }

  predicate IsHex(ch: char) {
    IsLowerHex(ch) || ('A' <= ch <= 'F')
  }

  /** A GUID as its 32 hexadecimal digits, lower case. */
  type Guid = h: string | |h| == 32 && forall k :: 0 <= k < |h| ==> IsLowerHex(h[k])
    witness "00000000000000000000000000000000"

  /** `Guid.ToString()`: the "D" format, 8-4-4-4-12 digits. */
  function GuidText(g: Guid): (r: string)
    ensures |r| == 36
    ensures r[8] == '-' && r[13] == '-' && r[18] == '-' && r[23] == '-'
  {
    g[..8] + "-" + g[8..12] + "-" + g[12..16] + "-" + g[16..20] + "-" + g[20..]
  }

  /** Positions of the hyphens in the "D" format. */
  predicate IsHyphenSlot(k: int) {
    k == 8 || k == 13 || k == 18 || k == 23
  }

  /** `Guid.Parse` on the "D" format, digits in either case. */
  function ParseGuid(s: string): (r: Option<Guid>)
    ensures r.Some? <==> |s| == 36 && forall k :: 0 <= k < 36 ==> (if IsHyphenSlot(k) then s[k] == '-' else IsHex(s[k]))
  {
    if |s| == 36 && forall k :: 0 <= k < 36 ==> (if IsHyphenSlot(k) then s[k] == '-' else IsHex(s[k])) then
      var digits := s[..8] + s[9..13] + s[14..18] + s[19..23] + s[24..];
      assert forall k :: 0 <= k < 32 ==> IsHex(digits[k]) by {
        forall k | 0 <= k < 32 ensures IsHex(digits[k]) {
          if k < 8 { assert digits[k] == s[k]; }
          else if k < 12 { assert digits[k] == s[k + 1]; }
          else if k < 16 { assert digits[k] == s[k + 2]; }
          else if k < 20 { assert digits[k] == s[k + 3]; }
          else { assert digits[k] == s[k + 4]; }
        }
      }
      var lowered := Text.LowerAscii(digits);
      Some(lowered)
    else None
  }

  /** `Guid.Parse(g.ToString()) == g`. */
  lemma GuidRoundTrip(g: Guid)
    ensures ParseGuid(GuidText(g)) == Some(g)
  {
    var s := GuidText(g);
    assert s[..8] == g[..8] && s[9..13] == g[8..12] && s[14..18] == g[12..16];
    assert s[19..23] == g[16..20] && s[24..] == g[20..];
    assert g[..8] + g[8..12] + g[12..16] + g[16..20] + g[20..] == g;
    assert forall k :: 0 <= k < 36 ==> (if IsHyphenSlot(k) then s[k] == '-' else IsHex(s[k])) by {
      forall k | 0 <= k < 36 ensures if IsHyphenSlot(k) then s[k] == '-' else IsHex(s[k]) {
        if k < 8 { assert s[k] == g[k]; }
        else if 8 < k < 13 { assert s[k] == g[k - 1]; }
        else if 13 < k < 18 { assert s[k] == g[k - 2]; }
        else if 18 < k < 23 { assert s[k] == g[k - 3]; }
        else if 23 < k { assert s[k] == g[k - 4]; }
      }
    }
    assert Text.LowerAscii(g) == g;
  }

  // ---------------------------------------------------------------------------
  // Entities
  // ---------------------------------------------------------------------------

  const PersonGroupIdMaxLength: nat := 64
  const PersonIdLength: nat := 36
  const NameMaxLength: nat := 128

  datatype PersonGroup = PersonGroup(personGroupId: string, name: string)

  datatype Person = Person(personGroupId: string, personId: string, name: string)

  /** The length constraints declared on `Person`. */
  predicate ValidPerson(p: Person) {
    && 1 <= |p.personGroupId| <= PersonGroupIdMaxLength
    && |p.personId| == PersonIdLength
    && 1 <= |p.name| <= NameMaxLength
  }

  /** The two tables: person groups and people, in row order. */
  datatype PersonDb = PersonDb(groups: seq<PersonGroup>, persons: seq<Person>)

  /** `SenderIdToPersonGroupId`: the sender id, lower-cased. */
  function PersonGroupId(senderId: string): (r: string)
    ensures |r| == |senderId|
    ensures Text.LowerAscii(r) == r
  {
    Text.LowerAscii(senderId)
  }

  // ---------------------------------------------------------------------------
  // The face-recognition service
  // ---------------------------------------------------------------------------

  datatype Rect = Rect(left: int, top: int, width: int, height: int)

  datatype Face = Face(faceId: Guid, rect: Rect)

  /** One entry of an identify answer: the candidates' person ids, best first. */
  datatype IdentifyResult = IdentifyResult(faceId: Guid, candidates: seq<Guid>)

  /** An image, by its LINE message id. */
  type ImageRef = string

  /** `FaceAPIException(code)`, or any other exception of the client. */
  datatype Failure = FaceApiError(code: string) | Unavailable | GuidFormat

  /** The remote calls, as recorded. */
  datatype FaceCall =
    | CreatePersonGroupCall(groupId: string)
    | DetectCall(image: ImageRef)
    | IdentifyCall(groupId: string, faceIds: seq<Guid>)
    | TrainCall(groupId: string)
    | CreatePersonCall(groupId: string, name: string)
    | AddPersonFaceCall(groupId: string, personId: Guid, image: ImageRef)
    | DeletePersonGroupCall(groupId: string)

  /** The answers the service gives. Only the calls' arguments are visible to
      it; confidence thresholds and training state live behind it. */
  datatype FaceService = FaceService(
    createPersonGroup: string -> Option<Failure>,
    detect: ImageRef -> Result<seq<Face>, Failure>,
    identify: (string, seq<Guid>) -> Result<seq<IdentifyResult>, Failure>,
    train: string -> Option<Failure>,
    createPerson: (string, string) -> Result<Guid, Failure>,
    addPersonFace: (string, Guid, ImageRef) -> Option<Failure>,
    deletePersonGroup: string -> Option<Failure>)

  const NotTrained: string := "PersonGroupNotTrained"
  const GroupExists: string := "PersonGroupExists"

  /** The identify call accepts at most this many faces. */
  const IdentifyLimit: nat := 10

  /** An operation's effect: the database afterwards, the remote calls made
      in order, and the value returned or the exception thrown. */
  datatype Effect<T> = Effect(db: PersonDb, calls: seq<FaceCall>, result: Result<T, Failure>)

  // ---------------------------------------------------------------------------
  // Queries
  // ---------------------------------------------------------------------------

  /** `FirstOrDefault` over the group table. */
  function FindGroup(groups: seq<PersonGroup>, groupId: string): (r: Option<nat>)
    ensures r.Some? ==> r.value < |groups| && groups[r.value].personGroupId == groupId
    ensures r.Some? ==> forall k :: 0 <= k < r.value ==> groups[k].personGroupId != groupId
    ensures r.None? <==> forall k :: 0 <= k < |groups| ==> groups[k].personGroupId != groupId
    decreases |groups|
  {
    if |groups| == 0 then None
    else if groups[0].personGroupId == groupId then Some(0)
    else
      var rest := FindGroup(groups[1..], groupId);
      if rest.None? then None else Some(rest.value + 1)
  }

  /** `FirstOrDefault` over the person table with a row filter. */
  function FindPerson(persons: seq<Person>, matches: Person -> bool): (r: Option<Person>)
    ensures r.Some? ==> r.value in persons && matches(r.value)
    ensures r.None? <==> forall k :: 0 <= k < |persons| ==> !matches(persons[k])
    ensures r.Some? ==> exists k :: 0 <= k < |persons| && persons[k] == r.value
                          && forall j :: 0 <= j < k ==> !matches(persons[j])
    decreases |persons|
  {
    if |persons| == 0 then None
    else if matches(persons[0]) then Some(persons[0])
    else
      var r := FindPerson(persons[1..], matches);
      if r.Some? then
        var k :| 0 <= k < |persons[1..]| && persons[1..][k] == r.value
                 && forall j :: 0 <= j < k ==> !matches(persons[1..][j]);
        assert persons[k + 1] == r.value;
        r
      else r
  }

  /** `FindPersonGroupBySenderIdAsync`. */
  function FindPersonGroupBySender(db: PersonDb, senderId: string): (r: Option<PersonGroup>)
    ensures r.Some? ==> r.value in db.groups && r.value.personGroupId == PersonGroupId(senderId)
    ensures r.None? <==> forall k :: 0 <= k < |db.groups| ==> db.groups[k].personGroupId != PersonGroupId(senderId)
  {
    var i := FindGroup(db.groups, PersonGroupId(senderId));
    if i.None? then None else Some(db.groups[i.value])
  }

  /** `FindPersonByNameAsync`: the first person of the sender's group with
      exactly this name. */
  function FindPersonByName(db: PersonDb, senderId: string, name: string): (r: Option<Person>)
    ensures r.Some? ==> r.value in db.persons && r.value.personGroupId == PersonGroupId(senderId) && r.value.name == name
    ensures r.None? <==> forall k :: 0 <= k < |db.persons| ==>
              !(db.persons[k].personGroupId == PersonGroupId(senderId) && db.persons[k].name == name)
  {
    var g := PersonGroupId(senderId);
    FindPerson(db.persons, (p: Person) => p.personGroupId == g && p.name == name)
  }

  /** The person of a group with a given id, as the identify loop looks it up. */
  function FindPersonById(db: PersonDb, groupId: string, personId: string): (r: Option<Person>)
    ensures r.Some? ==> r.value in db.persons && r.value.personGroupId == groupId && r.value.personId == personId
    ensures r.None? <==> forall k :: 0 <= k < |db.persons| ==>
              !(db.persons[k].personGroupId == groupId && db.persons[k].personId == personId)
  {
    FindPerson(db.persons, (p: Person) => p.personGroupId == groupId && p.personId == personId)
  }

  // ---------------------------------------------------------------------------
  // EnsurePersonGroupAsync
  // ---------------------------------------------------------------------------

  /** `EnsurePersonGroupAsync`: an existing group row is returned without a
      remote call; otherwise the group is created remotely (an error saying it
      already exists is ignored) and one row is added. */
  function EnsurePersonGroup(face: FaceService, db: PersonDb, senderId: string): (r: Effect<PersonGroup>)
    ensures r.db.persons == db.persons
    ensures r.result.Ok? ==> r.result.value.personGroupId == PersonGroupId(senderId)
    ensures FindPersonGroupBySender(db, senderId).Some? ==>
              r == Effect(db, [], Ok(FindPersonGroupBySender(db, senderId).value))
    ensures FindPersonGroupBySender(db, senderId).None? ==>
              && r.calls == [CreatePersonGroupCall(PersonGroupId(senderId))]
              && (r.result.Ok? <==> face.createPersonGroup(PersonGroupId(senderId)) in {None, Some(FaceApiError(GroupExists))})
              && (r.result.Ok? ==> r.db.groups == db.groups + [r.result.value])
              && (r.result.Err? ==> r.db == db)
  {
    var g := PersonGroupId(senderId);
    var existing := FindPersonGroupBySender(db, senderId);
    if existing.Some? then Effect(db, [], Ok(existing.value))
    else
      var calls := [CreatePersonGroupCall(g)];
      var err := face.createPersonGroup(g);
      if err.Some? && err.value != FaceApiError(GroupExists) then Effect(db, calls, Err(err.value))
      else
        var group := PersonGroup(g, g);
        Effect(db.(groups := db.groups + [group]), calls, Ok(group))
  }

  /** Once ensured, the group is found. */
  lemma EnsuredGroupIsFound(face: FaceService, db: PersonDb, senderId: string)
    ensures var r := EnsurePersonGroup(face, db, senderId);
            r.result.Ok? ==> FindPersonGroupBySender(r.db, senderId).Some?
  {
    var r := EnsurePersonGroup(face, db, senderId);
    if r.result.Ok? && FindPersonGroupBySender(db, senderId).None? {
      assert r.db.groups[|r.db.groups| - 1].personGroupId == PersonGroupId(senderId);
    }
  }

  // ---------------------------------------------------------------------------
  // DetectFaceAsync
  // ---------------------------------------------------------------------------

  /** `DetectFaceAsync`: one remote call, its answer passed through. */
  function DetectFace(face: FaceService, db: PersonDb, image: ImageRef): (r: Effect<seq<Face>>)
    ensures r.db == db && r.calls == [DetectCall(image)] && r.result == face.detect(image)
  {
    Effect(db, [DetectCall(image)], face.detect(image))
  }

  // ---------------------------------------------------------------------------
  // FindPersonByFacesAsync / FindPersonByFaceAsync
  // ---------------------------------------------------------------------------

  /** The face ids sent to identify: those of the first ten faces. */
  function IdentifyIds(faces: seq<Face>): (r: seq<Guid>)
    ensures |r| == Min(|faces|, IdentifyLimit)
    ensures forall i :: 0 <= i < |r| ==> r[i] == faces[i].faceId
  {
    seq(Min(|faces|, IdentifyLimit), i requires 0 <= i < Min(|faces|, IdentifyLimit) => faces[i].faceId)
  }

  /** `new Person[n]`: every slot null. */
  function NoneFound(n: nat): (r: seq<Option<Person>>)
    ensures |r| == n && forall i :: 0 <= i < n ==> r[i].None?
  {
    seq(n, _ => None)
  }

  /** The person an identify entry names: its best candidate's row, if any. */
  function Identified(db: PersonDb, groupId: string, results: seq<IdentifyResult>, i: nat): Option<Person> {
    if i < |results| && |results[i].candidates| > 0 then
      FindPersonById(db, groupId, GuidText(results[i].candidates[0]))
    else None
  }

  /** The result-filling loop of `FindPersonByFacesAsync`: slot `i` holds the
      person named by entry `i`, or null. */
  method AlignPersons(db: PersonDb, groupId: string, n: nat, results: seq<IdentifyResult>)
    returns (persons: seq<Option<Person>>)
    ensures |persons| == n
    ensures forall i :: 0 <= i < n ==> persons[i] == Identified(db, groupId, results, i)
  {
    persons := NoneFound(n);
    var i := 0;
    while i < n && i < |results|
      invariant 0 <= i <= n
      invariant |persons| == n
      invariant forall k :: 0 <= k < i ==> persons[k] == Identified(db, groupId, results, k)
      invariant forall k :: i <= k < n ==> persons[k].None?
    {
      if |results[i].candidates| > 0 {
        var personId := GuidText(results[i].candidates[0]);
        persons := persons[i := FindPersonById(db, groupId, personId)];
      }
      i := i + 1;
    }
  }

  /** The same loop as a function, for use inside the handlers. */
  function Aligned(db: PersonDb, groupId: string, n: nat, results: seq<IdentifyResult>): (r: seq<Option<Person>>)
    ensures |r| == n
    ensures forall i :: 0 <= i < n && r[i].Some? ==>
              && i < |results| && |results[i].candidates| > 0
              && r[i].value in db.persons
              && r[i].value.personGroupId == groupId
              && r[i].value.personId == GuidText(results[i].candidates[0])
    ensures forall i :: 0 <= i < n && i < |results| && |results[i].candidates| > 0 &&
              (exists k :: 0 <= k < |db.persons| && db.persons[k].personGroupId == groupId
                           && db.persons[k].personId == GuidText(results[i].candidates[0]))
              ==> r[i].Some?
  {
    seq(n, i requires 0 <= i < n => Identified(db, groupId, results, i))
  }

  /** `FindPersonByFacesAsync`: identify the first ten faces; on a
      face-service error answer all nulls, training the group first when the
      error says it is untrained. The answer always has one slot per face. */
  function FindPersonByFaces(face: FaceService, db: PersonDb, senderId: string, faces: seq<Face>): (r: Effect<seq<Option<Person>>>)
    ensures r.db == db
    ensures r.result.Ok? ==> |r.result.value| == |faces|
    ensures |r.calls| >= 1 && r.calls[0] == IdentifyCall(PersonGroupId(senderId), IdentifyIds(faces))
    ensures (|r.calls| == 2 && r.calls[1] == TrainCall(PersonGroupId(senderId)))
         <==> face.identify(PersonGroupId(senderId), IdentifyIds(faces)) == Err(FaceApiError(NotTrained))
    ensures |r.calls| <= 2
    ensures face.identify(PersonGroupId(senderId), IdentifyIds(faces)).Err? && r.result.Ok? ==>
              forall i :: 0 <= i < |faces| ==> r.result.value[i].None?
    ensures var answer := face.identify(PersonGroupId(senderId), IdentifyIds(faces));
            answer.Err? && answer.error.FaceApiError? ==>
              if answer.error.code == NotTrained && face.train(PersonGroupId(senderId)).Some?
              then r.result == Err(face.train(PersonGroupId(senderId)).value)
              else r.result == Ok(NoneFound(|faces|))
    ensures var answer := face.identify(PersonGroupId(senderId), IdentifyIds(faces));
            answer.Err? && !answer.error.FaceApiError? ==> r.result == Err(answer.error)
    ensures var answer := face.identify(PersonGroupId(senderId), IdentifyIds(faces));
            answer.Ok? ==> r.result == Ok(Aligned(db, PersonGroupId(senderId), |faces|, answer.value))
  {
    var g := PersonGroupId(senderId);
    var ids := IdentifyIds(faces);
    var answer := face.identify(g, ids);
    if answer.Err? then
      if answer.error.FaceApiError? then
        if answer.error.code == NotTrained then
          var trained := face.train(g);
          if trained.Some? then Effect(db, [IdentifyCall(g, ids), TrainCall(g)], Err(trained.value))
          else Effect(db, [IdentifyCall(g, ids), TrainCall(g)], Ok(NoneFound(|faces|)))
        else Effect(db, [IdentifyCall(g, ids)], Ok(NoneFound(|faces|)))
      else Effect(db, [IdentifyCall(g, ids)], Err(answer.error))
    else if |answer.value| == 0 then
      assert Aligned(db, g, |faces|, answer.value) == NoneFound(|faces|);
      Effect(db, [IdentifyCall(g, ids)], Ok(NoneFound(|faces|)))
    else Effect(db, [IdentifyCall(g, ids)], Ok(Aligned(db, g, |faces|, answer.value)))
  }

  /** `FindPersonByFacesAsync` as written, with its result-filling loop;
      it agrees with the function. */
  method FindPersonByFacesLoop(face: FaceService, db: PersonDb, senderId: string, faces: seq<Face>)
    returns (r: Effect<seq<Option<Person>>>)
    ensures r == FindPersonByFaces(face, db, senderId, faces)
  {
    var g := PersonGroupId(senderId);
    var ids := IdentifyIds(faces);
    var calls := [IdentifyCall(g, ids)];
    var answer := face.identify(g, ids);
    var persons := NoneFound(|faces|);
    if answer.Err? {
      if !answer.error.FaceApiError? {
        return Effect(db, calls, Err(answer.error));
      }
      if answer.error.code == NotTrained {
        calls := calls + [TrainCall(g)];
        var trained := face.train(g);
        if trained.Some? {
          return Effect(db, calls, Err(trained.value));
        }
      }
    } else if |answer.value| > 0 {
      persons := AlignPersons(db, g, |faces|, answer.value);
      assert persons == Aligned(db, g, |faces|, answer.value);
    }
    r := Effect(db, calls, Ok(persons));
  }

  /** `FindPersonByFaceAsync`: slot 0 of the one-face lookup, possibly null. */
  function FindPersonByFace(face: FaceService, db: PersonDb, senderId: string, f: Face): (r: Effect<Option<Person>>)
    ensures var many := FindPersonByFaces(face, db, senderId, [f]);
            && r.db == many.db && r.calls == many.calls
            && (r.result.Ok? <==> many.result.Ok?)
            && (r.result.Ok? ==> r.result.value == many.result.value[0])
            && (r.result.Err? ==> r.result.error == many.result.error)
  {
    var many := FindPersonByFaces(face, db, senderId, [f]);
    if many.result.Err? then Effect(many.db, many.calls, Err(many.result.error))
    else if |many.result.value| == 0 then Effect(many.db, many.calls, Ok(None))
    else Effect(many.db, many.calls, Ok(many.result.value[0]))
  }

  // ---------------------------------------------------------------------------
  // CreatePersonAsync / RememberPersonFaceAsync / ForgetAllAsync
  // ---------------------------------------------------------------------------

  /** `CreatePersonAsync`: create the person remotely, then add the row with
      the returned id. The name is passed through unchecked. */
  function CreatePerson(face: FaceService, db: PersonDb, senderId: string, name: string): (r: Effect<Person>)
    ensures r.calls == [CreatePersonCall(PersonGroupId(senderId), name)]
    ensures r.db.groups == db.groups
    ensures r.result.Ok? <==> face.createPerson(PersonGroupId(senderId), name).Ok?
    ensures r.result.Ok? ==> && r.db.persons == db.persons + [r.result.value]
                             && r.result.value.personGroupId == PersonGroupId(senderId)
                             && r.result.value.name == name
                             && ParseGuid(r.result.value.personId) == Some(face.createPerson(PersonGroupId(senderId), name).value)
    ensures r.result.Err? ==> r.db == db
  {
    var g := PersonGroupId(senderId);
    var created := face.createPerson(g, name);
    if created.Err? then Effect(db, [CreatePersonCall(g, name)], Err(created.error))
    else
      GuidRoundTrip(created.value);
      var p := Person(g, GuidText(created.value), name);
      Effect(db.(persons := db.persons + [p]), [CreatePersonCall(g, name)], Ok(p))
  }

  /** The created row meets the column constraints exactly when the name
      does: nothing checks the name before it is stored. */
  lemma CreatedPersonValidIffName(face: FaceService, db: PersonDb, senderId: string, name: string)
    requires |senderId| == 33
    requires CreatePerson(face, db, senderId, name).result.Ok?
    ensures ValidPerson(CreatePerson(face, db, senderId, name).result.value) <==> 1 <= |name| <= NameMaxLength
  {
  }

  /** `RememberPersonFaceAsync`: add the face to the person, then train the
      group, ignoring any training error. */
  function RememberPersonFace(face: FaceService, db: PersonDb, p: Person, image: ImageRef): (r: Effect<()>)
    ensures r.db == db
    ensures ParseGuid(p.personId).None? ==> r == Effect(db, [], Err(GuidFormat))
    ensures ParseGuid(p.personId).Some? ==>
              var id := ParseGuid(p.personId).value;
              && |r.calls| >= 1 && r.calls[0] == AddPersonFaceCall(p.personGroupId, id, image)
              && (r.result.Ok? <==> face.addPersonFace(p.personGroupId, id, image).None?)
              && (r.result.Ok? ==> r.calls == [AddPersonFaceCall(p.personGroupId, id, image), TrainCall(p.personGroupId)])
  {
    var id := ParseGuid(p.personId);
    if id.None? then Effect(db, [], Err(GuidFormat))
    else
      var added := face.addPersonFace(p.personGroupId, id.value, image);
      if added.Some? then Effect(db, [AddPersonFaceCall(p.personGroupId, id.value, image)], Err(added.value))
      else Effect(db, [AddPersonFaceCall(p.personGroupId, id.value, image), TrainCall(p.personGroupId)], Ok(()))
  }

  /** A person row created by `CreatePerson` always has a parsable id. */
  lemma CreatedPersonFaceCanBeAdded(face: FaceService, db: PersonDb, senderId: string, name: string, image: ImageRef)
    requires CreatePerson(face, db, senderId, name).result.Ok?
    ensures var c := CreatePerson(face, db, senderId, name);
            RememberPersonFace(face, c.db, c.result.value, image).calls != []
  {
  }

  /** The person table without one group's rows. */
  function WithoutGroup(persons: seq<Person>, groupId: string): (r: seq<Person>)
    ensures forall p :: p in r <==> p in persons && p.personGroupId != groupId
    ensures |r| <= |persons|
    decreases |persons|
  {
    if |persons| == 0 then []
    else if persons[0].personGroupId == groupId then WithoutGroup(persons[1..], groupId)
    else [persons[0]] + WithoutGroup(persons[1..], groupId)
  }

  /** `ForgetAllAsync`: with no group row nothing happens; otherwise the
      group is deleted remotely, then the group's people and the group row. */
  function ForgetAll(face: FaceService, db: PersonDb, senderId: string): (r: Effect<()>)
    ensures FindPersonGroupBySender(db, senderId).None? ==> r == Effect(db, [], Ok(()))
    ensures FindPersonGroupBySender(db, senderId).Some? ==>
              && r.calls == [DeletePersonGroupCall(PersonGroupId(senderId))]
              && (r.result.Ok? <==> face.deletePersonGroup(PersonGroupId(senderId)).None?)
              && (r.result.Err? ==> r.db == db)
              && (r.result.Ok? ==>
                    && (forall p :: p in r.db.persons <==> p in db.persons && p.personGroupId != PersonGroupId(senderId))
                    && multiset(r.db.groups) + multiset{FindPersonGroupBySender(db, senderId).value} == multiset(db.groups))
  {
    var g := PersonGroupId(senderId);
    var i := FindGroup(db.groups, g);
    if i.None? then Effect(db, [], Ok(()))
    else
      var err := face.deletePersonGroup(g);
      if err.Some? then Effect(db, [DeletePersonGroupCall(g)], Err(err.value))
      else
        var groups := RemoveAt(db.groups, i.value);
        assert db.groups == db.groups[..i.value] + [db.groups[i.value]] + db.groups[i.value + 1..];
        assert groups == db.groups[..i.value] + db.groups[i.value + 1..];
        Effect(PersonDb(groups, WithoutGroup(db.persons, g)), [DeletePersonGroupCall(g)], Ok(()))
  }

  /** After a successful forget the sender's group has no people left, and
      every other group's people are untouched. */
  lemma ForgetAllForgetsOnlyTheSender(face: FaceService, db: PersonDb, senderId: string, name: string)
    requires FindPersonGroupBySender(db, senderId).Some?
    requires ForgetAll(face, db, senderId).result.Ok?
    ensures FindPersonByName(ForgetAll(face, db, senderId).db, senderId, name).None?
  {
    var r := ForgetAll(face, db, senderId);
    forall k | 0 <= k < |r.db.persons|
      ensures r.db.persons[k].personGroupId != PersonGroupId(senderId)
    {
      assert r.db.persons[k] in r.db.persons;
    }
  }

  /** Forgetting leaves other groups' people as they were. */
  lemma ForgetAllKeepsOthers(face: FaceService, db: PersonDb, senderId: string, other: string, name: string)
    requires PersonGroupId(other) != PersonGroupId(senderId)
    requires ForgetAll(face, db, senderId).result.Ok?
    ensures FindPersonByName(ForgetAll(face, db, senderId).db, other, name).Some?
        <==> FindPersonByName(db, other, name).Some?
  {
    var r := ForgetAll(face, db, senderId);
    var g := PersonGroupId(other);
    if FindPersonByName(db, other, name).Some? {
      var p := FindPersonByName(db, other, name).value;
      assert p in r.db.persons;
      var k :| 0 <= k < |r.db.persons| && r.db.persons[k] == p;
    }
    if FindPersonByName(r.db, other, name).Some? {
      var p := FindPersonByName(r.db, other, name).value;
      assert p in db.persons;
      var k :| 0 <= k < |db.persons| && db.persons[k] == p;
    }
  }
}

=== FILE: registry.dfy ===
/** The route registry: the start table, the reply table and the single
    optional global handler, built once from the handler classes'
    declarations. The reflection scan becomes an explicit list of type
    declarations, taken in the order the scan would meet them. */
module Registry {
  import opened Wrappers
  import opened Attributes
  import Text

  /** One public method of a handler class: the handler it stands for, its
      `ConversationPath` declaration if any, and whether it carries the
      `ConversationGlobalPath` marker. */
  datatype MethodDecl<H> = MethodDecl(handler: H, path: Option<PathAttribute>, global: bool)

  /** One class: whether it carries the `Conversation` marker (inherited from
      the base), whether it is the base class itself, its effective
      `ConversationRoute` declaration, and its methods. */
  datatype TypeDecl<H> = TypeDecl(marked: bool, isBase: bool, route: Option<RouteAttribute>, methods: seq<MethodDecl<H>>)

  /** The built tables. */
  datatype Routes<H> = Routes(start: map<string, H>, reply: map<string, H>, global: Option<H>)

  /** Why construction fails: a class with path methods but no group path
      (the `NullReferenceException` of dereferencing it), or a second global
      marker (the `ArgumentException`). */
  datatype ConfigError = MissingGroupPath | DuplicateGlobal

  /** One path registration: the composed key, the table it goes to and the
      handler. */
  datatype Entry<H> = Entry(key: string, action: Action, handler: H)

  function Empty<H>(): Routes<H> {
    Routes(map[], map[], None)
  }

  // ---------------------------------------------------------------------------
  // Route keys
  // ---------------------------------------------------------------------------

  /** `string.Join("/", groupPath.TrimEnd('/'), subPath)`. */
  function ComposeKey(group: string, sub: string): string {
    Text.TrimEnd(group, '/') + "/" + sub
  }

  /** A key splits back into the trimmed group path (no trailing slash), one
      slash, and the sub-path. */
  lemma ComposeKeyParts(group: string, sub: string)
    ensures var t := Text.TrimEnd(group, '/');
            var k := ComposeKey(group, sub);
            && |k| == |t| + 1 + |sub|
            && k[..|t|] == t
            && k[|t|] == '/'
            && k[|t| + 1..] == sub
            && (|t| == 0 || t[|t| - 1] != '/')
  {
    var t := Text.TrimEnd(group, '/');
    var k := ComposeKey(group, sub);
    assert k[..|t|] == t;
    assert k[|t| + 1..] == sub;
  }

  /** Within one group, distinct sub-paths give distinct keys. */
  lemma ComposeKeyInjective(group: string, s1: string, s2: string)
    requires s1 != s2
    ensures ComposeKey(group, s1) != ComposeKey(group, s2)
  {
    ComposeKeyParts(group, s1);
    ComposeKeyParts(group, s2);
  }

  /** The keys the application's declarations produce. An empty sub-path keeps
      the trailing slash, so "/image/" and "/image" are different keys. */
  lemma ComposeKeyExamples()
    ensures ComposeKey("/", "") == "/"
    ensures ComposeKey("/", "remember") == "/remember"
    ensures ComposeKey("/image", "detect") == "/image/detect"
    ensures ComposeKey("/image", "") == "/image/"
    ensures ComposeKey("/image", "") != "/image"
  {
    assert Text.TrimEnd("/", '/') == "";
    assert Text.TrimEnd("/image", '/') == "/image";
  }

  // ---------------------------------------------------------------------------
  // Discovery
  // ---------------------------------------------------------------------------

  /** The classes the scan registers: marked ones other than the base class,
      in scan order. */
  function Discover<H>(ts: seq<TypeDecl<H>>): (r: seq<TypeDecl<H>>)
    ensures forall k :: 0 <= k < |r| ==> r[k] in ts && r[k].marked && !r[k].isBase
    ensures forall k :: 0 <= k < |ts| && ts[k].marked && !ts[k].isBase ==> ts[k] in r
    decreases |ts|
  {
    if |ts| == 0 then []
    else if ts[0].marked && !ts[0].isBase then [ts[0]] + Discover(ts[1..])
    else Discover(ts[1..])
  }

  /** A scan over marked non-base classes registers all of them, in order. */
  lemma {:induction false} DiscoverKeepsMarked<H>(ts: seq<TypeDecl<H>>)
    requires forall k :: 0 <= k < |ts| ==> ts[k].marked && !ts[k].isBase
    ensures Discover(ts) == ts
    decreases |ts|
  {
    if |ts| > 0 {
      DiscoverKeepsMarked(ts[1..]);
      assert [ts[0]] + ts[1..] == ts;
    }
  }

  // ---------------------------------------------------------------------------
  // Path registrations
  // ---------------------------------------------------------------------------

  /** The table for an action. */
  function Table<H>(reg: Routes<H>, a: Action): map<string, H> {
    if a == Start then reg.start else reg.reply
  }

  /** `_startRoutes[fullPath] = ...` or `_replyRoutes[fullPath] = ...`. */
  function AddRoute<H>(reg: Routes<H>, e: Entry<H>): (r: Routes<H>)
    ensures Table(r, e.action) == Table(reg, e.action)[e.key := e.handler]
    ensures forall a :: a != e.action ==> Table(r, a) == Table(reg, a)
    ensures r.global == reg.global
  {
    match e.action
    case Start => reg.(start := reg.start[e.key := e.handler])
    case Reply => reg.(reply := reg.reply[e.key := e.handler])
  }

  /** The registrations applied in order. */
  function RegisterEntries<H>(reg: Routes<H>, es: seq<Entry<H>>): Routes<H>
    decreases |es|
  {
    if |es| == 0 then reg else RegisterEntries(AddRoute(reg, es[0]), es[1..])
  }

  /** Reference reading of the tables: the handler of the LAST registration of
      `key` for action `a`. */
  function LastMatch<H>(es: seq<Entry<H>>, a: Action, key: string): Option<H>
    decreases |es|
  {
    if |es| == 0 then None
    else if es[|es| - 1].key == key && es[|es| - 1].action == a then Some(es[|es| - 1].handler)
    else LastMatch(es[..|es| - 1], a, key)
  }

  lemma {:induction false} RegisterEntriesAppend<H>(reg: Routes<H>, a: seq<Entry<H>>, b: seq<Entry<H>>)
    ensures RegisterEntries(reg, a + b) == RegisterEntries(RegisterEntries(reg, a), b)
    decreases |a|
  {
    if |a| > 0 {
      assert (a + b)[0] == a[0];
      assert (a + b)[1..] == a[1..] + b;
      RegisterEntriesAppend(AddRoute(reg, a[0]), a[1..], b);
    } else {
      assert a + b == b;
    }
  }

  /** Re-registering a key silently overwrites it: each table maps a key to
      the last registration for it, and keeps what it had for keys never
      registered. The global slot is untouched. */
  lemma {:induction false} LastWins<H>(reg: Routes<H>, es: seq<Entry<H>>, a: Action, key: string)
    ensures var r := RegisterEntries(reg, es);
            && (LastMatch(es, a, key).Some? ==> key in Table(r, a) && Table(r, a)[key] == LastMatch(es, a, key).value)
            && (LastMatch(es, a, key).None? ==> (key in Table(r, a) <==> key in Table(reg, a)))
            && (LastMatch(es, a, key).None? && key in Table(reg, a) ==> Table(r, a)[key] == Table(reg, a)[key])
            && r.global == reg.global
    decreases |es|
  {
    if |es| > 0 {
      var n := |es| - 1;
      var init := es[..n];
      assert init + [es[n]] == es;
      RegisterEntriesAppend(reg, init, [es[n]]);
      LastWins(reg, init, a, key);
      var mid := RegisterEntries(reg, init);
      assert RegisterEntries(mid, [es[n]]) == AddRoute(mid, es[n]);
    }
  }

  /** The entries of a class's path methods under the given group path. */
  function PathEntries<H>(group: string, ms: seq<MethodDecl<H>>): seq<Entry<H>>
    decreases |ms|
  {
    if |ms| == 0 then []
    else
      var rest := PathEntries(group, ms[1..]);
      match ms[0].path
      case None => rest
      case Some(attr) => [Entry(ComposeKey(group, SubPath(attr)), attr.action, ms[0].handler)] + rest
  }

  predicate HasPathMethod<H>(ms: seq<MethodDecl<H>>) {
    exists k :: 0 <= k < |ms| && ms[k].path.Some?
  }

  /** The class's group path, when declared and non-null. */
  function GroupPath<H>(t: TypeDecl<H>): Option<string> {
    if t.route.Some? && t.route.value.path.Some? then Some(t.route.value.path.value) else None
  }

  /** A class whose path methods have no group path to hang on. */
  predicate Misdeclared<H>(t: TypeDecl<H>) {
    HasPathMethod(t.methods) && GroupPath(t).None?
  }

  function TypeEntries<H>(t: TypeDecl<H>): seq<Entry<H>> {
    match GroupPath(t)
    case None => []
    case Some(g) => PathEntries(g, t.methods)
  }

  function AllEntries<H>(ts: seq<TypeDecl<H>>): seq<Entry<H>>
    decreases |ts|
  {
    if |ts| == 0 then [] else TypeEntries(ts[0]) + AllEntries(ts[1..])
  }

  // ---------------------------------------------------------------------------
  // Global registrations
  // ---------------------------------------------------------------------------

  /** The handlers of a class's global-marked methods, in order. */
  function GlobalHandlers<H>(ms: seq<MethodDecl<H>>): seq<H>
    decreases |ms|
  {
    if |ms| == 0 then []
    else (if ms[0].global then [ms[0].handler] else []) + GlobalHandlers(ms[1..])
  }

  function AllGlobals<H>(ts: seq<TypeDecl<H>>): seq<H>
    decreases |ts|
  {
    if |ts| == 0 then [] else GlobalHandlers(ts[0].methods) + AllGlobals(ts[1..])
  }

  function SlotCount<H>(g: Option<H>): nat {
    if g.Some? then 1 else 0
  }

  /** The global-marker loop: the first marker fills the slot, any further
      one fails. */
  function RegisterGlobals<H>(reg: Routes<H>, hs: seq<H>): (r: Result<Routes<H>, ConfigError>)
    ensures r.Ok? <==> SlotCount(reg.global) + |hs| <= 1
    ensures r.Err? ==> r.error == DuplicateGlobal
    ensures r.Ok? ==> r.value == reg.(global := if |hs| == 0 then reg.global else Some(hs[0]))
    decreases |hs|
  {
    if |hs| == 0 then Ok(reg)
    else if reg.global.Some? then Err(DuplicateGlobal)
    else RegisterGlobals(reg.(global := Some(hs[0])), hs[1..])
  }

  // ---------------------------------------------------------------------------
  // Construction
  // ---------------------------------------------------------------------------

  /** `RegisterConversationRoute(Type)`: every path method under the class's
      group path (which must exist once there is one), then every global
      marker. */
  function RegisterType<H>(reg: Routes<H>, t: TypeDecl<H>): Result<Routes<H>, ConfigError> {
    if Misdeclared(t) then Err(MissingGroupPath)
    else RegisterGlobals(RegisterEntries(reg, TypeEntries(t)), GlobalHandlers(t.methods))
  }

  function RegisterTypes<H>(reg: Routes<H>, ts: seq<TypeDecl<H>>): Result<Routes<H>, ConfigError>
    decreases |ts|
  {
    if |ts| == 0 then Ok(reg)
    else
      var r :- RegisterType(reg, ts[0]);
      RegisterTypes(r, ts[1..])
  }

  /** `RegisterConversationRoutes`: the constructor's table building. */
  function Build<H>(ts: seq<TypeDecl<H>>): Result<Routes<H>, ConfigError> {
    RegisterTypes(Empty(), Discover(ts))
  }

  predicate AnyMisdeclared<H>(ts: seq<TypeDecl<H>>) {
    exists k :: 0 <= k < |ts| && Misdeclared(ts[k])
  }

  /** Registering a run of classes: it fails exactly when one of them is
      misdeclared or the global markers (with the slot already used) number
      more than one; on success the tables are the path registrations applied
      in order and the slot holds the single global handler, if any. */
  lemma {:induction false} RegisterTypesSpec<H>(reg: Routes<H>, ts: seq<TypeDecl<H>>)
    ensures RegisterTypes(reg, ts).Err? <==> AnyMisdeclared(ts) || SlotCount(reg.global) + |AllGlobals(ts)| >= 2
    ensures RegisterTypes(reg, ts).Ok? ==>
              var r := RegisterTypes(reg, ts).value;
              var flat := RegisterEntries(reg, AllEntries(ts));
              && r.start == flat.start
              && r.reply == flat.reply
              && r.global == (if |AllGlobals(ts)| == 0 then reg.global else Some(AllGlobals(ts)[0]))
    decreases |ts|
  {
    if |ts| > 0 {
      var t := ts[0];
      assert AnyMisdeclared(ts) <==> Misdeclared(t) || AnyMisdeclared(ts[1..]) by {
        if AnyMisdeclared(ts[1..]) {
          var k :| 0 <= k < |ts[1..]| && Misdeclared(ts[1..][k]);
          assert Misdeclared(ts[k + 1]);
        }
        if AnyMisdeclared(ts) && !Misdeclared(t) {
          var k :| 0 <= k < |ts| && Misdeclared(ts[k]);
          assert k != 0;
          assert Misdeclared(ts[1..][k - 1]);
        }
      }
      if !Misdeclared(t) {
        var mid := RegisterEntries(reg, TypeEntries(t));
        LastWinsGlobal(reg, TypeEntries(t));
        var g := RegisterGlobals(mid, GlobalHandlers(t.methods));
        if g.Ok? {
          RegisterTypesSpec(g.value, ts[1..]);
          RegisterEntriesAppend(reg, TypeEntries(t), AllEntries(ts[1..]));
          RegisterEntriesTablesOnly(mid, g.value, AllEntries(ts[1..]));
        }
      }
    }
  }

  /** Path registrations never touch the global slot. */
  lemma {:induction false} LastWinsGlobal<H>(reg: Routes<H>, es: seq<Entry<H>>)
    ensures RegisterEntries(reg, es).global == reg.global
    decreases |es|
  {
    if |es| > 0 {
      LastWinsGlobal(AddRoute(reg, es[0]), es[1..]);
    }
  }

  /** Path registrations read only the tables, so two registries with the
      same tables end with the same tables. */
  lemma {:induction false} RegisterEntriesTablesOnly<H>(r1: Routes<H>, r2: Routes<H>, es: seq<Entry<H>>)
    requires r1.start == r2.start && r1.reply == r2.reply
    ensures RegisterEntries(r1, es).start == RegisterEntries(r2, es).start
    ensures RegisterEntries(r1, es).reply == RegisterEntries(r2, es).reply
    decreases |es|
  {
    if |es| > 0 {
      RegisterEntriesTablesOnly(AddRoute(r1, es[0]), AddRoute(r2, es[0]), es[1..]);
    }
  }

  /** Construction fails exactly when a discovered class has path methods but
      no group path, or more than one global marker exists; a second global
      marker always makes it fail. */
  lemma BuildFailsIff<H>(ts: seq<TypeDecl<H>>)
    ensures Build(ts).Err? <==> AnyMisdeclared(Discover(ts)) || |AllGlobals(Discover(ts))| >= 2
    ensures |AllGlobals(Discover(ts))| >= 2 ==> Build(ts).Err?
  {
    RegisterTypesSpec(Empty(), Discover(ts));
  }

  /** On success each table maps every key to the handler of its last
      registration, holds no other key, and the global slot holds the one
      global handler if there is one. */
  lemma BuildTables<H>(ts: seq<TypeDecl<H>>, a: Action, key: string)
    requires Build(ts).Ok?
    ensures var r := Build(ts).value;
            var es := AllEntries(Discover(ts));
            && (key in Table(r, a) <==> LastMatch(es, a, key).Some?)
            && (key in Table(r, a) ==> Table(r, a)[key] == LastMatch(es, a, key).value)
            && |AllGlobals(Discover(ts))| <= 1
            && (r.global.Some? <==> |AllGlobals(Discover(ts))| == 1)
  {
    RegisterTypesSpec(Empty(), Discover(ts));
    LastWins(Empty(), AllEntries(Discover(ts)), a, key);
  }

  /** There is no default group path: a class with a path method and no
      usable group path fails construction, whatever else it declares. */
  lemma MissingGroupPathFails<H>(reg: Routes<H>, t: TypeDecl<H>)
    requires HasPathMethod(t.methods)
    requires t.route.None? || t.route.value.path.None?
    ensures RegisterType(reg, t) == Err(MissingGroupPath)
  {
  }

  /** A class with only a global method needs no group path. */
  lemma GlobalOnlyTypeRegisters<H>(reg: Routes<H>, t: TypeDecl<H>, h: H)
    requires !HasPathMethod(t.methods)
    requires GlobalHandlers(t.methods) == [h]
    requires reg.global.None?
    ensures RegisterType(reg, t) == Ok(reg.(global := Some(h)))
  {
    if GroupPath(t).Some? {
      PathEntriesEmpty(GroupPath(t).value, t.methods);
    }
  }

  lemma {:induction false} PathEntriesEmpty<H>(group: string, ms: seq<MethodDecl<H>>)
    requires !HasPathMethod(ms)
    ensures PathEntries(group, ms) == []
    decreases |ms|
  {
    if |ms| > 0 {
      assert ms[0].path.None?;
      assert !HasPathMethod(ms[1..]);
      PathEntriesEmpty(group, ms[1..]);
    }
  }
}

=== FILE: request_handler.dfy ===
/** `LineMessagingRequestHandler`: every event of a webhook request is
    routed as a reply action, except the platform's verification event.
    The handler takes the router as it is configured: its tables, its
    handlers and its nesting bound. */
module RequestHandler {
  import opened Events
  import opened Registry
  import opened Router
  import opened Dialogue
  import App

  /** The sender id of the webhook verification request. */
  const VerifySender: string := "Udeadbeefdeadbeefdeadbeefdeadbeef"

  /** `HandleEventAsync`: ignore the verification sender, otherwise route the
      event. Handler exceptions are already caught by the router, so the
      outer catch has nothing left to swallow. */
  function HandleEvent<H, S>(reg: Routes<H>, inv: (H, Call, S) -> Step<S>, fuel: nat, w: World<H, S>, e: Event): (r: World<H, S>)
    ensures e.sender == VerifySender ==> r == w
    ensures e.sender != VerifySender ==> e.sender in r.store && Confined(w, r, e.sender)
  {
    if e.sender == VerifySender then w else RouteReply(reg, inv, w, e, fuel).world
  }

  /** `HandleRequestAsync`: the events one after another, in request order. */
  function HandleRequest<H, S>(reg: Routes<H>, inv: (H, Call, S) -> Step<S>, fuel: nat, w: World<H, S>, events: seq<Event>): World<H, S>
    decreases |events|
  {
    if |events| == 0 then w else HandleRequest(reg, inv, fuel, HandleEvent(reg, inv, fuel, w, events[0]), events[1..])
  }

  /** The senders a request routes for. */
  function Senders(events: seq<Event>): (r: set<string>)
    ensures VerifySender !in r
    ensures forall k :: 0 <= k < |events| && events[k].sender != VerifySender ==> events[k].sender in r
    decreases |events|
  {
    if |events| == 0 then {}
    else
      var rest := Senders(events[1..]);
      assert forall k :: 1 <= k < |events| ==> events[k] == events[1..][k - 1];
      if events[0].sender == VerifySender then rest else {events[0].sender} + rest
  }

  /** For the application, every other event is routed to completion,
      exactly as the router would route it alone. */
  lemma EventIsRouted(env: Env, w: World<App.HandlerId, Side>, e: Event)
    requires e.sender != VerifySender
    ensures App.AppRoute(env, w, e).Done?
    ensures HandleEvent(App.AppRoutes(), App.Handlers(env), App.AppFuel, w, e) == App.AppRoute(env, w, e).world
  {
    App.AppRouteCompletes(env, w, e);
  }

  /** `w'` has a record exactly for the senders of `w` and `senders`, keeps
      the records of everyone outside `senders`, and extends the trace. */
  ghost predicate TouchesOnly<H, S>(w: World<H, S>, w': World<H, S>, senders: set<string>) {
    && w'.store.Keys == w.store.Keys + senders
    && (forall o :: o in w.store && o !in senders ==> w'.store[o] == w.store[o])
    && w.trace <= w'.trace
  }

  /** Touching `a` and then `b` touches `a + b`. */
  lemma TouchesOnlyCompose<H, S>(w: World<H, S>, w1: World<H, S>, w2: World<H, S>, a: set<string>, b: set<string>)
    requires TouchesOnly(w, w1, a) && TouchesOnly(w1, w2, b)
    ensures TouchesOnly(w, w2, a + b)
  {
    forall o | o in w.store && o !in a + b ensures w2.store[o] == w.store[o] {
      assert o in w1.store && w1.store[o] == w.store[o];
    }
  }

  /** One event touches its sender, or no one for the verification sender. */
  lemma EventTouchesOnlySender<H, S>(reg: Routes<H>, inv: (H, Call, S) -> Step<S>, fuel: nat, w: World<H, S>, e: Event)
    ensures TouchesOnly(w, HandleEvent(reg, inv, fuel, w, e), if e.sender == VerifySender then {} else {e.sender})
  {
  }

  /** A request creates a record for every sender it names and for no one
      else, and leaves the records of senders it does not name unchanged;
      handled invocations are only ever appended. */
  lemma {:induction false} RequestTouchesOnlySenders<H, S>(reg: Routes<H>, inv: (H, Call, S) -> Step<S>, fuel: nat,
                                                        w: World<H, S>, events: seq<Event>)
    ensures TouchesOnly(w, HandleRequest(reg, inv, fuel, w, events), Senders(events))
    decreases |events|
  {
    if |events| == 0 {
      assert HandleRequest(reg, inv, fuel, w, events) == w && Senders(events) == {};
    } else {
      var e := events[0];
      var w1 := HandleEvent(reg, inv, fuel, w, e);
      var rest := events[1..];
      var mine: set<string> := if e.sender == VerifySender then {} else {e.sender};
      EventTouchesOnlySender(reg, inv, fuel, w, e);
      RequestTouchesOnlySenders(reg, inv, fuel, w1, rest);
      TouchesOnlyCompose(w, w1, HandleRequest(reg, inv, fuel, w1, rest), mine, Senders(rest));
      assert Senders(events) == mine + Senders(rest);
    }
  }

  /** A request from the verification sender alone changes nothing. */
  lemma {:induction false} VerificationIsIgnored<H, S>(reg: Routes<H>, inv: (H, Call, S) -> Step<S>, fuel: nat,
                                                    w: World<H, S>, events: seq<Event>)
    requires forall k :: 0 <= k < |events| ==> events[k].sender == VerifySender
    ensures HandleRequest(reg, inv, fuel, w, events) == w
    decreases |events|
  {
    if |events| > 0 {
      VerificationIsIgnored(reg, inv, fuel, w, events[1..]);
    }
  }
}

=== FILE: reset_conversation.dfy ===
/** `ResetConversation`, group path "/reset": asks whether to forget every
    person learned for the sender, and does so on "忘れて". */
module ResetConversation {
  import opened Wrappers
  import opened Json
  import opened Events
  import opened Persons
  import opened Router
  import opened Dialogue
  import Text

  /** `ConfirmStart`: ask, with a "forget" and a "keep" button; no
      transition. The template's alternative text is the question too. */
  function ConfirmStart(env: Env, sender: string, data: Doc, side: Side): (r: Step<Side>)
    ensures Talks(side, r, 1) && !r.outcome.Go?
    ensures ReplyTokenKey !in data ==> r == Step(side, Throw(NullReference))
    ensures r.outcome == Stay <==>
              exists token :: FieldText(data, ReplyTokenKey) == Ok(token)
                && env.delivered(Reply(token, ConfirmContent(ConfirmText, ForgetButton, KeepButton)))
                && r.side.sent == side.sent + [Reply(token, ConfirmContent(ConfirmText, ForgetButton, KeepButton))]
  {
    match FieldText(data, ReplyTokenKey)
    case Err(x) => Failed(side, x)
    case Ok(token) => Say(env, side, Reply(token, ConfirmContent(ConfirmText, ForgetButton, KeepButton)), Stay)
  }

  /** Forget everything learned for the sender, say so, and go back to the
      root. */
  function Forget(env: Env, sender: string, token: string, side: Side): (r: Step<Side>)
    ensures r.outcome.Go? ==> r.outcome == Go(RootPath, None)
    ensures r.outcome != Stay
    ensures r.side.calls == side.calls + ForgetAll(env.face, side.db, sender).calls
    ensures r.side.db == ForgetAll(env.face, side.db, sender).db
    ensures r.outcome.Go? <==>
              ForgetAll(env.face, side.db, sender).result.Ok? && env.delivered(Reply(token, TextContent(ForgotText)))
    ensures r.outcome.Go? ==> r.side.sent == side.sent + [Reply(token, TextContent(ForgotText))]
  {
    var forgot := ForgetAll(env.face, side.db, sender);
    var side1 := Served(side, forgot);
    if forgot.result.Err? then Failed(side1, Raised(forgot.result.error))
    else Say(env, side1, Reply(token, TextContent(ForgotText)), Go(RootPath, None))
  }

  /** The text answer: "忘れて…" forgets, anything else keeps. */
  function Answer(env: Env, sender: string, token: string, text: string, side: Side): (r: Step<Side>)
    ensures Text.StartsWith(text, ForgetWord) ==> r == Forget(env, sender, token, side)
    ensures !Text.StartsWith(text, ForgetWord) ==> r == Step(side, Go(RootPath, None))
  {
    if Text.StartsWith(text, ForgetWord) then Forget(env, sender, token, side)
    else Step(side, Go(RootPath, None))
  }

  /** `ConfirmReply` as written: the guard joins "not a message" and "not a
      text" with `&&`, so a postback or lifecycle event casts to a null
      message event and dereferences it, and a non-text message passes the
      guard and dereferences the null text message two lines on. */
  function ConfirmReplyAsWritten(env: Env, e: Event, data: Doc, side: Side): (r: Step<Side>)
    ensures !(e.MessageEvent? && e.message.Text?) ==> r == Step(side, Throw(NullReference))
  {
    if e.Kind() != Message then Failed(side, NullReference)
    else if !e.message.Text? then Failed(side, NullReference)
    else Answer(env, e.sender, e.replyToken, e.message.text, side)
  }

  /** `ConfirmReply` with the guard the comment describes: anything but a
      text message goes back to the root. */
  function ConfirmReply(env: Env, e: Event, data: Doc, side: Side): (r: Step<Side>)
    ensures r.outcome.Go? ==> r.outcome == Go(RootPath, None)
    ensures r.outcome != Stay
    ensures !(e.MessageEvent? && e.message.Text?) ==> r == Step(side, Go(RootPath, None))
  {
    if e.Kind() != Message || !e.message.Text? then Step(side, Go(RootPath, None))
    else Answer(env, e.sender, e.replyToken, e.message.text, side)
  }

  /** The two readings agree on every text message and differ on every other
      event: the written one throws where the intended one goes home. */
  lemma GuardAsWrittenThrows(env: Env, e: Event, data: Doc, side: Side)
    ensures e.MessageEvent? && e.message.Text? ==>
              ConfirmReplyAsWritten(env, e, data, side) == ConfirmReply(env, e, data, side)
    ensures !(e.MessageEvent? && e.message.Text?) ==>
              && ConfirmReplyAsWritten(env, e, data, side) == Step(side, Throw(NullReference))
              && ConfirmReply(env, e, data, side) == Step(side, Go(RootPath, None))
  {
  }

  /** Nothing is forgotten, called or said unless the answer is a text that
      starts with "忘れて". */
  lemma KeepUnlessAsked(env: Env, e: Event, data: Doc, side: Side)
    requires !(e.MessageEvent? && e.message.Text? && Text.StartsWith(e.message.text, ForgetWord))
    ensures ConfirmReply(env, e, data, side) == Step(side, Go(RootPath, None))
  {
  }

  /** The confirm template's buttons: "忘れて！" forgets, "やめて！" keeps. */
  lemma ButtonsDecide(env: Env, sender: string, token: string, data: Doc, side: Side)
    ensures ConfirmReply(env, MessageEvent(sender, token, Text(ForgetButton)), data, side)
         == Forget(env, sender, token, side)
    ensures ConfirmReply(env, MessageEvent(sender, token, Text(KeepButton)), data, side)
         == Step(side, Go(RootPath, None))
  {
    assert ForgetButton[..|ForgetWord|] == ForgetWord;
    assert KeepButton[0] != ForgetWord[0];
  }

  /** Confirming removes the sender's person group and every person in it,
      keeps every other person, and reports it before going home. */
  lemma ConfirmForgetsSender(env: Env, sender: string, token: string, text: string, data: Doc, side: Side)
    requires Text.StartsWith(text, ForgetWord)
    requires FindPersonGroupBySender(side.db, sender).Some?
    ensures var r := ConfirmReply(env, MessageEvent(sender, token, Text(text)), data, side);
            r.outcome.Go? ==>
              && (forall name :: FindPersonByName(r.side.db, sender, name).None?)
              && (forall p :: p in r.side.db.persons <==> p in side.db.persons && p.personGroupId != PersonGroupId(sender))
              && r.side.sent == side.sent + [Reply(token, TextContent(ForgotText))]
  {
    var r := ConfirmReply(env, MessageEvent(sender, token, Text(text)), data, side);
    if r.outcome.Go? {
      forall name ensures FindPersonByName(r.side.db, sender, name).None? {
        ForgetAllForgetsOnlyTheSender(env.face, side.db, sender, name);
      }
    }
  }
}

=== FILE: root_conversation.dfy ===
/** `RootConversation`, group path "/": the root node, which answers any
    message, and the "remember" node that asks for a photo to learn from. */
module RootConversation {
  import opened Wrappers
  import opened Json
  import opened Events
  import opened Router
  import opened Dialogue
  import Text

  /** `bool.Parse((data["Explained"]?.ToString() ?? "false"))`. */
  function Explained(data: Doc): (r: Result<bool, Exception>)
    ensures ExplainedKey !in data ==> r == Ok(false)
    ensures ExplainedKey in data && data[ExplainedKey].JBool? ==> r == Ok(data[ExplainedKey].b)
    ensures ExplainedKey in data && (data[ExplainedKey].JArray? || data[ExplainedKey].JObject? || data[ExplainedKey].JNull?) ==> r.Err?
  {
    if ExplainedKey !in data then Ok(false)
    else match Render(data[ExplainedKey])
      case None => Err(FormatError)
      case Some(t) =>
        if data[ExplainedKey].JBool? then Text.BoolRoundTrip(data[ExplainedKey].b); ParseResult(t)
        else ParseResult(t)
  }

  function ParseResult(t: string): (r: Result<bool, Exception>)
    ensures r.Ok? <==> Text.ParseBool(t).Some?
    ensures r.Ok? ==> r.value == Text.ParseBool(t).value
    ensures t == "" ==> r.Err?
  {
    match Text.ParseBool(t)
    case None => Err(FormatError)
    case Some(b) => Ok(b)
  }

  /** `{ Explained = true }`. */
  const ExplainedDoc: Doc := map[ExplainedKey := JBool(true)]

  /** `{ ReplyToken, MessageId, RememberMode }`: the start data of the
      face-detection node. */
  function DetectDoc(token: string, messageId: string, rememberMode: bool): Doc {
    map[ReplyTokenKey := JString(token), MessageIdKey := JString(messageId), RememberModeKey := JBool(rememberMode)]
  }

  /** Text that names no command. */
  predicate Unrecognised(text: string) {
    !Text.Contains(text, RememberWord) && text != ResetWord && text != ForgetWord
  }

  /** `HandleTextMessageAsync`. */
  function HandleText(env: Env, token: string, text: string, explained: bool, side: Side): (r: Step<Side>)
    ensures Talks(side, r, 1) && KnownTarget(r.outcome)
  {
    if Text.Contains(text, RememberWord) then Step(side, Go(RememberPath, Some(TokenDoc(token))))
    else if text == ResetWord || text == ForgetWord then Step(side, Go(ResetConfirmPath, Some(TokenDoc(token))))
    else if !explained then Say(env, side, Reply(token, TextContent(UsageText)), Go(RootPath, Some(ExplainedDoc)))
    else Step(side, Stay)
  }

  /** `Root`: the reply handler of "/". */
  function Root(env: Env, e: Event, data: Doc, side: Side): (r: Step<Side>)
    ensures Talks(side, r, 1) && KnownTarget(r.outcome)
    ensures !e.MessageEvent? ==> r == Step(side, Stay)
    ensures e.MessageEvent? && !e.message.Text? && !e.message.Image? ==> r == Step(side, Stay)
    ensures e.MessageEvent? && e.message.Image? ==>
              r == Step(side, Go(DetectPath, Some(DetectDoc(e.replyToken, e.message.id, false))))
  {
    match e
    case MessageEvent(_, token, m) =>
      (match m
       case Text(t) =>
         (match Explained(data)
          case Err(x) => Failed(side, x)
          case Ok(explained) => HandleText(env, token, t, explained, side))
       case Image(id) => Step(side, Go(DetectPath, Some(DetectDoc(token, id, false))))
       case _ => Step(side, Stay))
    case _ => Step(side, Stay)
  }

  /** `RememberStart`: prompt for a photo; no transition. */
  function RememberStart(env: Env, sender: string, data: Doc, side: Side): (r: Step<Side>)
    ensures Talks(side, r, 1)
    ensures !r.outcome.Go?
    ensures ReplyTokenKey !in data ==> r == Step(side, Throw(NullReference))
    ensures r.outcome == Stay <==>
              FieldText(data, ReplyTokenKey).Ok? && env.delivered(Reply(FieldText(data, ReplyTokenKey).value, TextContent(RememberPrompt)))
  {
    match FieldText(data, ReplyTokenKey)
    case Err(x) => Failed(side, x)
    case Ok(token) => Say(env, side, Reply(token, TextContent(RememberPrompt)), Stay)
  }

  /** `RememberReply`: a photo goes to detection in remember mode; any other
      message goes back to the root. */
  function RememberReply(env: Env, e: Event, data: Doc, side: Side): (r: Step<Side>)
    ensures Talks(side, r, 1) && KnownTarget(r.outcome)
    ensures !e.MessageEvent? ==> r == Step(side, Stay)
    ensures e.MessageEvent? && e.message.Image? ==>
              r == Step(side, Go(DetectPath, Some(DetectDoc(e.replyToken, e.message.id, true))))
    ensures e.MessageEvent? && !e.message.Image? ==>
              r.outcome in {Go(RootPath, None), Throw(ServiceFailure)}
    ensures e.MessageEvent? && !e.message.Image? ==>
              (r.outcome == Go(RootPath, None) <==> env.delivered(Reply(e.replyToken, TextContent(RememberRefusal))))
  {
    match e
    case MessageEvent(_, token, m) =>
      if m.Image? then Step(side, Go(DetectPath, Some(DetectDoc(token, m.id, true))))
      else Say(env, side, Reply(token, TextContent(RememberRefusal)), Go(RootPath, None))
    case _ => Step(side, Stay)
  }

  // ---------------------------------------------------------------------------
  // Properties
  // ---------------------------------------------------------------------------

  /** "覚えて" anywhere in the text wins over every other reading, whatever
      the step data. */
  lemma RememberWordFirst(env: Env, sender: string, token: string, text: string, data: Doc, side: Side)
    requires Text.Contains(text, RememberWord)
    requires Explained(data).Ok?
    ensures Root(env, MessageEvent(sender, token, Text(text)), data, side) == Step(side, Go(RememberPath, Some(TokenDoc(token))))
  {
  }

  /** Only the exact words "リセット" and "忘れて" lead to the reset prompt. */
  lemma ResetWordsExact(env: Env, sender: string, token: string, text: string, data: Doc, side: Side)
    requires Explained(data).Ok?
    ensures Root(env, MessageEvent(sender, token, Text(text)), data, side).outcome == Go(ResetConfirmPath, Some(TokenDoc(token)))
        <==> !Text.Contains(text, RememberWord) && (text == ResetWord || text == ForgetWord)
  {
  }

  /** The usage text is given once: an unrecognised text with no
      `Explained` flag replies and restarts the root with the flag set, and
      a second unrecognised text on that data is silent and stays put. */
  lemma ExplainOnce(env: Env, sender: string, t1: string, tok1: string, t2: string, tok2: string, data: Doc, side: Side)
    requires Unrecognised(t1) && Unrecognised(t2)
    requires ExplainedKey !in data
    requires env.delivered(Reply(tok1, TextContent(UsageText)))
    ensures var r1 := Root(env, MessageEvent(sender, tok1, Text(t1)), data, side);
            && r1.outcome == Go(RootPath, Some(ExplainedDoc))
            && r1.side.sent == side.sent + [Reply(tok1, TextContent(UsageText))]
            && Root(env, MessageEvent(sender, tok2, Text(t2)), ExplainedDoc, r1.side) == Step(r1.side, Stay)
  {
    assert Explained(ExplainedDoc) == Ok(true);
  }

  /** A JSON null under `Explained` makes `bool.Parse("")` throw. */
  lemma NullExplainedThrows(env: Env, sender: string, token: string, text: string, data: Doc, side: Side)
    requires ExplainedKey in data && data[ExplainedKey] == JNull
    ensures Root(env, MessageEvent(sender, token, Text(text)), data, side) == Step(side, Throw(FormatError))
  {
  }
}

=== FILE: router.dfy ===
/** The conversation router: the per-sender state machine behind
    `RouteStartActionAsync` and `RouteReplyActionAsync`.

    The router is generic in the handler identity `H` and in the state `S`
    the handlers read and write besides the conversation store (for the bot:
    the person database and the messages sent). A handler is a pure decision
    function returning a `Step`: its new side state and an `Outcome`, that is
    no transition, a transition (its final `StartConversationAsync`), or an
    exception. The router carries out a transition itself, which makes nested
    starts explicit; `fuel` bounds their depth. */
module Router {
  import opened Wrappers
  import opened Json
  import opened Events
  import opened ConversationStore
  import opened Registry
  import ConversationRecord

  /** The exceptions the handlers can raise, all caught alike by the router. */
  datatype Exception =
    | NullReference
    | InvalidCast
    | FormatError
    | ArgumentNull
    | ArgumentOutOfRange
    | IndexOutOfRange
    | ServiceFailure
    | SignatureMismatch

  /** How a handler invocation ends. `Go` is a final call to
      `StartConversationAsync(senderId, path, data)` for the sender being
      handled; `data == None` is the omitted (null) argument. */
  datatype Outcome = Stay | Go(path: string, data: Option<Doc>) | Throw(error: Exception)

  /** The arguments of an invocation, by entry-point shape. */
  datatype Call =
    | StartCall(sender: string, data: Doc)
    | ReplyCall(event: Event, data: Doc)
    | GlobalCall(event: Event)

  datatype Step<S> = Step(side: S, outcome: Outcome)

  /** One handler invocation, as recorded in the trace. */
  datatype Invocation<H> = Invocation(handler: H, call: Call)

  /** Everything routing changes: the store, the handlers' side state, and
      the invocations made so far. */
  datatype World<H, S> = World(store: Store, side: S, trace: seq<Invocation<H>>)

  /** A routing result. `DepthExceeded` means the nested starts went deeper
      than the fuel allowed; it is not an exception a handler could catch. */
  datatype Routed<H, S> = Done(world: World<H, S>) | DepthExceeded(world: World<H, S>)

  const RootPath: string := ConversationRecord.RootPath

  /** Routing for `sender` touches no other sender's record, deletes nothing
      and only appends to the trace. */
  ghost predicate Confined<H, S>(w: World<H, S>, w': World<H, S>, sender: string) {
    && w'.store.Keys == w.store.Keys + {sender}
    && (forall o :: o in w.store && o != sender ==> w'.store[o] == w.store[o])
    && w.trace <= w'.trace
  }

  /** Every invocation appended is a start for `sender`. */
  ghost predicate StartsOnly<H, S>(w: World<H, S>, w': World<H, S>, sender: string)
    requires w.trace <= w'.trace
  {
    forall i :: |w.trace| <= i < |w'.trace| ==> w'.trace[i].call.StartCall? && w'.trace[i].call.sender == sender
  }

  /** Records an invocation and its effect on the side state. */
  function Dispatched<H, S>(w: World<H, S>, h: H, call: Call, step: Step<S>): World<H, S> {
    w.(side := step.side, trace := w.trace + [Invocation(h, call)])
  }

  /** The catch blocks: `CreateOrUpdateConversationAsync(senderId, "/", null)`,
      a direct write that dispatches nothing. */
  function Recover<H, S>(w: World<H, S>, sender: string): (r: World<H, S>)
    ensures sender in r.store && r.store[sender] == Conversation(RootPath, EmptyDoc)
    ensures Confined(w, r, sender) && r.trace == w.trace && r.side == w.side
  {
    w.(store := Upsert(w.store, sender, RootPath, None))
  }

  /** `RouteStartActionAsync`: persist the new state, read it back, and
      dispatch the start handler registered for the stored path, if any. */
  function RouteStart<H, S>(reg: Routes<H>, inv: (H, Call, S) -> Step<S>, w: World<H, S>,
                           sender: string, path: string, data: Option<Doc>, fuel: nat): (r: Routed<H, S>)
    ensures Confined(w, r.world, sender) && StartsOnly(w, r.world, sender)
    decreases fuel, 0
  {
    var w1 := w.(store := Upsert(w.store, sender, path, data));
    var rec := w1.store[sender];
    if rec.path !in reg.start then Done(w1)
    else if fuel == 0 then DepthExceeded(w1)
    else
      var h := reg.start[rec.path];
      var call := StartCall(sender, rec.data);
      var step := inv(h, call, w1.side);
      Settle(reg, inv, Dispatched(w1, h, call, step), sender, step.outcome, fuel - 1)
  }

  /** `ConversationBase.StartConversationAsync`: hands its arguments to
      `RouteStartActionAsync` unchanged. */
  function StartConversation<H, S>(reg: Routes<H>, inv: (H, Call, S) -> Step<S>, w: World<H, S>,
                                  sender: string, path: string, data: Option<Doc>, fuel: nat): (r: Routed<H, S>)
    ensures r == RouteStart(reg, inv, w, sender, path, data, fuel)
    decreases fuel, 1
  {
    RouteStart(reg, inv, w, sender, path, data, fuel)
  }

  /** What follows a handler invocation: nothing, the handler's transition,
      or the catch block's reset to the root. */
  function Settle<H, S>(reg: Routes<H>, inv: (H, Call, S) -> Step<S>, w: World<H, S>,
                       sender: string, outcome: Outcome, fuel: nat): (r: Routed<H, S>)
    requires sender in w.store
    ensures Confined(w, r.world, sender) && StartsOnly(w, r.world, sender)
    ensures outcome.Throw? ==> r == Done(Recover(w, sender))
    decreases fuel, 2
  {
    match outcome
    case Stay => Done(w)
    case Throw(_) => Done(Recover(w, sender))
    case Go(p, d) => StartConversation(reg, inv, w, sender, p, d, fuel)
  }

  /** The global dispatch of `RouteReplyActionAsync`: only for lifecycle
      events, and only when a global handler is registered. */
  function GlobalPhase<H, S>(reg: Routes<H>, inv: (H, Call, S) -> Step<S>, w: World<H, S>,
                            e: Event, fuel: nat): (r: Routed<H, S>)
    requires e.sender in w.store
    ensures Confined(w, r.world, e.sender)
    ensures !e.IsLifecycle() || reg.global.None? ==> r == Done(w)
  {
    if !e.IsLifecycle() || reg.global.None? then Done(w)
    else
      var call := GlobalCall(e);
      var step := inv(reg.global.value, call, w.side);
      Settle(reg, inv, Dispatched(w, reg.global.value, call, step), e.sender, step.outcome, fuel)
  }

  /** The path dispatch of `RouteReplyActionAsync`, for every event kind. The
      record consulted is the store as it stands now: the router's record
      object is the one the store updates in place, so a write made by the
      global dispatch is visible here. */
  function ReplyPhase<H, S>(reg: Routes<H>, inv: (H, Call, S) -> Step<S>, w: World<H, S>,
                           e: Event, fuel: nat): (r: Routed<H, S>)
    requires e.sender in w.store
    ensures Confined(w, r.world, e.sender)
    ensures forall i :: |w.trace| <= i < |r.world.trace| ==> !r.world.trace[i].call.GlobalCall?
  {
    var rec := w.store[e.sender];
    if rec.path !in reg.reply then Done(w)
    else
      var h := reg.reply[rec.path];
      var call := ReplyCall(e, rec.data);
      var step := inv(h, call, w.side);
      var w1 := Dispatched(w, h, call, step);
      var r := Settle(reg, inv, w1, e.sender, step.outcome, fuel);
      assert forall i :: |w1.trace| <= i < |r.world.trace| ==> r.world.trace[i].call.StartCall?;
      r
  }

  /** `RouteReplyActionAsync`: create the record at the root on first
      contact, run the global dispatch, then the path dispatch. */
  function RouteReply<H, S>(reg: Routes<H>, inv: (H, Call, S) -> Step<S>, w: World<H, S>,
                           e: Event, fuel: nat): (r: Routed<H, S>)
    ensures Confined(w, r.world, e.sender)
    ensures e.sender in r.world.store
  {
    var w1 := if e.sender in w.store then w else w.(store := Upsert(w.store, e.sender, RootPath, None));
    var g := GlobalPhase(reg, inv, w1, e, fuel);
    if g.DepthExceeded? then g else ReplyPhase(reg, inv, g.world, e, fuel)
  }

  // ---------------------------------------------------------------------------
  // Properties of RouteStart
  // ---------------------------------------------------------------------------

  /** The new state is written before any lookup; with no start route for it
      nothing else happens. */
  lemma StartWithoutRouteOnlyPersists<H, S>(reg: Routes<H>, inv: (H, Call, S) -> Step<S>, w: World<H, S>,
                                           sender: string, path: string, data: Option<Doc>, fuel: nat)
    requires path !in reg.start
    ensures var r := RouteStart(reg, inv, w, sender, path, data, fuel);
            && r.Done?
            && r.world.store[sender] == Conversation(path, Normalize(data))
            && r.world.store == Upsert(w.store, sender, path, data)
            && r.world.trace == w.trace && r.world.side == w.side
  {
  }

  /** The start handler registered for the path runs next, on the data as
      read back from the store, so null arrives as `{}`. */
  lemma StartDispatchesStoredData<H, S>(reg: Routes<H>, inv: (H, Call, S) -> Step<S>, w: World<H, S>,
                                       sender: string, path: string, data: Option<Doc>, fuel: nat)
    requires path in reg.start && fuel > 0
    ensures var r := RouteStart(reg, inv, w, sender, path, data, fuel);
            && |r.world.trace| > |w.trace|
            && r.world.trace[|w.trace|] == Invocation(reg.start[path], StartCall(sender, Normalize(data)))
  {
  }

  /** A failing start handler leaves the sender at `("/", {})`, whatever path
      and data were passed, and no start handler runs for "/" afterwards. */
  lemma StartFailureResets<H, S>(reg: Routes<H>, inv: (H, Call, S) -> Step<S>, w: World<H, S>,
                                sender: string, path: string, data: Option<Doc>, fuel: nat)
    requires path in reg.start && fuel > 0
    requires inv(reg.start[path], StartCall(sender, Normalize(data)), w.side).outcome.Throw?
    ensures var r := RouteStart(reg, inv, w, sender, path, data, fuel);
            && r.Done?
            && r.world.store[sender] == Conversation(RootPath, EmptyDoc)
            && |r.world.trace| == |w.trace| + 1
  {
  }

  /** Omitting the data is the same as passing `{}`. */
  lemma StartNullDataIsEmpty<H, S>(reg: Routes<H>, inv: (H, Call, S) -> Step<S>, w: World<H, S>,
                                  sender: string, path: string, fuel: nat)
    ensures StartConversation(reg, inv, w, sender, path, None, fuel)
         == StartConversation(reg, inv, w, sender, path, Some(EmptyDoc), fuel)
  {
    UpsertNullIsEmpty(w.store, sender, path);
  }

  // ---------------------------------------------------------------------------
  // Properties of RouteReply
  // ---------------------------------------------------------------------------

  /** First contact: the record is created at `("/", {})` before anything is
      dispatched, so a message or postback from a new sender goes to the
      reply handler of "/" with `{}`, or does nothing else when "/" has none. */
  lemma FirstContactStartsAtRoot<H, S>(reg: Routes<H>, inv: (H, Call, S) -> Step<S>, w: World<H, S>,
                                      e: Event, fuel: nat)
    requires e.sender !in w.store && !e.IsLifecycle()
    ensures var r := RouteReply(reg, inv, w, e, fuel);
            && (RootPath in reg.reply ==>
                  |r.world.trace| > |w.trace|
                  && r.world.trace[|w.trace|] == Invocation(reg.reply[RootPath], ReplyCall(e, EmptyDoc)))
            && (RootPath !in reg.reply ==>
                  r == Done(w.(store := w.store[e.sender := Conversation(RootPath, EmptyDoc)])))
  {
  }

  /** The global handler runs first for a lifecycle event when one is
      registered, and never for a message or postback. */
  lemma GlobalOnlyForLifecycle<H, S>(reg: Routes<H>, inv: (H, Call, S) -> Step<S>, w: World<H, S>,
                                    e: Event, fuel: nat)
    ensures var r := RouteReply(reg, inv, w, e, fuel);
            && (e.IsLifecycle() && reg.global.Some? ==>
                  |r.world.trace| > |w.trace|
                  && r.world.trace[|w.trace|] == Invocation(reg.global.value, GlobalCall(e)))
            && (!e.IsLifecycle() ==>
                  forall i :: |w.trace| <= i < |r.world.trace| ==> !r.world.trace[i].call.GlobalCall?)
  {
    var w1 := if e.sender in w.store then w else w.(store := Upsert(w.store, e.sender, RootPath, None));
    if !e.IsLifecycle() {
      assert GlobalPhase(reg, inv, w1, e, fuel) == Done(w1);
    }
  }

  /** The path dispatch follows the global one for every event kind, and looks
      up the path the store holds once the global dispatch is over. */
  lemma ReplyAfterGlobal<H, S>(reg: Routes<H>, inv: (H, Call, S) -> Step<S>, w: World<H, S>,
                              e: Event, fuel: nat)
    requires e.sender in w.store
    ensures var g := GlobalPhase(reg, inv, w, e, fuel);
            var r := RouteReply(reg, inv, w, e, fuel);
            g.Done? && g.world.store[e.sender].path in reg.reply ==>
              var rec := g.world.store[e.sender];
              && |r.world.trace| > |g.world.trace|
              && r.world.trace[|g.world.trace|] == Invocation(reg.reply[rec.path], ReplyCall(e, rec.data))
  {
  }

  /** A failing reply handler leaves the sender at `("/", {})`. */
  lemma ReplyFailureResets<H, S>(reg: Routes<H>, inv: (H, Call, S) -> Step<S>, w: World<H, S>,
                                e: Event, fuel: nat)
    requires e.sender in w.store && !e.IsLifecycle()
    requires w.store[e.sender].path in reg.reply
    requires inv(reg.reply[w.store[e.sender].path], ReplyCall(e, w.store[e.sender].data), w.side).outcome.Throw?
    ensures var r := RouteReply(reg, inv, w, e, fuel);
            r.Done? && r.world.store[e.sender] == Conversation(RootPath, EmptyDoc)
  {
    assert GlobalPhase(reg, inv, w, e, fuel) == Done(w);
  }

  /** A message or postback at a path with no reply route changes nothing. */
  lemma ReplyWithoutRouteIsNoOp<H, S>(reg: Routes<H>, inv: (H, Call, S) -> Step<S>, w: World<H, S>,
                                     e: Event, fuel: nat)
    requires e.sender in w.store && !e.IsLifecycle()
    requires w.store[e.sender].path !in reg.reply
    ensures RouteReply(reg, inv, w, e, fuel) == Done(w)
  {
  }

  // ---------------------------------------------------------------------------
  // Depth of nested starts
  // ---------------------------------------------------------------------------

  /** A rank on paths that every start handler's transition decreases. */
  ghost predicate Ranked<H, S(!new)>(reg: Routes<H>, inv: (H, Call, S) -> Step<S>, rank: string -> nat) {
    && (forall p :: p in reg.start ==> rank(p) >= 1)
    && (forall p, c, s :: p in reg.start && inv(reg.start[p], c, s).outcome.Go? ==>
          rank(inv(reg.start[p], c, s).outcome.path) < rank(p))
  }

  /** Every transition the handler `h` can make targets a path of rank at most
      `bound`. */
  ghost predicate TargetsBelow<H, S(!new)>(inv: (H, Call, S) -> Step<S>, h: H, rank: string -> nat, bound: nat) {
    forall c, s :: inv(h, c, s).outcome.Go? ==> rank(inv(h, c, s).outcome.path) <= bound
  }

  /** With a decreasing rank, fuel of at least the target's rank is enough. */
  lemma {:induction false} RankedStartCompletes<H, S(!new)>(reg: Routes<H>, inv: (H, Call, S) -> Step<S>, rank: string -> nat,
                                                      w: World<H, S>, sender: string, path: string, data: Option<Doc>, fuel: nat)
    requires Ranked(reg, inv, rank) && fuel >= rank(path)
    ensures RouteStart(reg, inv, w, sender, path, data, fuel).Done?
    decreases fuel
  {
    var w1 := w.(store := Upsert(w.store, sender, path, data));
    if path in reg.start {
      var h := reg.start[path];
      var call := StartCall(sender, w1.store[sender].data);
      var step := inv(h, call, w1.side);
      var w2 := Dispatched(w1, h, call, step);
      if step.outcome.Go? {
        RankedStartCompletes(reg, inv, rank, w2, sender, step.outcome.path, step.outcome.data, fuel - 1);
      }
    }
  }

  /** Reply routing never runs out of fuel when every reply and global
      handler's targets have rank within the fuel. */
  lemma RankedReplyCompletes<H, S(!new)>(reg: Routes<H>, inv: (H, Call, S) -> Step<S>, rank: string -> nat,
                                  w: World<H, S>, e: Event, fuel: nat)
    requires Ranked(reg, inv, rank)
    requires forall p :: p in reg.reply ==> TargetsBelow(inv, reg.reply[p], rank, fuel)
    requires reg.global.Some? ==> TargetsBelow(inv, reg.global.value, rank, fuel)
    ensures RouteReply(reg, inv, w, e, fuel).Done?
  {
    var w1 := if e.sender in w.store then w else w.(store := Upsert(w.store, e.sender, RootPath, None));
    RankedGlobalCompletes(reg, inv, rank, w1, e, fuel);
    var g := GlobalPhase(reg, inv, w1, e, fuel);
    RankedReplyPhaseCompletes(reg, inv, rank, g.world, e, fuel);
  }

  /** The global dispatch never runs out of fuel when the global handler's
      targets have rank within the fuel. */
  lemma RankedGlobalCompletes<H, S(!new)>(reg: Routes<H>, inv: (H, Call, S) -> Step<S>, rank: string -> nat,
                                         w: World<H, S>, e: Event, fuel: nat)
    requires Ranked(reg, inv, rank) && e.sender in w.store
    requires reg.global.Some? ==> TargetsBelow(inv, reg.global.value, rank, fuel)
    ensures GlobalPhase(reg, inv, w, e, fuel).Done?
  {
    if e.IsLifecycle() && reg.global.Some? {
      var call := GlobalCall(e);
      var step := inv(reg.global.value, call, w.side);
      if step.outcome.Go? {
        RankedStartCompletes(reg, inv, rank, Dispatched(w, reg.global.value, call, step), e.sender,
                             step.outcome.path, step.outcome.data, fuel);
      }
    }
  }

  /** The path dispatch never runs out of fuel when every reply handler's
      targets have rank within the fuel. */
  lemma RankedReplyPhaseCompletes<H, S(!new)>(reg: Routes<H>, inv: (H, Call, S) -> Step<S>, rank: string -> nat,
                                             w: World<H, S>, e: Event, fuel: nat)
    requires Ranked(reg, inv, rank) && e.sender in w.store
    requires forall p :: p in reg.reply ==> TargetsBelow(inv, reg.reply[p], rank, fuel)
    ensures ReplyPhase(reg, inv, w, e, fuel).Done?
  {
    var rec := w.store[e.sender];
    if rec.path in reg.reply {
      var h := reg.reply[rec.path];
      var call := ReplyCall(e, rec.data);
      var step := inv(h, call, w.side);
      if step.outcome.Go? {
        RankedStartCompletes(reg, inv, rank, Dispatched(w, h, call, step), e.sender,
                             step.outcome.path, step.outcome.data, fuel);
      }
    }
  }

  // ---------------------------------------------------------------------------
  // Agreement of handler sets
  // ---------------------------------------------------------------------------

  /** Two handler sets that agree on every registered start handler route
      every start identically: the reply handlers play no part in it. */
  lemma {:induction false} StartAgrees<H, S(!new)>(reg: Routes<H>, inv1: (H, Call, S) -> Step<S>, inv2: (H, Call, S) -> Step<S>,
                                              w: World<H, S>, sender: string, path: string, data: Option<Doc>, fuel: nat)
    requires forall p, c, s :: p in reg.start ==> inv1(reg.start[p], c, s) == inv2(reg.start[p], c, s)
    ensures RouteStart(reg, inv1, w, sender, path, data, fuel) == RouteStart(reg, inv2, w, sender, path, data, fuel)
    decreases fuel
  {
    var w1 := w.(store := Upsert(w.store, sender, path, data));
    var rec := w1.store[sender];
    if rec.path in reg.start && fuel > 0 {
      var h := reg.start[rec.path];
      var call := StartCall(sender, rec.data);
      var step := inv1(h, call, w1.side);
      assert inv2(h, call, w1.side) == step;
      if step.outcome.Go? {
        StartAgrees(reg, inv1, inv2, Dispatched(w1, h, call, step), sender, step.outcome.path, step.outcome.data, fuel - 1);
      }
    }
  }

  /** Two steps with the same effect on routing when "/" has no start
      handler: equal, or the same side state where one goes to "/" without
      data and the other throws (the catch block writes the same record). */
  ghost predicate ResetEquivalent<S>(a: Step<S>, b: Step<S>) {
    || a == b
    || (a.side == b.side && a.outcome == Go(RootPath, None) && b.outcome.Throw?)
    || (a.side == b.side && b.outcome == Go(RootPath, None) && a.outcome.Throw?)
  }

  /** Handler sets that agree on the start and global handlers run the
      global dispatch identically. */
  lemma GlobalAgrees<H, S(!new)>(reg: Routes<H>, inv1: (H, Call, S) -> Step<S>, inv2: (H, Call, S) -> Step<S>,
                                w: World<H, S>, e: Event, fuel: nat)
    requires e.sender in w.store
    requires forall p, c, s :: p in reg.start ==> inv1(reg.start[p], c, s) == inv2(reg.start[p], c, s)
    requires reg.global.Some? ==> forall c, s :: inv1(reg.global.value, c, s) == inv2(reg.global.value, c, s)
    ensures GlobalPhase(reg, inv1, w, e, fuel) == GlobalPhase(reg, inv2, w, e, fuel)
  {
    if e.IsLifecycle() && reg.global.Some? {
      var step := inv1(reg.global.value, GlobalCall(e), w.side);
      assert inv2(reg.global.value, GlobalCall(e), w.side) == step;
      if step.outcome.Go? {
        StartAgrees(reg, inv1, inv2, Dispatched(w, reg.global.value, GlobalCall(e), step), e.sender,
                    step.outcome.path, step.outcome.data, fuel);
      }
    }
  }

  /** The path dispatch of reset-equivalent handler sets agrees. */
  lemma ReplyPhaseAgrees<H, S(!new)>(reg: Routes<H>, inv1: (H, Call, S) -> Step<S>, inv2: (H, Call, S) -> Step<S>,
                                    w: World<H, S>, e: Event, fuel: nat)
    requires e.sender in w.store
    requires RootPath !in reg.start
    requires forall p, c, s :: p in reg.start ==> inv1(reg.start[p], c, s) == inv2(reg.start[p], c, s)
    requires forall p, c, s :: p in reg.reply ==> ResetEquivalent(inv1(reg.reply[p], c, s), inv2(reg.reply[p], c, s))
    ensures ReplyPhase(reg, inv1, w, e, fuel) == ReplyPhase(reg, inv2, w, e, fuel)
  {
    var rec := w.store[e.sender];
    if rec.path in reg.reply {
      var h := reg.reply[rec.path];
      var call := ReplyCall(e, rec.data);
      var step1 := inv1(h, call, w.side);
      var step2 := inv2(h, call, w.side);
      assert ResetEquivalent(step1, step2);
      var d1 := Dispatched(w, h, call, step1);
      if step1 == step2 {
        if step1.outcome.Go? {
          StartAgrees(reg, inv1, inv2, d1, e.sender, step1.outcome.path, step1.outcome.data, fuel);
        }
      } else {
        assert Dispatched(w, h, call, step2) == d1;
      }
    }
  }

  /** With no start handler for "/", a reply handler that throws and one
      that goes to "/" without data route identically: handler sets that
      differ only so route every event identically. */
  lemma ReplyAgrees<H, S(!new)>(reg: Routes<H>, inv1: (H, Call, S) -> Step<S>, inv2: (H, Call, S) -> Step<S>,
                               w: World<H, S>, e: Event, fuel: nat)
    requires RootPath !in reg.start
    requires forall p, c, s :: p in reg.start ==> inv1(reg.start[p], c, s) == inv2(reg.start[p], c, s)
    requires reg.global.Some? ==> forall c, s :: inv1(reg.global.value, c, s) == inv2(reg.global.value, c, s)
    requires forall p, c, s :: p in reg.reply ==> ResetEquivalent(inv1(reg.reply[p], c, s), inv2(reg.reply[p], c, s))
    ensures RouteReply(reg, inv1, w, e, fuel) == RouteReply(reg, inv2, w, e, fuel)
  {
    var w1 := if e.sender in w.store then w else w.(store := Upsert(w.store, e.sender, RootPath, None));
    GlobalAgrees(reg, inv1, inv2, w1, e, fuel);
    var g := GlobalPhase(reg, inv1, w1, e, fuel);
    if g.Done? {
      ReplyPhaseAgrees(reg, inv1, inv2, g.world, e, fuel);
    }
  }

  /** A global handler that can only go to "/" without data or throw, with
      no start handler for "/" and a root reply handler that stays on `e`,
      leaves the sender at `("/", {})`. */
  lemma GlobalResetEndsAtRoot<H, S(!new)>(reg: Routes<H>, inv: (H, Call, S) -> Step<S>, w: World<H, S>, e: Event, fuel: nat)
    requires e.IsLifecycle() && reg.global.Some? && RootPath !in reg.start
    requires forall s :: var o := inv(reg.global.value, GlobalCall(e), s).outcome; o == Go(RootPath, None) || o.Throw?
    requires RootPath in reg.reply ==> forall d, s :: inv(reg.reply[RootPath], ReplyCall(e, d), s).outcome == Stay
    ensures var r := RouteReply(reg, inv, w, e, fuel);
            r.Done? && r.world.store[e.sender] == Conversation(RootPath, EmptyDoc)
  {
    var w1 := if e.sender in w.store then w else w.(store := Upsert(w.store, e.sender, RootPath, None));
    var step := inv(reg.global.value, GlobalCall(e), w1.side);
    var g := GlobalPhase(reg, inv, w1, e, fuel);
    assert g == Settle(reg, inv, Dispatched(w1, reg.global.value, GlobalCall(e), step), e.sender, step.outcome, fuel);
    assert g.Done? && g.world.store[e.sender] == Conversation(RootPath, EmptyDoc);
    assert RouteReply(reg, inv, w, e, fuel) == ReplyPhase(reg, inv, g.world, e, fuel);
  }

  // ---------------------------------------------------------------------------
  // Stored paths
  // ---------------------------------------------------------------------------

  /** Every stored record's path is one of `paths`. */
  ghost predicate PathsIn(s: Store, paths: set<string>) {
    forall o :: o in s ==> s[o].path in paths
  }

  /** Every transition a handler can take goes to one of `paths`. */
  ghost predicate TargetsIn<H(!new), S(!new)>(inv: (H, Call, S) -> Step<S>, paths: set<string>) {
    forall h, c, s :: inv(h, c, s).outcome.Go? ==> inv(h, c, s).outcome.path in paths
  }

  /** Writing a path of the set keeps every stored path in the set. */
  lemma UpsertKeepsPaths(s: Store, sender: string, path: string, data: Option<Doc>, paths: set<string>)
    requires PathsIn(s, paths) && path in paths
    ensures PathsIn(Upsert(s, sender, path, data), paths)
  {
  }

  /** A start at a path of a set that holds the root and every handler
      target leaves only paths of that set in the store. */
  lemma {:induction false} StartKeepsPaths<H(!new), S(!new)>(reg: Routes<H>, inv: (H, Call, S) -> Step<S>, paths: set<string>,
                                                             w: World<H, S>, sender: string, path: string, data: Option<Doc>, fuel: nat)
    requires TargetsIn(inv, paths) && RootPath in paths
    requires path in paths && PathsIn(w.store, paths)
    ensures PathsIn(RouteStart(reg, inv, w, sender, path, data, fuel).world.store, paths)
    decreases fuel, 0
  {
    var w1 := w.(store := Upsert(w.store, sender, path, data));
    UpsertKeepsPaths(w.store, sender, path, data, paths);
    var rec := w1.store[sender];
    if rec.path in reg.start && fuel > 0 {
      var h := reg.start[rec.path];
      var call := StartCall(sender, rec.data);
      var step := inv(h, call, w1.side);
      SettleKeepsPaths(reg, inv, paths, Dispatched(w1, h, call, step), sender, step.outcome, fuel - 1);
    }
  }

  /** What follows a handler invocation keeps the stored paths in the set. */
  lemma {:induction false} SettleKeepsPaths<H(!new), S(!new)>(reg: Routes<H>, inv: (H, Call, S) -> Step<S>, paths: set<string>,
                                                              w: World<H, S>, sender: string, outcome: Outcome, fuel: nat)
    requires TargetsIn(inv, paths) && RootPath in paths && PathsIn(w.store, paths)
    requires sender in w.store
    requires outcome.Go? ==> outcome.path in paths
    ensures PathsIn(Settle(reg, inv, w, sender, outcome, fuel).world.store, paths)
    decreases fuel, 1
  {
    match outcome
    case Stay =>
    case Throw(_) =>
      UpsertKeepsPaths(w.store, sender, RootPath, None, paths);
    case Go(p, d) =>
      StartKeepsPaths(reg, inv, paths, w, sender, p, d, fuel);
  }

  /** Routing an event keeps the stored paths in a set that holds the root
      and every handler target: the store only ever holds paths the
      handlers can name. */
  lemma ReplyKeepsPaths<H(!new), S(!new)>(reg: Routes<H>, inv: (H, Call, S) -> Step<S>, paths: set<string>,
                                          w: World<H, S>, e: Event, fuel: nat)
    requires TargetsIn(inv, paths) && RootPath in paths && PathsIn(w.store, paths)
    ensures PathsIn(RouteReply(reg, inv, w, e, fuel).world.store, paths)
  {
    var w1 := if e.sender in w.store then w else w.(store := Upsert(w.store, e.sender, RootPath, None));
    if e.sender !in w.store {
      UpsertKeepsPaths(w.store, e.sender, RootPath, None, paths);
    }
    GlobalKeepsPaths(reg, inv, paths, w1, e, fuel);
    var g := GlobalPhase(reg, inv, w1, e, fuel);
    if g.Done? {
      ReplyPhaseKeepsPaths(reg, inv, paths, g.world, e, fuel);
    }
    assert RouteReply(reg, inv, w, e, fuel) == if g.DepthExceeded? then g else ReplyPhase(reg, inv, g.world, e, fuel);
  }

  /** The global dispatch keeps the stored paths in the set. */
  lemma GlobalKeepsPaths<H(!new), S(!new)>(reg: Routes<H>, inv: (H, Call, S) -> Step<S>, paths: set<string>,
                                           w: World<H, S>, e: Event, fuel: nat)
    requires TargetsIn(inv, paths) && RootPath in paths && PathsIn(w.store, paths) && e.sender in w.store
    ensures PathsIn(GlobalPhase(reg, inv, w, e, fuel).world.store, paths)
  {
    if e.IsLifecycle() && reg.global.Some? {
      var call := GlobalCall(e);
      var step := inv(reg.global.value, call, w.side);
      SettleKeepsPaths(reg, inv, paths, Dispatched(w, reg.global.value, call, step), e.sender, step.outcome, fuel);
    }
  }

  /** The path dispatch keeps the stored paths in the set. */
  lemma ReplyPhaseKeepsPaths<H(!new), S(!new)>(reg: Routes<H>, inv: (H, Call, S) -> Step<S>, paths: set<string>,
                                               w: World<H, S>, e: Event, fuel: nat)
    requires TargetsIn(inv, paths) && RootPath in paths && PathsIn(w.store, paths) && e.sender in w.store
    ensures PathsIn(ReplyPhase(reg, inv, w, e, fuel).world.store, paths)
  {
    var rec := w.store[e.sender];
    if rec.path in reg.reply {
      var h := reg.reply[rec.path];
      var call := ReplyCall(e, rec.data);
      var step := inv(h, call, w.side);
      SettleKeepsPaths(reg, inv, paths, Dispatched(w, h, call, step), e.sender, step.outcome, fuel);
    }
  }
}

=== FILE: sequences.dfy ===
/** The LINQ-style list operations the handlers use: `Take`, `Zip`, removing
    one element, and keeping or dropping the null slots of an aligned list. */
module Sequences {
  import opened Wrappers

  function Min(a: nat, b: nat): nat {
    if a < b then a else b
  }

  /** `xs.Take(n)`. */
  function Take<T>(xs: seq<T>, n: nat): (r: seq<T>)
    ensures |r| == Min(|xs|, n)
    ensures forall k :: 0 <= k < |r| ==> r[k] == xs[k]
  {
    if |xs| <= n then xs else xs[..n]
  }

  /** `xs.Zip(ys, (x, y) => (x, y))`: pairs up to the shorter length. */
  function Zip<A, B>(xs: seq<A>, ys: seq<B>): (r: seq<(A, B)>)
    ensures |r| == Min(|xs|, |ys|)
    ensures forall k :: 0 <= k < |r| ==> r[k] == (xs[k], ys[k])
  {
    seq(Min(|xs|, |ys|), k requires 0 <= k < Min(|xs|, |ys|) => (xs[k], ys[k]))
  }

  /** Removes the element at index `i`, keeping the others in order. */
  function RemoveAt<T>(xs: seq<T>, i: nat): (r: seq<T>)
    requires i < |xs|
    ensures |r| == |xs| - 1
    ensures forall k :: 0 <= k < i ==> r[k] == xs[k]
    ensures forall k :: i <= k < |r| ==> r[k] == xs[k + 1]
  {
    xs[..i] + xs[i + 1..]
  }

  /** Removing one element takes exactly that element out of the multiset. */
  lemma RemoveAtMultiset<T>(xs: seq<T>, i: nat)
    requires i < |xs|
    ensures multiset(RemoveAt(xs, i)) + multiset{xs[i]} == multiset(xs)
  {
    assert xs == xs[..i] + [xs[i]] + xs[i + 1..];
  }

  /** `xs.Where(x => x != null)`: the present values, in order. */
  function Present<T>(xs: seq<Option<T>>): (r: seq<T>)
    ensures |r| <= |xs|
    ensures forall k :: 0 <= k < |r| ==> Some(r[k]) in xs
    ensures forall k :: 0 <= k < |xs| && xs[k].Some? ==> xs[k].value in r
    decreases |xs|
  {
    if |xs| == 0 then []
    else
      var rest := Present(xs[1..]);
      assert forall k :: 1 <= k < |xs| && xs[k].Some? ==> xs[k].value in rest by {
        forall k | 1 <= k < |xs| && xs[k].Some? ensures xs[k].value in rest {
          assert xs[1..][k - 1] == xs[k];
        }
      }
      if xs[0].Some? then [xs[0].value] + rest else rest
  }

  /** `a` is an element of `ys` whose aligned slot in `xs` is empty. */
  ghost predicate Kept<A, T>(ys: seq<A>, xs: seq<Option<T>>, a: A)
    requires |ys| == |xs|
  {
    exists k :: 0 <= k < |ys| && ys[k] == a && xs[k].None?
  }

  /** An element kept from the tail of aligned lists is kept from the whole. */
  lemma KeptTail<A, T>(ys: seq<A>, xs: seq<Option<T>>, a: A)
    requires |ys| == |xs| && |ys| > 0 && Kept(ys[1..], xs[1..], a)
    ensures Kept(ys, xs, a)
  {
    var m :| 0 <= m < |ys[1..]| && ys[1..][m] == a && xs[1..][m].None?;
    assert ys[m + 1] == a && xs[m + 1].None?;
  }

  /** `ys.Zip(xs, ...).Where(pair => pair.x == null).Select(pair => pair.y)`:
      the elements of `ys` whose aligned slot in `xs` is empty, in order. */
  function Absent<A, T>(ys: seq<A>, xs: seq<Option<T>>): (r: seq<A>)
    requires |ys| == |xs|
    ensures |r| <= |ys|
    ensures forall i :: 0 <= i < |r| ==> Kept(ys, xs, r[i])
    decreases |ys|
  {
    if |ys| == 0 then []
    else
      var rest := Absent(ys[1..], xs[1..]);
      var r := if xs[0].None? then [ys[0]] + rest else rest;
      assert forall i :: 0 <= i < |r| ==> Kept(ys, xs, r[i]) by {
        forall i | 0 <= i < |r| ensures Kept(ys, xs, r[i]) {
          if xs[0].None? && i == 0 {
            assert ys[0] == r[i] && xs[0].None?;
          } else {
            var j := if xs[0].None? then i - 1 else i;
            assert 0 <= j < |rest| && rest[j] == r[i];
            KeptTail(ys, xs, rest[j]);
          }
        }
      }
      r
  }

  /** `Where` distributes over concatenation: the present values of a
      joined list are those of each part, in order. */
  lemma {:induction false} PresentAppend<T>(xs1: seq<Option<T>>, xs2: seq<Option<T>>)
    ensures Present(xs1 + xs2) == Present(xs1) + Present(xs2)
    decreases |xs1|
  {
    if |xs1| == 0 {
      assert xs1 + xs2 == xs2;
    } else {
      assert (xs1 + xs2)[0] == xs1[0];
      assert (xs1 + xs2)[1..] == xs1[1..] + xs2;
      PresentAppend(xs1[1..], xs2);
    }
  }

  /** The present values grow one slot at a time: a filled slot appends its
      value, an empty one appends nothing. With `Present([]) == []` this pins
      `Present` down as the order-preserving filter. */
  lemma PresentSnoc<T>(xs: seq<Option<T>>, x: Option<T>)
    ensures Present(xs + [x]) == Present(xs) + (if x.Some? then [x.value] else [])
  {
    PresentAppend(xs, [x]);
    assert [x][1..] == [];
  }

  /** The null-slot filter distributes over concatenation of aligned lists. */
  lemma {:induction false} AbsentAppend<A, T>(ys1: seq<A>, xs1: seq<Option<T>>, ys2: seq<A>, xs2: seq<Option<T>>)
    requires |ys1| == |xs1| && |ys2| == |xs2|
    ensures Absent(ys1 + ys2, xs1 + xs2) == Absent(ys1, xs1) + Absent(ys2, xs2)
    decreases |ys1|
  {
    if |ys1| == 0 {
      assert ys1 + ys2 == ys2 && xs1 + xs2 == xs2;
    } else {
      assert (ys1 + ys2)[0] == ys1[0] && (xs1 + xs2)[0] == xs1[0];
      assert (ys1 + ys2)[1..] == ys1[1..] + ys2 && (xs1 + xs2)[1..] == xs1[1..] + xs2;
      AbsentAppend(ys1[1..], xs1[1..], ys2, xs2);
    }
  }

  /** The absent elements grow one aligned pair at a time: an element whose
      slot is empty is appended, any other is not. With
      `Absent([], []) == []` this pins `Absent` down as the order-preserving
      filter: no element is repeated, dropped or reordered. */
  lemma AbsentSnoc<A, T>(ys: seq<A>, xs: seq<Option<T>>, y: A, x: Option<T>)
    requires |ys| == |xs|
    ensures Absent(ys + [y], xs + [x]) == Absent(ys, xs) + (if x.None? then [y] else [])
  {
    AbsentAppend(ys, xs, [y], [x]);
    assert [y][1..] == [] && [x][1..] == [];
  }

  /** Every element whose slot is empty is kept. */
  lemma {:induction false} AbsentComplete<A, T>(ys: seq<A>, xs: seq<Option<T>>, k: nat)
    requires |ys| == |xs| && k < |ys| && xs[k].None?
    ensures ys[k] in Absent(ys, xs)
    decreases |ys|
  {
    if k > 0 {
      AbsentComplete(ys[1..], xs[1..], k - 1);
      assert ys[1..][k - 1] == ys[k];
    }
  }

  /** Some element is kept exactly when some slot is empty. */
  lemma {:induction false} AbsentNonEmptyIff<A, T>(ys: seq<A>, xs: seq<Option<T>>)
    requires |ys| == |xs|
    ensures |Absent(ys, xs)| > 0 <==> exists k :: 0 <= k < |xs| && xs[k].None?
  {
    if exists k :: 0 <= k < |xs| && xs[k].None? {
      var k :| 0 <= k < |xs| && xs[k].None?;
      AbsentComplete(ys, xs, k);
    }
    if |Absent(ys, xs)| > 0 {
      var r := Absent(ys, xs);
      assert Kept(ys, xs, r[0]);
    }
  }

  /** The present values and the absent slots partition an aligned list. */
  lemma {:induction false} PresentAbsentPartition<A, T>(ys: seq<A>, xs: seq<Option<T>>)
    requires |ys| == |xs|
    ensures |Present(xs)| + |Absent(ys, xs)| == |ys|
    decreases |ys|
  {
    if |ys| > 0 {
      PresentAbsentPartition(ys[1..], xs[1..]);
    }
  }

  /** With every slot empty, every element is absent. */
  lemma {:induction false} AllAbsent<A, T>(ys: seq<A>, xs: seq<Option<T>>)
    requires |ys| == |xs|
    requires forall k :: 0 <= k < |xs| ==> xs[k].None?
    ensures Absent(ys, xs) == ys && Present(xs) == []
    decreases |ys|
  {
    if |ys| > 0 {
      AllAbsent(ys[1..], xs[1..]);
      assert [ys[0]] + ys[1..] == ys;
    }
  }

  /** `xs.Select((x, i) => f(x, start + i))` where `f` may fail: the first
      failure is the result, otherwise every value in order. */
  function SelectIndexed<A, B, E>(xs: seq<A>, f: (A, nat) -> Result<B, E>, start: nat): (r: Result<seq<B>, E>)
    ensures r.Ok? ==> |r.value| == |xs|
    decreases |xs|
  {
    if |xs| == 0 then Ok([])
    else
      var first := f(xs[0], start);
      if first.Err? then Err(first.error)
      else
        var rest := SelectIndexed(xs[1..], f, start + 1);
        if rest.Err? then Err(rest.error)
        else Ok([first.value] + rest.value)
  }

  /** The selection succeeds exactly when every element's does, and then
      holds element `i`'s value at position `i`. */
  lemma {:induction false} SelectIndexedSpec<A, B, E>(xs: seq<A>, f: (A, nat) -> Result<B, E>, start: nat)
    ensures var r := SelectIndexed(xs, f, start);
            && (r.Ok? <==> forall i :: 0 <= i < |xs| ==> f(xs[i], start + i).Ok?)
            && (r.Ok? ==> forall i :: 0 <= i < |xs| ==> f(xs[i], start + i) == Ok(r.value[i]))
    decreases |xs|
  {
    if |xs| > 0 {
      var tail := xs[1..];
      SelectIndexedSpec(tail, f, start + 1);
      var r := SelectIndexed(xs, f, start);
      var rest := SelectIndexed(tail, f, start + 1);
      if f(xs[0], start).Ok? && rest.Ok? {
        assert r.value == [f(xs[0], start).value] + rest.value;
        forall i | 1 <= i < |xs| ensures f(xs[i], start + i) == Ok(r.value[i]) {
          assert xs[i] == tail[i - 1] && r.value[i] == rest.value[i - 1];
          assert start + 1 + (i - 1) == start + i;
        }
      } else if f(xs[0], start).Ok? {
        var k :| 0 <= k < |tail| && !f(tail[k], start + 1 + k).Ok?;
        assert xs[k + 1] == tail[k] && start + (k + 1) == start + 1 + k;
      }
    }
  }

  /** When every element's selection gives the matching entry of `ys`,
      the whole selection gives `ys`. */
  lemma SelectIndexedOfEach<A, B, E>(xs: seq<A>, f: (A, nat) -> Result<B, E>, start: nat, ys: seq<B>)
    requires |ys| == |xs|
    requires forall i :: 0 <= i < |xs| ==> f(xs[i], start + i) == Ok(ys[i])
    ensures SelectIndexed(xs, f, start) == Ok(ys)
  {
    SelectIndexedSpec(xs, f, start);
    var r := SelectIndexed(xs, f, start);
    assert r.Ok?;
    assert forall i :: 0 <= i < |xs| ==> f(xs[i], start + i) == Ok(r.value[i]);
    assert r.value == ys;
  }
}

=== FILE: store.dfy ===
/** The conversation store: one record per sender, holding the current path
    and the step data. */
module ConversationStore {
  import opened Wrappers
  import opened Json

  /** A stored conversation. The data is kept in parsed form; its JSON text
      is not modelled. */
  datatype Conversation = Conversation(path: string, data: Doc)

  /** The table, keyed by sender id (the column is unique). */
  type Store = map<string, Conversation>

  /** `FindConversationAsync`: the sender's record, if any. */
  function Find(s: Store, sender: string): (r: Option<Conversation>)
    ensures r.Some? <==> sender in s
    ensures r.Some? ==> r.value == s[sender]
  {
    if sender in s then Some(s[sender]) else None
  }

  /** `CreateOrUpdateConversationAsync`: inserts the record when the sender
      has none, otherwise overwrites both path and data. A null document is
      stored as `{}`. */
  function Upsert(s: Store, sender: string, path: string, data: Option<Doc>): (r: Store)
    ensures r.Keys == s.Keys + {sender}
    ensures Find(r, sender) == Some(Conversation(path, Normalize(data)))
    ensures forall o :: o != sender ==> Find(r, o) == Find(s, o)
  {
    s[sender := Conversation(path, Normalize(data))]
  }

  /** The second write replaces the first entirely: nothing of the earlier
      path or data survives (no merge). */
  lemma UpsertLastWriteWins(s: Store, sender: string, p1: string, d1: Option<Doc>, p2: string, d2: Option<Doc>)
    ensures Upsert(Upsert(s, sender, p1, d1), sender, p2, d2) == Upsert(s, sender, p2, d2)
  {
  }

  /** Storing null and storing `{}` are indistinguishable afterwards. */
  lemma UpsertNullIsEmpty(s: Store, sender: string, path: string)
    ensures Upsert(s, sender, path, None) == Upsert(s, sender, path, Some(EmptyDoc))
  {
  }

  /** Writing what is already stored changes nothing. */
  lemma UpsertStoredIsIdentity(s: Store, sender: string)
    requires sender in s
    ensures Upsert(s, sender, s[sender].path, Some(s[sender].data)) == s
  {
  }
}

=== FILE: text.dfy ===
/** The .NET string operations the bot relies on, stated over `seq<char>`.
    Comparisons are ordinal and case mapping is ASCII-only. */
module Text {
  import opened Wrappers

  // ---------------------------------------------------------------------------
  // Prefixes and substrings
  // ---------------------------------------------------------------------------

  /** `s.StartsWith(p)`, ordinal. */
  predicate StartsWith(s: string, p: string) {
    |p| <= |s| && s[..|p|] == p
  }

  /** `sub` occurs in `s` starting at index `i`. */
  ghost predicate OccursAt(s: string, sub: string, i: int) {
    0 <= i && i + |sub| <= |s| && s[i..i + |sub|] == sub
  }

  /** `s.Contains(sub)`, ordinal: `sub` is a prefix of some suffix of `s`. */
  predicate Contains(s: string, sub: string)
    decreases |s|
  {
    StartsWith(s, sub) || (|s| > 0 && Contains(s[1..], sub))
  }

  /** The scanning definition agrees with the positional one, both ways. */
  lemma {:induction false} ContainsIffOccurs(s: string, sub: string)
    ensures Contains(s, sub) <==> exists i :: OccursAt(s, sub, i)
    decreases |s|
  {
    if StartsWith(s, sub) {
      assert OccursAt(s, sub, 0);
    } else if |s| == 0 {
    } else {
      ContainsIffOccurs(s[1..], sub);
      if exists i :: OccursAt(s[1..], sub, i) {
        var i :| OccursAt(s[1..], sub, i);
        assert s[i + 1..i + 1 + |sub|] == s[1..][i..i + |sub|];
        assert OccursAt(s, sub, i + 1);
      }
      if exists i :: OccursAt(s, sub, i) {
        var i :| OccursAt(s, sub, i);
        if i == 0 {
          assert false;
        }
        assert s[1..][i - 1..i - 1 + |sub|] == s[i..i + |sub|];
        assert OccursAt(s[1..], sub, i - 1);
      }
    }
  }

  // ---------------------------------------------------------------------------
  // Trimming
  // ---------------------------------------------------------------------------

  /** `s.TrimEnd(c)`: drops every trailing `c`. */
  function TrimEnd(s: string, c: char): (r: string)
    ensures StartsWith(s, r)
    ensures |r| == 0 || r[|r| - 1] != c
    ensures forall i :: |r| <= i < |s| ==> s[i] == c
    decreases |s|
  {
    if |s| > 0 && s[|s| - 1] == c then TrimEnd(s[..|s| - 1], c) else s
  }

  /** The characters `NumberStyles.Integer` skips around a number
      (U+0009 to U+000D and the space). */
  predicate IsWhite(ch: char) {
    ch == ' ' || ('\U{9}' <= ch <= '\U{D}')
  }

  /** The characters `bool.Parse` trims: those `char.IsWhiteSpace` accepts
      (the Unicode separators and U+0009 to U+000D, U+0085) and U+0000. */
  predicate IsSpaceOrNull(ch: char) {
    || ch == '\U{0}' || ch == ' ' || ('\U{9}' <= ch <= '\U{D}') || ch == '\U{85}' || ch == '\U{A0}'
    || ch == '\U{1680}' || ('\U{2000}' <= ch <= '\U{200A}') || ch == '\U{2028}' || ch == '\U{2029}'
    || ch == '\U{202F}' || ch == '\U{205F}' || ch == '\U{3000}'
  }

  /** `r` sits in `s` at index `i`, and every character of `s` before or
      after it is white. */
  predicate Padded(s: string, r: string, i: int, white: char -> bool) {
    && 0 <= i && i + |r| <= |s| && s[i..i + |r|] == r
    && (forall k :: 0 <= k < i ==> white(s[k]))
    && (forall k :: i + |r| <= k < |s| ==> white(s[k]))
  }

  /** Padding grows by a white character in front. */
  lemma PaddedCons(s: string, r: string, i: int, white: char -> bool)
    requires |s| > 0 && white(s[0]) && Padded(s[1..], r, i, white)
    ensures Padded(s, r, i + 1, white)
  {
    assert forall k :: 1 <= k < |s| ==> s[k] == s[1..][k - 1];
    assert s[i + 1..i + 1 + |r|] == r;
  }

  /** Padding grows by a white character at the back. */
  lemma PaddedSnoc(s: string, r: string, i: int, white: char -> bool)
    requires |s| > 0 && white(s[|s| - 1]) && Padded(s[..|s| - 1], r, i, white)
    ensures Padded(s, r, i, white)
  {
    assert s[i..i + |r|] == s[..|s| - 1][i..i + |r|];
    assert forall k :: 0 <= k < |s| - 1 ==> s[k] == s[..|s| - 1][k];
  }

  /** Drops leading and trailing white characters: the result is an infix
      of `s` with white padding on both sides and no white character at
      either end (`TrimPadded` shows there is only one such infix). */
  function Trim(s: string, white: char -> bool): (r: string)
    ensures |r| > 0 ==> !white(r[0]) && !white(r[|r| - 1])
    ensures exists i :: Padded(s, r, i, white)
    ensures (|s| == 0 || (!white(s[0]) && !white(s[|s| - 1]))) ==> r == s
    decreases |s|
  {
    if |s| > 0 && white(s[0]) then
      var r := Trim(s[1..], white);
      assert exists i :: Padded(s, r, i, white) by {
        var i :| Padded(s[1..], r, i, white);
        PaddedCons(s, r, i, white);
      }
      r
    else if |s| > 0 && white(s[|s| - 1]) then
      var r := Trim(s[..|s| - 1], white);
      assert exists i :: Padded(s, r, i, white) by {
        var i :| Padded(s[..|s| - 1], r, i, white);
        PaddedSnoc(s, r, i, white);
      }
      r
    else
      assert Padded(s, s, 0, white);
      s
  }

  /** A string has only one infix with white padding and no white
      character at either end. */
  lemma PaddedUnique(s: string, r: string, i: int, m: string, j: int, white: char -> bool)
    requires Padded(s, r, i, white) && Padded(s, m, j, white)
    requires |r| > 0 ==> !white(r[0]) && !white(r[|r| - 1])
    requires |m| > 0 ==> !white(m[0]) && !white(m[|m| - 1])
    ensures r == m
  {
    assert |m| == 0 ==> forall k :: 0 <= k < |s| ==> white(s[k]);
    assert |r| == 0 ==> forall k :: 0 <= k < |s| ==> white(s[k]);
    assert |r| > 0 ==> s[i] == r[0] && s[i + |r| - 1] == r[|r| - 1];
    assert |m| > 0 ==> s[j] == m[0] && s[j + |m| - 1] == m[|m| - 1];
    if |r| > 0 && |m| > 0 {
      assert i == j;
      assert i + |r| == j + |m|;
    }
  }

  /** Trimming a text padded with white characters on both sides gives the
      text back, when its own ends are not white. */
  lemma TrimPadded(w1: string, m: string, w2: string, white: char -> bool)
    requires forall k :: 0 <= k < |w1| ==> white(w1[k])
    requires forall k :: 0 <= k < |w2| ==> white(w2[k])
    requires |m| > 0 ==> !white(m[0]) && !white(m[|m| - 1])
    ensures Trim(w1 + m + w2, white) == m
  {
    var s := w1 + m + w2;
    var r := Trim(s, white);
    var i :| Padded(s, r, i, white);
    PaddedConcat(w1, m, w2, white);
    PaddedUnique(s, r, i, m, |w1|, white);
  }

  /** A text between white strings is padded in their concatenation. */
  lemma PaddedConcat(w1: string, m: string, w2: string, white: char -> bool)
    requires forall k :: 0 <= k < |w1| ==> white(w1[k])
    requires forall k :: 0 <= k < |w2| ==> white(w2[k])
    ensures Padded(w1 + m + w2, m, |w1|, white)
  {
    var s := w1 + m + w2;
    assert s[|w1|..|w1| + |m|] == m;
    assert forall k :: 0 <= k < |w1| ==> s[k] == w1[k];
    assert forall k :: |w1| + |m| <= k < |s| ==> s[k] == w2[k - |w1| - |m|];
  }

  // ---------------------------------------------------------------------------
  // Split and Join
  // ---------------------------------------------------------------------------

  /** `s.Split(c)`: every piece between separators, empty pieces included. */
  function Split(s: string, c: char): (r: seq<string>)
    ensures |r| >= 1
    ensures forall k :: 0 <= k < |r| ==> c !in r[k]
    decreases |s|
  {
    if |s| == 0 then [""]
    else
      var rest := Split(s[1..], c);
      if s[0] == c then [""] + rest
      else [[s[0]] + rest[0]] + rest[1..]
  }

  /** `string.Join(sep, xs)`. */
  function Join(xs: seq<string>, sep: string): string
    decreases |xs|
  {
    if |xs| == 0 then ""
    else if |xs| == 1 then xs[0]
    else xs[0] + sep + Join(xs[1..], sep)
  }

  /** Splitting text that starts with a separator-free piece `a` glues `a`
      onto the first piece. */
  lemma {:induction false} SplitPrefix(a: string, t: string, c: char)
    requires c !in a
    ensures Split(a + t, c) == [a + Split(t, c)[0]] + Split(t, c)[1..]
    decreases |a|
  {
    if |a| > 0 {
      SplitPrefix(a[1..], t, c);
      assert (a + t)[1..] == a[1..] + t;
      assert (a + t)[0] == a[0];
      assert [a[0]] + (a[1..] + Split(t, c)[0]) == a + Split(t, c)[0];
    } else {
      assert a + t == t;
      assert Split(t, c) == [Split(t, c)[0]] + Split(t, c)[1..];
      assert a + Split(t, c)[0] == Split(t, c)[0];
    }
  }

  /** Joining separator-free pieces and splitting again gives the pieces back. */
  lemma {:induction false} SplitJoin(xs: seq<string>, c: char)
    requires |xs| >= 1
    requires forall k :: 0 <= k < |xs| ==> c !in xs[k]
    ensures Split(Join(xs, [c]), c) == xs
    decreases |xs|
  {
    if |xs| == 1 {
      SplitPrefix(xs[0], "", c);
      assert xs[0] + "" == xs[0];
    } else {
      var tail := Join(xs[1..], [c]);
      SplitJoin(xs[1..], c);
      assert Join(xs, [c]) == xs[0] + ([c] + tail);
      SplitPrefix(xs[0], [c] + tail, c);
      assert ([c] + tail)[1..] == tail;
      assert Split([c] + tail, c) == [""] + xs[1..];
      assert xs[0] + "" == xs[0];
      assert [xs[0]] + xs[1..] == xs;
    }
  }

  // ---------------------------------------------------------------------------
  // Decimal integers
  // ---------------------------------------------------------------------------

  predicate IsDigit(ch: char) {
    '0' <= ch <= '9'
  }

  predicate AllDigits(s: string) {
    forall k :: 0 <= k < |s| ==> IsDigit(s[k])
  }

  function DigitChar(d: nat): char
    requires d < 10
  {
    (('0' as int) + d) as char
  }

  /** The decimal rendering of a natural number, no leading zeros. */
  function NatToString(n: nat): (r: string)
    ensures |r| >= 1 && AllDigits(r)
    decreases n
  {
    if n < 10 then [DigitChar(n)] else NatToString(n / 10) + [DigitChar(n % 10)]
  }

  /** `int.ToString()` under the invariant culture. */
  function IntToString(i: int): (r: string)
    ensures |r| >= 1
    ensures ',' !in r
  {
    if i < 0 then "-" + NatToString(-i) else NatToString(i)
  }

  /** The value of a string of decimal digits (leading zeros allowed). */
  function DigitsValue(s: string): nat
    requires AllDigits(s)
    decreases |s|
  {
    if |s| == 0 then 0
    else DigitsValue(s[..|s| - 1]) * 10 + (s[|s| - 1] as int - '0' as int)
  }

  lemma {:induction false} DigitsValueOfNatToString(n: nat)
    ensures DigitsValue(NatToString(n)) == n
    decreases n
  {
    var r := NatToString(n);
    if n >= 10 {
      DigitsValueOfNatToString(n / 10);
      assert r[..|r| - 1] == NatToString(n / 10);
    }
  }

  const Int32Min: int := -0x8000_0000
  const Int32Max: int := 0x7FFF_FFFF

  predicate InInt32(i: int) {
    Int32Min <= i <= Int32Max
  }

  /** `t` is an optional sign followed by at least one decimal digit, and
      denotes `v`. */
  predicate SignedDecimal(t: string, v: int) {
    || (|t| > 0 && AllDigits(t) && v == DigitsValue(t))
    || (|t| > 1 && t[0] == '+' && AllDigits(t[1..]) && v == DigitsValue(t[1..]))
    || (|t| > 1 && t[0] == '-' && AllDigits(t[1..]) && v == -(DigitsValue(t[1..]) as int))
  }

  /** `int.Parse` / `int.TryParse` with `NumberStyles.Integer`: optional white
      space, an optional sign, at least one digit, optional white space, and a
      value that fits in 32 bits. `None` is the `FormatException` /
      `OverflowException` of `int.Parse` and the `false` of `int.TryParse`. */
  function ParseInt32(s: string): (r: Option<int>)
    ensures r.Some? ==> InInt32(r.value) && SignedDecimal(Trim(s, IsWhite), r.value)
    ensures forall v :: SignedDecimal(Trim(s, IsWhite), v) && InInt32(v) ==> r == Some(v)
  {
    var t := Trim(s, IsWhite);
    var neg := |t| > 0 && t[0] == '-';
    var digits := if |t| > 0 && (t[0] == '-' || t[0] == '+') then t[1..] else t;
    if |digits| == 0 || !AllDigits(digits) then None
    else
      var v: int := if neg then -(DigitsValue(digits) as int) else DigitsValue(digits);
      if !InInt32(v) then None
      else Some(v)
  }

  /** The accepted texts, built up: white space, an optional sign, digits
      and white space parse to the digits' signed value when it fits in 32
      bits, and fail otherwise. */
  lemma ParseInt32OfParts(w1: string, sign: string, digits: string, w2: string)
    requires forall k :: 0 <= k < |w1| ==> IsWhite(w1[k])
    requires forall k :: 0 <= k < |w2| ==> IsWhite(w2[k])
    requires sign in {"", "+", "-"}
    requires |digits| > 0 && AllDigits(digits)
    ensures var v: int := if sign == "-" then -(DigitsValue(digits) as int) else DigitsValue(digits);
            ParseInt32(w1 + (sign + digits) + w2) == if InInt32(v) then Some(v) else None
  {
    var m := sign + digits;
    var v: int := if sign == "-" then -(DigitsValue(digits) as int) else DigitsValue(digits);
    SignedDecimalOfParts(sign, digits);
    TrimPadded(w1, m, w2, IsWhite);
    ParseInt32OfTrimmed(w1 + m + w2, v);
  }

  /** An optional sign before digits is a signed decimal text, with neither
      end white. */
  lemma SignedDecimalOfParts(sign: string, digits: string)
    requires sign in {"", "+", "-"}
    requires |digits| > 0 && AllDigits(digits)
    ensures var m := sign + digits;
            && SignedDecimal(m, if sign == "-" then -(DigitsValue(digits) as int) else DigitsValue(digits))
            && !IsWhite(m[0]) && !IsWhite(m[|m| - 1])
  {
    var m := sign + digits;
    assert m[|m| - 1] == digits[|digits| - 1];
    if sign == "" {
      assert m == digits;
    } else {
      assert m[1..] == digits;
    }
  }

  /** Parsing depends only on the trimmed text's signed value. */
  lemma ParseInt32OfTrimmed(s: string, v: int)
    requires SignedDecimal(Trim(s, IsWhite), v)
    ensures ParseInt32(s) == if InInt32(v) then Some(v) else None
  {
    var r := ParseInt32(s);
    if r.Some? {
      SignedDecimalUnique(Trim(s, IsWhite), r.value, v);
    }
  }

  /** A signed decimal text denotes one value. */
  lemma SignedDecimalUnique(t: string, a: int, b: int)
    requires SignedDecimal(t, a) && SignedDecimal(t, b)
    ensures a == b
  {
  }

  /** Printing a 32-bit integer and parsing it back gives the integer. */
  lemma IntToStringRoundTrip(i: int)
    requires InInt32(i)
    ensures ParseInt32(IntToString(i)) == Some(i)
  {
    var s := IntToString(i);
    var n: nat := if i < 0 then -i else i;
    DigitsValueOfNatToString(n);
    assert !IsWhite(s[0]) && !IsWhite(s[|s| - 1]);
    assert Trim(s, IsWhite) == s;
    if i < 0 {
      assert s[1..] == NatToString(n);
    } else {
      assert s[0] != '-' && s[0] != '+';
    }
  }

  // ---------------------------------------------------------------------------
  // Booleans and case
  // ---------------------------------------------------------------------------

  function LowerChar(ch: char): char {
    if 'A' <= ch <= 'Z' then ((ch as int) + 32) as char else ch
  }

  /** `ToLowerInvariant` on ASCII text. */
  function LowerAscii(s: string): (r: string)
    ensures |r| == |s|
    ensures forall k :: 0 <= k < |s| ==> r[k] == LowerChar(s[k])
  {
    seq(|s|, k requires 0 <= k < |s| => LowerChar(s[k]))
  }

  /** Lowering twice is lowering once. */
  lemma LowerAsciiIdempotent(s: string)
    ensures LowerAscii(LowerAscii(s)) == LowerAscii(s)
  {
  }

  /** The words `bool.Parse` accepts, in lower case. */
  function BoolWord(b: bool): string {
    if b then "true" else "false"
  }

  /** `bool.Parse`: "true" or "false" in any letter case, surrounded by
      optional white space and NUL characters. */
  function ParseBool(s: string): (r: Option<bool>)
    ensures r.Some? ==> LowerAscii(Trim(s, IsSpaceOrNull)) == BoolWord(r.value)
    ensures forall b :: LowerAscii(Trim(s, IsSpaceOrNull)) == BoolWord(b) ==> r == Some(b)
  {
    var t := LowerAscii(Trim(s, IsSpaceOrNull));
    if t == "true" then Some(true)
    else if t == "false" then Some(false)
    else None
  }

  /** The accepted texts, built up: a word that lowers to "true" or
      "false", padded with white space or NULs, parses to that value. */
  lemma ParseBoolOfParts(w1: string, word: string, w2: string, b: bool)
    requires forall k :: 0 <= k < |w1| ==> IsSpaceOrNull(w1[k])
    requires forall k :: 0 <= k < |w2| ==> IsSpaceOrNull(w2[k])
    requires LowerAscii(word) == BoolWord(b)
    ensures ParseBool(w1 + word + w2) == Some(b)
  {
    assert word[0] == 't' || word[0] == 'T' || word[0] == 'f' || word[0] == 'F' by {
      assert LowerChar(word[0]) == BoolWord(b)[0];
    }
    assert LowerChar(word[|word| - 1]) == 'e';
    TrimPadded(w1, word, w2, IsSpaceOrNull);
  }

  /** `bool.Parse` trims the ideographic space as well as ASCII white
      space. */
  lemma ParseBoolWideSpace()
    ensures ParseBool("TRUE\U{3000}") == Some(true)
  {
    ParseBoolOfParts("", "TRUE", "\U{3000}", true);
    assert "" + "TRUE" + "\U{3000}" == "TRUE\U{3000}";
  }

  /** `bool.ToString()`. */
  function BoolToString(b: bool): string {
    if b then "True" else "False"
  }

  /** `bool.Parse(b.ToString()) == b`. */
  lemma BoolRoundTrip(b: bool)
    ensures ParseBool(BoolToString(b)) == Some(b)
  {
    var s := BoolToString(b);
    assert LowerAscii(s) == BoolWord(b);
    ParseBoolOfParts("", s, "", b);
    assert "" + s + "" == s;
  }
}

=== FILE: wrappers.dfy ===
/** Failure-carrying wrappers shared by the whole model. */
module Wrappers {

  /** A value that may be absent; stands for a C# reference that may be null. */
  datatype Option<+T> = None | Some(value: T) {

    /** The carried value, or `default` when absent (the C# `??` operator). */
    function GetOr(default: T): T {
      match this
      case Some(v) => v
      case None => default
    }
  }

  /** Either a computed value or the error that stopped the computation. */
  datatype Result<+T, +E> = Ok(value: T) | Err(error: E) {

    predicate IsFailure() {
      Err?
    }

    function PropagateFailure<U>(): Result<U, E>
      requires Err?
    {
      Err(error)
    }

    function Extract(): T
      requires Ok?
    {
      value
    }
  }
}
